=== FILE: README.md ===
# Valorant stats frontend — a Dafny model of its page logic

The application is a React frontend for a Valorant statistics service. A
player types a Riot id such as `Name#TAG` on the landing page. The page
checks that the player exists and navigates to `/profile/<name>-<tag>`. The
profile page loads the player and their match list, polls a background sync
job, and opens a match scoreboard. The dashboard summarises the matches
(wins, losses, win rate, K/D/A totals, a recent-scores strip). Each match is
a card. A coach panel streams an AI report and "types" it out character by
character while rendering a small markdown subset.

This project models the logic of those components as pure Dafny functions
and step functions, and proves properties about them:

- **JS primitives** are modelled explicitly, with their JavaScript semantics:
  - `JsString`: `trim`, `split`, `lastIndexOf`, `slice` with negative indices, `padStart`;
  - `JsNumber`: `Number()` on strings, integer `toString`, `Math.round` of a ratio, `Math.floor`;
  - `JsValue`: truthiness of `undefined`/`null`/string/number;
  - `UriEncoding`: `encodeURIComponent`, including its UTF-8 escapes.
- **Components**: one module per component file.
  - `HeroSection`: search-box parsing and the format hint.
  - `LandingPage`: the lookup-then-navigate handler.
  - `ProfilePage`: URL slug parsing, loading, update polling, match overlay.
  - `ProfileDashboard`: statistics, grouping, tally, preview strip, row click.
  - `MatchDetail`: team tables, duration, per-player cells, badges.
  - `MatchHistoryCard`: colours, badge, position badge, K/D tone.
  - `RankCircle`: the 24 segments and the RR caption.
  - `CoachReportFormat`: `cleanHeader`, `parseInline`, `formatText`.
  - `CoachReport`: the streaming, typewriter and stage state machine, and the panel.
- **Outside effects** become inputs:
  - Network answers are a `Fetch<T>`: `Ok(body)`, `NotOk`, or `Rejected(thrown)`.
  - Timers (typewriter timeouts, stage and poll intervals, hide timeouts) are discrete events.
  - A React effect is a function of the state. `CoachReport.Commit` reruns it after a state change, when one of its dependencies changed.

Some properties follow the source to the letter and then show a consequence:

- A tagline containing `-` cannot round-trip through the profile URL. The page splits the slug at its last `-`, and `encodeURIComponent` leaves `-` alone.
- A search box holding `#NA1` shows the "valid format" hint, but submitting it does nothing.
- The scoreboard's sort is stable. Its team badge therefore follows the first listed player among those with the best position.

## Model

| member | source | states |
|---|---|---|
| HeroSection.HandleSubmit | src/components/HeroSection.tsx:14-26 | no search without `#` in the trimmed input; a search always has a non-empty, `#`-free Riot id and tagline |
| HeroSection.SearchOf | src/components/HeroSection.tsx:18-25 | on trimmed input: no `#`, no search; a search always has non-empty, `#`-free parts |
| HeroSection.SubmitShape | src/components/HeroSection.tsx:17-25 | a search for (a, b) happens exactly when the trimmed input is `a#b`, optionally followed by `#…`, with a and b non-empty and `#`-free |
| HeroSection.ShapeSearches | src/components/HeroSection.tsx:22-24 | input of the shape `a#b[#…]` searches for exactly a and b |
| HeroSection.SearchHasShape | src/components/HeroSection.tsx:22-24 | conversely, the pieces of any search sit where the shape says |
| HeroSection.ExtraHashDropped | src/components/HeroSection.tsx:22 | text after a second `#` is silently dropped: `a#b#c` searches for a and b |
| HeroSection.RiotIdNotPadded | src/components/HeroSection.tsx:17 | the Riot id never starts with whitespace |
| HeroSection.SingleHashWhole | src/components/HeroSection.tsx:22 | with one `#`, the two pieces and the `#` make up the whole trimmed input |
| HeroSection.TaglineNotPadded | src/components/HeroSection.tsx:17-22 | with one `#`, the tagline never ends in whitespace |
| HeroSection.TaglineKeepsSpaceBeforeSecondHash | src/components/HeroSection.tsx:17-22 | with a second `#`, whitespace before it stays in the tagline (`ab#cd #x` searches for `cd `) |
| HeroSection.IsValidFormat | src/components/HeroSection.tsx:28 | the hint holds exactly when the raw input has one `#` and does not end with it |
| HeroSection.ValidFormatWithoutName | src/components/HeroSection.tsx:18-28 | the hint does not imply a search: `#NA1` passes the hint, and submitting it does nothing |
| LandingPage.BeginSearch | src/pages/LandingPage.tsx:12-13 | a search starts loading and clears any earlier error |
| LandingPage.FinishSearch | src/pages/LandingPage.tsx:20-35 | loading always ends; navigation happens exactly when the lookup answered ok, to the encoded profile path; a not-ok answer shows "Player not found", a non-Error rejection the fallback message |
| LandingPage.HandleSearch | src/pages/LandingPage.tsx:11-36 | a completed search shows no error exactly when the lookup succeeded |
| LandingPage.SearchForgetsEarlierState | src/pages/LandingPage.tsx:12-13 | the outcome of a search does not depend on the state it started from |
| LandingPage.SearchShowsErrorUnlessFound | src/pages/LandingPage.tsx:22-32 | a lookup succeeds exactly when the page ends idle, with no error, navigating to the profile; a missing player shows "Player not found" |
| LandingPage.ErrorBanner | src/components/HeroSection.tsx:118-124 | the banner shows exactly a non-empty error: an error that is set and non-empty is shown as is, and nothing else is shown |
| LandingPage.FailedSearchBanner | src/pages/LandingPage.tsx:22-32 | after a failed search the banner shows the error, except for a thrown `Error` with an empty message, which shows nothing |
| LandingPage.LookupPath | src/pages/LandingPage.tsx:20 | the lookup path's `/`-segments are `api`, `v1`, `players` and the two encoded parts: an encoded name never adds a segment |
| LandingPage.Slug | src/pages/LandingPage.tsx:28 | the profile path segment: both parts encoded and joined by `-`; it holds no `/`, so it stays one segment |
| LandingPage.ProfilePath | src/pages/LandingPage.tsx:28 | the navigation target splits at `/` into exactly the empty root, `profile` and the segment |
| UriEncoding.EncodeUriComponent | src/pages/LandingPage.tsx:20 | encoding never shortens text |
| UriEncoding.EncodedHyphen | src/pages/LandingPage.tsx:28 | the encoded text contains `-` exactly when the original does |
| UriEncoding.EncodeUnreserved | src/pages/LandingPage.tsx:28 | text of unreserved characters only is encoded as itself |
| UriEncoding.EncodedExcludes | src/pages/LandingPage.tsx:20 | `/`, `#` and every other reserved character never appear in encoded text |
| ProfilePage.ParseSlug | src/pages/ProfilePage.tsx:58-60 | a key is found exactly when the id has a `-`; the id is then name, `-`, tag, and the tag has no `-` |
| ProfilePage.ParseJoined | src/pages/ProfilePage.tsx:58-60 | splitting at the last `-` undoes joining with `-` exactly when the second part has no `-` |
| ProfilePage.SlugRoundTrip | src/pages/ProfilePage.tsx:58-60 | the path segment the landing page navigates to parses back to the two encoded parts exactly when the tagline has no `-`; the router's decoding is taken as the identity here (see DecodedRouteRequest) |
| ProfilePage.DecodedRouteRequest | src/pages/ProfilePage.tsx:41-76 | on the decoded route parameter `riotId-tagline` the page recovers the raw names exactly when the tagline has no `-`, and then requests the lookup with each name encoded once |
| ProfilePage.BeginLoad | src/pages/ProfilePage.tsx:62-76 | a request is made exactly for a valid key, to the lookup path, with loading on and the error cleared; a non-empty invalid id shows "Invalid profile URL" and stops loading; no id changes nothing |
| ProfilePage.InvalidIdShowsError | src/pages/ProfilePage.tsx:64-69 | an id without `-`, ending in `-`, or whose only `-` is the first character makes no request and shows the error screen |
| ProfilePage.NormaliseMatchId | src/pages/ProfilePage.tsx:96-99 | the mapping changes only `match_id`; a truthy one is kept; otherwise it falls back to the numeric id |
| ProfilePage.NormaliseStable | src/pages/ProfilePage.tsx:96-99 | normalising is idempotent and never changes the id a row click requests |
| ProfilePage.FinishLoad | src/pages/ProfilePage.tsx:76-108 | loading always ends; a missing player shows "Player not found.", a rejection its message or the fallback; a found player sets puuid and region; matches are replaced only by a successful list, otherwise "Failed to fetch matches." or the rejection's message shows; with a found player nothing but puuid, region, matches, error and loading changes |
| ProfilePage.SuccessfulLoad | src/pages/ProfilePage.tsx:72-107 | a valid id whose two requests succeed ends with no error and every match kept, except for its `match_id` |
| ProfilePage.RequestUpdate | src/pages/ProfilePage.tsx:115-119 | without puuid and region nothing happens; otherwise updating starts at 0% |
| ProfilePage.TriggerAnswered | src/pages/ProfilePage.tsx:125-161 | an accepted trigger starts one more poll interval; a failed one shows "Sync failed to start." and schedules a hide |
| ProfilePage.ProgressPercent | src/pages/ProfilePage.tsx:148-149 | progress with 0 ≤ current ≤ total stays within 0..100 |
| ProfilePage.PollTick | src/pages/ProfilePage.tsx:130-156 | SUCCESS stops this interval at 100% with the refreshed, normalised list and schedules a hide; FAILURE stops it and schedules a hide; PROGRESS sets the status or "Fetching from API..." and, with a truthy total, the progress to the rounded percentage current/total; each of them changes no other field; any other reply changes nothing |
| ProfilePage.ProgressBounded | src/pages/ProfilePage.tsx:146-150 | a PROGRESS reply with 0 ≤ current ≤ total and a truthy total sets the rounded percentage, within 0..100 |
| ProfilePage.HideTimerFires | src/pages/ProfilePage.tsx:145 | a hide timer only hides the progress bar |
| ProfilePage.PendingForever | src/pages/ProfilePage.tsx:130-156 | replies that neither settle nor report progress leave the page unchanged, however many arrive |
| ProfilePage.SecondUpdateDoublesPolling | src/pages/ProfilePage.tsx:114-130 | a second update request while one is polling starts a second interval |
| ProfilePage.BeginMatchClick | src/pages/ProfilePage.tsx:166-167 | a click clears the selection and shows loading, and changes nothing else |
| ProfilePage.FinishMatchClick | src/pages/ProfilePage.tsx:169-178 | loading ends; only a successful request selects a match; nothing else changes |
| ProfilePage.CloseMatch | src/pages/ProfilePage.tsx:181-183 | closing clears the selection and nothing else |
| ProfilePage.Overlay | src/pages/ProfilePage.tsx:185-222 | the overlay shows exactly while no error screen is shown and a match is selected or loading, as the scoreboard renders it |
| ProfilePage.InvalidRouteHidesOverlay | src/pages/ProfilePage.tsx:64-69 | a route change to an unusable id keeps the selected match but shows the error screen and no overlay |
| ProfilePage.FailedClickClosesOverlay | src/pages/ProfilePage.tsx:165-179 | a click whose request fails ends loading with no match selected, so the overlay closes and nothing is shown |
| ProfileDashboard.CalculateStats | src/components/ProfileDashboard.tsx:34-83 | an empty list gives the zero statistics; the total is the list length; the wins, losses and MVP games are the matches with result `win`, result `loss` and position `MVP`, and wins plus losses never exceed the total; the win rate is the rounded percentage of wins, within 0..100; the K/D/A totals are the sums of the parsed `kda` fields |
| ProfileDashboard.CountResult | src/components/ProfileDashboard.tsx:52-53 | at most one per match, and zero exactly when no match has that result |
| ProfileDashboard.CountPosition | src/components/ProfileDashboard.tsx:54 | at most one per match, and zero exactly when no match has that position |
| ProfileDashboard.CountDistinctResults | src/components/ProfileDashboard.tsx:52-53 | no match is counted under two different results |
| ProfileDashboard.WinsAndLosses | src/components/ProfileDashboard.tsx:52-54 | wins plus losses never exceed the number of matches |
| ProfileDashboard.CountResultAppend | src/components/ProfileDashboard.tsx:52-53 | counting over a concatenation adds the two counts |
| ProfileDashboard.CountPositionAppend | src/components/ProfileDashboard.tsx:54 | the MVP count of two lists together is the sum of their counts |
| ProfileDashboard.AddingAMatch | src/components/ProfileDashboard.tsx:52-66 | one more match adds one match, one win or one loss exactly per its result, one MVP game exactly when it is one, and its parsed K/D/A onto the totals |
| ProfileDashboard.KdaField | src/components/ProfileDashboard.tsx:61-67 | a field is never NaN, and a missing field counts as 0 |
| ProfileDashboard.ParseKda | src/components/ProfileDashboard.tsx:61-67 | no kill, death or assist contribution is NaN |
| ProfileDashboard.ParseKdaText | src/components/ProfileDashboard.tsx:61-67 | a `k/d/a` string as the scoreboard writes it parses back to exactly k, d and a |
| ProfileDashboard.TotalsOfWholeNumbers | src/components/ProfileDashboard.tsx:57-67 | totals over such strings are the exact column sums |
| ProfileDashboard.SumOfWholeNumbers | src/components/ProfileDashboard.tsx:61-67 | sums of whole numbers stay finite and add up exactly |
| ProfileDashboard.MissingFieldsCountZero | src/components/ProfileDashboard.tsx:61-67 | a `kda` without `/` contributes no deaths and no assists |
| ProfileDashboard.ParsedKdas | src/components/ProfileDashboard.tsx:61-67 | one parsed triple per match, in order |
| ProfileDashboard.KdaTotals | src/components/ProfileDashboard.tsx:57-67 | zero for no matches; otherwise the last match adds its own parsed `kda` to the totals of the matches before it |
| ProfileDashboard.AddToGroup | src/components/ProfileDashboard.tsx:92-97 | adding a match grows the group list by at most one |
| ProfileDashboard.GroupMatchesByDate | src/components/ProfileDashboard.tsx:88-101 | an empty list forms no group; otherwise one "Recent Matches" group holds every match in order |
| ProfileDashboard.GroupTally | src/components/ProfileDashboard.tsx:262 | the tally splits at spaces into `<wins>W`, `/`, `<losses>L` for the group |
| ProfileDashboard.TallyReadsBack | src/components/ProfileDashboard.tsx:262 | the two numbers read back as the group's win and loss counts, which never exceed its size |
| ProfileDashboard.Preview | src/components/ProfileDashboard.tsx:224-233 | the strip shows the first eight matches in order, each with its caption |
| ProfileDashboard.PreviewLabel | src/components/ProfileDashboard.tsx:233 | "Latest" exactly for the first icon; every other caption is a number that reads back as `index + 1`, then " ago", so no two icons share a caption |
| ProfileDashboard.RowClickId | src/components/ProfileDashboard.tsx:270 | the requested id is never empty; without a truthy `match_id` it reads back as the numeric id; a non-empty text `match_id` is used as is; a non-zero numeric one reads back as that number |
| ProfileDashboard.MatchIdText | src/components/ProfileDashboard.tsx:270 | the text of a numeric match id reads back as that number |
| MatchDetail.Render | src/components/MatchDetail.tsx:47-71 | loading wins; then a missing match shows "not found"; otherwise the blue and red tables |
| MatchDetail.OnTeam | src/components/MatchDetail.tsx:70-71 | the filter keeps every player of that team as often as the input lists them and nobody else, in input order |
| MatchDetail.OnTeamAppend | src/components/MatchDetail.tsx:70-71 | filtering a concatenation filters each part |
| MatchDetail.AtPositionOnTeam | src/components/MatchDetail.tsx:70-71 | choosing a team and choosing a position commute |
| MatchDetail.SortByPosition | src/components/MatchDetail.tsx:70-71 | the same players, as many times each; SortSorted and SortKeepsTies give the order |
| MatchDetail.TeamOf | src/components/MatchDetail.tsx:70-71 | only players of that team, and none that the match does not list; TeamTable pins the rest |
| MatchDetail.SortSorted | src/components/MatchDetail.tsx:70-71 | the sort orders players by ascending position |
| MatchDetail.InsertSorted | src/components/MatchDetail.tsx:70-71 | inserting into a sorted table keeps it sorted |
| MatchDetail.SortKeepsTies | src/components/MatchDetail.tsx:70-71 | the sort is stable: players sharing a position keep their input order |
| MatchDetail.TeamTable | src/components/MatchDetail.tsx:70-71 | a team table holds each of that team's players as often as the match lists them and nobody else, sorted by position, and the players at each position in match order |
| MatchDetail.OtherTeamsHidden | src/components/MatchDetail.tsx:70-71 | a player on neither Blue nor Red appears in no table |
| MatchDetail.DurationParts | src/components/MatchDetail.tsx:73-75 | for a non-negative duration: whole minutes, and seconds in 0..59 that bracket the duration to the second |
| MatchDetail.FormatDuration | src/components/MatchDetail.tsx:73-77 | for a non-negative duration: the colon is third from the end, the text before it reads back as the minutes, and the last two characters are the digits of the seconds |
| MatchDetail.DurationSeconds | src/components/MatchDetail.tsx:76 | the seconds field is exactly two digits that read back as the seconds |
| MatchDetail.DurationColon | src/components/MatchDetail.tsx:76 | the text splits at its only colon into the minutes and the padded seconds |
| MatchDetail.TruncRem | src/components/MatchDetail.tsx:75 | `%` takes the sign of the dividend, as in JavaScript, is smaller than the divisor in size, and differs from the dividend by a multiple of the divisor |
| MatchDetail.ShownKd | src/components/MatchDetail.tsx:181 | a truthy `kdRatio` is shown as is; otherwise zero deaths show the kills and other cases the ratio |
| MatchDetail.KdWithoutDeaths | src/components/MatchDetail.tsx:181 | with no ratio and no deaths, the kills are shown, and they read the same as their text |
| MatchDetail.HeadshotPercent | src/components/MatchDetail.tsx:184 | with shots, the percentage is within 0..100; with no shots it is NaN exactly when there are no headshots |
| MatchDetail.ShownHeadshots | src/components/MatchDetail.tsx:184 | a truthy `hsPercent` is kept; otherwise the fallback is never NaN, and a player with no shots shows 0 |
| MatchDetail.KdaText | src/components/MatchDetail.tsx:185 | the fallback text splits at `/` into the three counts |
| MatchDetail.ShownKda | src/components/MatchDetail.tsx:185 | a non-empty `kda` is kept; otherwise the counts are joined by `/` |
| MatchDetail.ShownPosition | src/components/MatchDetail.tsx:186 | a non-empty `fmt_pos` is kept; otherwise the position label |
| MatchDetail.PositionLabel | src/components/MatchDetail.tsx:186 | at least three characters; LabelKinds and PositionLabelsDistinct say which label each position gets |
| MatchDetail.PositionLabelsDistinct | src/components/MatchDetail.tsx:186 | different positions never share a label |
| MatchDetail.LabelKinds | src/components/MatchDetail.tsx:186 | positions 1, 2 and 3 read MVP, 2nd and 3rd; every other label is a number followed by `th` |
| MatchDetail.TeamBadge | src/components/MatchDetail.tsx:128-129 | an empty team shows DEFEAT |
| MatchDetail.BadgeFollowsLeader | src/components/MatchDetail.tsx:128-129 | VICTORY exactly when the table's first player won; that player is in the match, on the team, with the lowest position, and the first such player in match order |
| MatchHistoryCard.OutcomeOf | src/components/MatchHistoryCard.tsx:40-41 | anything but `win` or `draw` is a loss |
| MatchHistoryCard.LookOf | src/components/MatchHistoryCard.tsx:44-107 | a loss alone is badged "Defeat" and shows its lost-rounds figure in the loss colour; LooksDistinct separates every class |
| MatchHistoryCard.LooksDistinct | src/components/MatchHistoryCard.tsx:44-107 | border, background, badge text, badge class and won-score class each tell the three outcomes apart; the lost score is red exactly for a loss |
| MatchHistoryCard.BadgeText | src/components/MatchHistoryCard.tsx:107 | Victory exactly for `win`, Draw exactly for `draw`, Defeat for everything else |
| MatchHistoryCard.PositionBadgeOf | src/components/MatchHistoryCard.tsx:109-125 | the badge always shows `fmt_pos` itself |
| MatchHistoryCard.PositionBadgeShows | src/components/MatchHistoryCard.tsx:109-125 | the badge is highlighted exactly for MVP, 2nd and 3rd, and is determined by its caption |
| MatchHistoryCard.KdTone | src/components/MatchHistoryCard.tsx:135 | the neutral colour exactly when `Number(kdRatio)` is neither above nor below 1 |
| MatchHistoryCard.KdToneOfNumber | src/components/MatchHistoryCard.tsx:135 | a finite ratio is green above 1, red below 1, neutral at 1 |
| MatchHistoryCard.KdToneOfText | src/components/MatchHistoryCard.tsx:135 | a ratio given as integer text is coloured as its value |
| MatchHistoryCard.KdToneOfMissing | src/components/MatchHistoryCard.tsx:135 | a missing or unparsable ratio is neutral |
| MatchHistoryCard.CardOf | src/components/MatchHistoryCard.tsx:40-125 | the card shows `fmt_pos`, and Victory exactly for a win |
| RankCircle.FilledSegments | src/components/RankCircle.tsx:9-11 | never more than 24 filled; the default tier is 12 |
| RankCircle.Segments | src/components/RankCircle.tsx:23-55 | exactly 24 segments |
| RankCircle.Band | src/components/RankCircle.tsx:45-54 | a filled segment always gets one of the three gradients; Bands gives their ranges |
| RankCircle.SegmentAt | src/components/RankCircle.tsx:41-55 | filled exactly below the count, highlighted exactly as the last filled one (so never when empty), and coloured exactly when filled |
| RankCircle.FilledPrefix | src/components/RankCircle.tsx:41-55 | the filled segments are exactly the first min(tier, 24), and only those are coloured |
| RankCircle.CurrentSegment | src/components/RankCircle.tsx:42 | at most the last filled segment is highlighted; a tier of 0 or less fills and highlights nothing |
| RankCircle.Bands | src/components/RankCircle.tsx:47-54 | segments 0-7 are phantom, 8-15 mixed, 16-23 dragon |
| RankCircle.TierMonotone | src/components/RankCircle.tsx:41-54 | a higher tier fills every segment a lower one fills, in the same colour |
| RankCircle.RrCaption | src/components/RankCircle.tsx:140 | the caption splits into the RR (default 50) and `RR` |
| RankCircle.RrCaptionReadsBack | src/components/RankCircle.tsx:140 | the caption's number reads back as the RR |
| CoachReportFormat.StripMarkup | src/components/CoachReport.tsx:88 | no `*`, `#` or `_` is left; markup-free text is unchanged |
| CoachReportFormat.StripMarkupAppend | src/components/CoachReport.tsx:88 | stripping a concatenation strips each part, so the kept characters stay in order |
| CoachReportFormat.StripMarkupChar | src/components/CoachReport.tsx:88 | a `*`, `#` or `_` is dropped and any other character kept |
| CoachReportFormat.CleanHeader | src/components/CoachReport.tsx:87-89 | a cleaned header is markup-free and trimmed |
| CoachReportFormat.CleanHashHeader | src/components/CoachReport.tsx:87-89 | a run of markers, a space and a trimmed markup-free title clean to the title |
| CoachReportFormat.CleanBoldHeader | src/components/CoachReport.tsx:87-89 | `**title**` cleans to the title |
| CoachReportFormat.CleanHeaderIdempotent | src/components/CoachReport.tsx:87-89 | cleaning twice is cleaning once |
| CoachReportFormat.MatchAt | src/components/CoachReport.tsx:94 | a lazy match starts and ends with a star run of the delimiter's width |
| CoachReportFormat.Scan | src/components/CoachReport.tsx:94 | the split gives at least one piece; ScanConcat shows that no text is lost |
| CoachReportFormat.ScanConcat | src/components/CoachReport.tsx:94 | the pieces of the split, captures included, concatenate back to the input |
| CoachReportFormat.SplitKeepingConcat | src/components/CoachReport.tsx:94-101 | splitting with a kept capture loses no text |
| CoachReportFormat.ItalicPieces | src/components/CoachReport.tsx:101-106 | the italic pass, with its length guard, loses no text |
| CoachReportFormat.BoldPiece | src/components/CoachReport.tsx:96-98 | with a length guard, a bold piece restores to exactly its text |
| CoachReportFormat.ParseInline | src/components/CoachReport.tsx:92-109 | with the guard, the inline pieces spell exactly the input |
| CoachReportFormat.ParseInlineAsWritten | src/components/CoachReport.tsx:92-109 | as written, the parser agrees with the guarded one, and its pieces spell the input, whenever no bare `**` or `***` is left between bold spans |
| CoachReportFormat.StarlessText | src/components/CoachReport.tsx:92-109 | text without `*` has no such marker, so its pieces spell it |
| CoachReportFormat.LoneBoldMarkerVanishes | src/components/CoachReport.tsx:96-98 | as written, the line `**` becomes an empty bold span and its text is lost; with the guard it stays |
| CoachReportFormat.ClassifyLine | src/components/CoachReport.tsx:113-155 | rule, header, bullet, spacer and paragraph, each exactly under its condition on the trimmed line, in source order; a header is the cleaned line with no markup; a bullet spells the trimmed line after its marker, and a paragraph the untrimmed line, unless a bare `**` or `***` is left between bold spans |
| CoachReportFormat.HashHeaderLine | src/components/CoachReport.tsx:113-135 | the line `## title` is a header showing the title |
| CoachReportFormat.BoldHeaderLine | src/components/CoachReport.tsx:113-135 | a line `**title**` shorter than 80 characters is a header showing the title |
| CoachReportFormat.LoneMarkerLine | src/components/CoachReport.tsx:96-98 | the line `**` is a paragraph of one empty bold span |
| CoachReportFormat.FormatText | src/components/CoachReport.tsx:112-157 | one block per line, classified in order |
| CoachReport.Generate | src/components/CoachReport.tsx:49-55 | a generation empties both texts, opens the panel and waits; the stage effect then sets stage 1, unless the panel was already waiting, when the effect does not rerun and the stage stays 0 |
| CoachReport.Commit | src/components/CoachReport.tsx:19-47 | the two effects touch only the typing indicator and the stage; with no dependency changed nothing runs; after the typewriter effect the indicator is on exactly while text is left |
| CoachReport.Toggle | src/components/CoachReport.tsx:220 | the header click flips `isExpanded` and changes nothing else |
| CoachReport.Chunk | src/components/CoachReport.tsx:69-77 | a chunk is appended to the report; the typed text stays a prefix, and the stage jumps to 3 |
| CoachReport.StreamEnded | src/components/CoachReport.tsx:81-83 | the end of the stream stops loading and changes no text |
| CoachReport.StreamFailedAsWritten | src/components/CoachReport.tsx:78-80 | as written, a failure replaces the report with the message and keeps the typed text |
| CoachReport.StreamFailed | src/components/CoachReport.tsx:78-80 | corrected: a failure also empties the typed text, so the message gets typed |
| CoachReport.StageTick | src/components/CoachReport.tsx:42-44 | while waiting, the stage advances by one up to 3 and never goes back |
| CoachReport.TypeTick | src/components/CoachReport.tsx:20-35 | one tick types one more character of the report; typing stops at its end with stage 4 |
| CoachReport.Step | src/components/CoachReport.tsx:19-84 | as written: every event keeps `isTyping` true exactly while text remains; every event but a failed stream keeps the typed text a prefix of the report; a failure puts in the message and keeps the typed text; report mode, once entered, stays |
| CoachReport.StepCorrected | src/components/CoachReport.tsx:19-84 | corrected: every event keeps the typed text a prefix of the report and the indicator right; it differs from the written step only on a failure |
| CoachReport.Run | src/components/CoachReport.tsx:19-84 | an empty run changes nothing; once a report has been requested (`hasReport` set only by a Generate click, line 53) no later event brings back the empty prompt |
| CoachReport.RunCorrected | src/components/CoachReport.tsx:19-84 | the same report-mode invariant for the corrected machine |
| CoachReport.RunIndicated | src/components/CoachReport.tsx:19-84 | as written, every run of events keeps the typing indicator right |
| CoachReport.RunConsistent | src/components/CoachReport.tsx:19-84 | as written, every run without a failed stream keeps the typed text a prefix of the report |
| CoachReport.RunsAgree | src/components/CoachReport.tsx:78-80 | without a failed stream, the written and the corrected machine do the same |
| CoachReport.RunCorrectedConsistent | src/components/CoachReport.tsx:19-84 | corrected: every run of events keeps the typed text a prefix of the report |
| CoachReport.ReachableConsistent | src/components/CoachReport.tsx:19-84 | as written, from the initial state the indicator is always right, and the typed text is a prefix of the report until a stream fails |
| CoachReport.ReachableCorrected | src/components/CoachReport.tsx:19-84 | corrected: from the initial state the typed text is always a prefix of the report |
| CoachReport.TypingCompletes | src/components/CoachReport.tsx:20-35 | typing out the rest of the report shows all of it, then stops at stage 4 |
| CoachReport.StagesSaturate | src/components/CoachReport.tsx:42-44 | n stage ticks reach min(stage + n, 3) |
| CoachReport.ChunksAccumulate | src/components/CoachReport.tsx:69-77 | a stream of chunks appends their concatenation and leaves the typed text alone |
| CoachReport.StaleTextAfterFailure | src/components/CoachReport.tsx:78-80 | as written, once at least 50 characters are typed, the message is never typed |
| CoachReport.StaleAfterTypedStream | src/components/CoachReport.tsx:49-80 | a reachable instance: a fully typed report of 50 or more characters stays on screen after the failure |
| CoachReport.FailureMessageTyped | src/components/CoachReport.tsx:80 | corrected: the message is typed out in full |
| CoachReport.TypeDelay | src/components/CoachReport.tsx:24-25 | a character waits 10 or 30 ms |
| CoachReport.TypingTimeCount | src/components/CoachReport.tsx:24-25 | typing a text takes 10 ms per character plus 20 ms per `.` and line break |
| CoachReport.LoadingLabel | src/components/CoachReport.tsx:159-166 | the default caption exactly outside stages 1 to 3 |
| CoachReport.ProgressWidth | src/components/CoachReport.tsx:249 | 30% per stage for stages 1 to 3, and 90% for every other stage |
| CoachReport.LoadingLabelsDistinct | src/components/CoachReport.tsx:159-166 | stages 1-3 have their own labels; every other stage shows the default |
| CoachReport.PanelOf | src/components/CoachReport.tsx:229-285 | collapsed exactly when closed and idle; the progress view exactly while loading with nothing typed; the formatted typed text exactly when open or loading with something typed, the blocks of the formatted typed text, one per line, with a cursor exactly while typing |
| CoachReport.FinishedReportShown | src/components/CoachReport.tsx:229-285 | a finished, expanded report shows the whole formatted report with no cursor |
| JsString.Trim | src/components/HeroSection.tsx:17 | the result has no whitespace at either end, and it is the input with leading and trailing whitespace removed |
| JsString.TrimIdempotent | src/components/HeroSection.tsx:17 | trimming twice is trimming once |
| JsString.Split | src/components/HeroSection.tsx:22 | at least one piece; exactly one when the separator is absent |
| JsString.SplitCount | src/components/HeroSection.tsx:28 | there is one piece more than the number of separators |
| JsString.JoinSplit | src/components/HeroSection.tsx:22 | joining the pieces restores the input |
| JsString.SplitJoin | src/components/ProfileDashboard.tsx:61 | splitting separator-free pieces joined by the separator gives them back |
| JsString.LastIndexOf | src/pages/ProfilePage.tsx:58 | -1 exactly when absent; otherwise the last occurrence |
| JsString.PadStart | src/components/MatchDetail.tsx:76 | the result has the target width (or the input's), ends with the input, and is filled with the pad character |
| JsNumber.StringToNumberOfInt | src/components/ProfileDashboard.tsx:61 | `Number` of an integer's decimal text is that integer |
| JsNumber.IntToStringInjective | src/components/MatchDetail.tsx:185 | different integers have different texts |
| JsNumber.RoundRatio | src/components/ProfileDashboard.tsx:73 | the result is the nearest integer to p/q, halves rounded up |
| JsNumber.PercentInRange | src/components/ProfileDashboard.tsx:73 | a rounded percentage of a part of a whole is within 0..100 |
| JsNumber.OrZero | src/components/ProfileDashboard.tsx:64-66 | `x \|\| 0` is never NaN and keeps every truthy number |

## Left out

- Network and routing are inputs. Each request's answer is a `Fetch<T>` value, and navigation is a returned path. Parsing the JSON bodies, the router's decoding of the `:id` parameter that `useParams()` returns (src/pages/ProfilePage.tsx:41), and the page's own `decodeURIComponent` of the display name (src/pages/ProfilePage.tsx:204) are not modelled.
- Scheduling is not modelled. Timers, React's batching of state updates and the interleaving of two concurrent streams or poll loops become discrete events in a chosen order. As a result, `CoachReport.Commit` runs each effect once per state change.
- ProfilePage.SlugRoundTrip: the router's decoding of the path segment is taken as the identity, so the lemma speaks of the segment's text. In the program the parts come back decoded, under the same no-`-` condition; DecodedRouteRequest states that case.
- `CoachReport.Chunk` does not model `TextDecoder`. Chunks are already decoded strings.
- Floating point is not modelled:
  - `toFixed(2)` of a K/D ratio and `avgKD` of a non-empty list;
  - the ADR, ACS and HS% averages and the performance bars;
  - RankCircle's ring geometry and RR arc.
- `JsNumber.RoundRatio`: `Math.round(p / q * 100)` is computed exactly on rationals, so a float error at an exact half is not modelled.
- `JsNumber.StringToNumber`: integer texts are modelled exactly. Texts of 21 or more digits, which JavaScript prints in exponent form, are not modelled.
- String lengths count Unicode scalar values, not UTF-16 code units. The 80-character header limit and `slice` therefore differ for characters outside the Basic Multilingual Plane.
- RankCircle.FilledSegments: a non-integer tier is not modelled, because the prop is typed as a whole number 0-24.
- CoachReportFormat.Scan: it is not stated that the odd-indexed pieces are the captured matches. Only the no-loss round trip is proved.
- ProfileDashboard.CalculateStats: the float averages (`avgKD`, `avgHS`, `avgADR`, `avgACS` of a non-empty list) are not part of the result. The K/D/A totals are stated as the running sums of the parsed fields; their numeric values are given only for whole-number `kda` text.
- Not part of this model, being presentation only:
  - `Background.tsx`, `StatCard.tsx`, `dashboard/StatCard.tsx` and `dashboard/MatchRow.tsx`;
  - `AgentCard.js`, `App.js` and `App.tsx`;
  - animation props.

## Findings

| source | as written | input that shows it | evidently intended | confidence | as-written member | corrected member |
|---|---|---|---|---|---|---|
| src/components/CoachReport.tsx:96-98 | the bold check tests only that a piece starts and ends with `**`, with no length check (the italic check has one) | a report line `**` (or `***`): the split leaves it whole, it is taken as bold, and `slice(2, -2)` is empty, so the asterisks vanish | treat a piece as bold only when it is at least four characters long, so a lone marker stays plain text | high, not executed | CoachReportFormat.LoneBoldMarkerVanishes | CoachReportFormat.ParseInline |
| src/components/CoachReport.tsx:78-80 | the catch replaces `fullReport` with the failure message but leaves `displayedText` | a stream that fails after at least 50 characters were typed: the old text is not a prefix of the 50-character message, so nothing more is typed and the stale partial report stays on screen | clear `displayedText` too, so that the failure message is typed out | medium, not executed | CoachReport.StaleAfterTypedStream | CoachReport.FailureMessageTyped |

The formatter, the panel and `CoachReport.Step`/`Run` follow the code as written. The corrected definitions stand beside them:
- `CoachReportFormat.ParseInline` is the guarded parser.
- `CoachReport.StreamFailed`, `StepCorrected` and `RunCorrected` are the machine with the failure clearing the typed text.

The contract of `CoachReportFormat.ParseInlineAsWritten` and the lemma `CoachReport.RunsAgree` show that each pair differs only on the inputs named in the table.

=== FILE: coach_report.dfy ===
/**
  The AI coach panel of src/components/CoachReport.tsx as a state machine:
  the report request and its streamed chunks, the simulated loading stages,
  and the typewriter that reveals the streamed text one character at a time.

  React state updates are modelled as functions from the state before an
  event to the state after it, followed by `Commit`, which runs each of the
  two effects whose dependency list changed. Timer callbacks are events that
  can happen only while their timer is pending.
 */
module CoachReport {
  import opened JsString
  import CoachReportFormat

  datatype Report = Report(
    fullReport: string,
    displayedText: string,
    isTyping: bool,
    isLoading: bool,
    isExpanded: bool,
    hasReport: bool,
    loadingStage: int)
  {
    /** What is displayed is a prefix of the report received so far. */
    predicate Typed() {
      StartsWith(fullReport, displayedText)
    }

    /** The typing indicator is on exactly while text is left to reveal. */
    predicate Indicated() {
      isTyping == (|displayedText| < |fullReport|)
    }

    /** `Typed` and `Indicated`. */
    predicate Consistent() {
      Typed() && Indicated()
    }

    /** The stage interval runs while the request is pending and nothing has arrived. */
    predicate Waiting() {
      isLoading && fullReport == ""
    }

    /** The typewriter has a timeout scheduled. */
    predicate TypingPending() {
      |displayedText| < |fullReport|
    }
  }

  const Initial: Report := Report("", "", false, false, false, false, 0)

  const FailureMessage: string := "Failed to generate report. Please try again later."

  // ---------------------------------------------------------------- effects

  /** The typewriter effect's immediate part. */
  function TypewriterEffect(r: Report): Report {
    if r.TypingPending() then r.(isTyping := true)
    else r.(isTyping := false, loadingStage := if |r.fullReport| > 0 then 4 else r.loadingStage)
  }

  /** The loading-stage effect: it restarts the interval at stage 1 while waiting. */
  function StageEffect(r: Report): Report {
    if r.Waiting() then r.(loadingStage := 1) else r
  }

  /** The values the two effects depend on: the report, the typed text and loading. */
  predicate SameDependencies(a: Report, b: Report) {
    a.fullReport == b.fullReport && a.displayedText == b.displayedText && a.isLoading == b.isLoading
  }

  /**
    Re-render after a state change: each effect runs when one of its
    dependencies changed. The effects touch only the typing indicator and
    the stage; with no dependency changed nothing happens; and once the
    typewriter effect has run, the indicator is right.
   */
  function Commit(before: Report, after: Report): (r: Report)
    ensures r.fullReport == after.fullReport && r.displayedText == after.displayedText
    ensures r.isLoading == after.isLoading && r.isExpanded == after.isExpanded && r.hasReport == after.hasReport
    ensures SameDependencies(before, after) ==> r == after
    ensures (after.fullReport, after.displayedText) != (before.fullReport, before.displayedText) ==> r.Indicated()
  {
    var typed :=
      if after.fullReport != before.fullReport || after.displayedText != before.displayedText
      then TypewriterEffect(after) else after;
    if after.isLoading != before.isLoading || after.fullReport != before.fullReport
    then StageEffect(typed) else typed
  }

  // ---------------------------------------------------------------- events

  /**
    A click on Generate (or Regenerate, which is never disabled). The stage
    shows 1 unless the interval was already running, in which case the effect
    does not re-run and the reset to 0 stands while the old interval goes on.
   */
  function Generate(r: Report): (s: Report)
    ensures s.Waiting() && s.hasReport && s.isExpanded && s.displayedText == ""
    ensures s.loadingStage == (if r.Waiting() then 0 else 1)
    ensures r.Consistent() ==> s.Consistent() && !s.isTyping
    ensures r.Indicated() ==> s.Indicated()
  {
    Commit(r, r.(isLoading := true, fullReport := "", displayedText := "",
                 hasReport := true, isExpanded := true, loadingStage := 0))
  }

  /** A decoded chunk of the stream is appended, and the stage jumps to "Drafting". */
  function Chunk(r: Report, text: string): (s: Report)
    ensures s.fullReport == r.fullReport + text
    ensures s.displayedText == r.displayedText && s.isLoading == r.isLoading
    ensures r.Typed() ==> s.Typed() && s.loadingStage == 3
    ensures r.Consistent() ==> s.Consistent()
    ensures r.Indicated() ==> s.Indicated()
  {
    Commit(r, r.(fullReport := r.fullReport + text, loadingStage := 3))
  }

  /** The `finally` after the stream ends (or when the response has no body). */
  function StreamEnded(r: Report): (s: Report)
    ensures !s.isLoading && !s.Waiting()
    ensures s.fullReport == r.fullReport && s.displayedText == r.displayedText
    ensures s.loadingStage == r.loadingStage
    ensures r.Consistent() ==> s.Consistent()
    ensures r.Indicated() ==> s.Indicated()
  {
    Commit(r, r.(isLoading := false))
  }

  /**
    The `catch` and `finally` of a failed request, as written: the report is
    replaced by the failure message but the text already typed stays.
   */
  function StreamFailedAsWritten(r: Report): (s: Report)
    ensures s.fullReport == FailureMessage && !s.isLoading
    ensures s.displayedText == r.displayedText
    ensures r.Indicated() ==> s.Indicated()
  {
    Commit(r, r.(fullReport := FailureMessage, isLoading := false))
  }

  /** A failed request that also clears the typed text, so the message is typed from its start. */
  function StreamFailed(r: Report): (s: Report)
    ensures s.fullReport == FailureMessage && !s.isLoading
    ensures s.displayedText == "" && s.Typed()
    ensures r.Consistent() ==> s.Consistent() && s.isTyping
  {
    Commit(r, r.(fullReport := FailureMessage, displayedText := "", isLoading := false))
  }

  /** One 800 ms tick of the stage interval: the stage climbs and stops at 3. */
  function StageTick(r: Report): (s: Report)
    requires r.Waiting()
    ensures s.Waiting() && s.Consistent() == r.Consistent()
    ensures s.loadingStage <= 3 ==> s.loadingStage == r.loadingStage + 1 || s.loadingStage == 3
    ensures r.loadingStage <= s.loadingStage
  {
    r.(loadingStage := if r.loadingStage < 3 then r.loadingStage + 1 else r.loadingStage)
  }

  /** The typewriter's timeout: one more character of the report is shown. */
  function TypeTick(r: Report): (s: Report)
    requires r.TypingPending()
    ensures s.fullReport == r.fullReport && s.isLoading == r.isLoading
    ensures |s.displayedText| == |r.displayedText| + 1
    ensures s.Consistent()
    ensures r.Typed() ==> StartsWith(s.displayedText, r.displayedText)
    ensures !s.TypingPending() ==> s.loadingStage == 4
  {
    var n := |r.displayedText| + 1;
    var shown := Slice(r.fullReport, 0, n);
    assert shown == r.fullReport[..n];
    assert StartsWith(r.fullReport, shown);
    Commit(r, r.(displayedText := shown))
  }

  /** The header click flips the panel open or closed and changes nothing else. */
  function Toggle(r: Report): (t: Report)
    ensures t.isExpanded != r.isExpanded
    ensures t.(isExpanded := r.isExpanded) == r
  {
    r.(isExpanded := !r.isExpanded)
  }

  datatype Event =
    | GenerateClicked
    | ChunkRead(text: string)
    | StreamClosed
    | StreamErrored
    | StageTimer
    | TypeTimer
    | ToggleClicked

  /**
    One event, as written: a failed stream keeps the text already typed. A
    timer event with no timer pending changes nothing. Only a failure can
    break `Typed`; the indicator stays accurate whatever happens.
   */
  function Step(r: Report, e: Event): (s: Report)
    ensures r.Indicated() ==> s.Indicated()
    ensures r.Consistent() && !e.StreamErrored? ==> s.Consistent()
    ensures e.StreamErrored? ==> s.fullReport == FailureMessage && s.displayedText == r.displayedText
    ensures r.hasReport || e.GenerateClicked? ==> s.hasReport
  {
    match e
    case GenerateClicked => Generate(r)
    case ChunkRead(text) => Chunk(r, text)
    case StreamClosed => StreamEnded(r)
    case StreamErrored => StreamFailedAsWritten(r)
    case StageTimer => if r.Waiting() then StageTick(r) else r
    case TypeTimer => if r.TypingPending() then TypeTick(r) else r
    case ToggleClicked => Toggle(r)
  }

  /** One event, with a failed stream clearing the typed text first. */
  function StepCorrected(r: Report, e: Event): (s: Report)
    ensures r.Consistent() ==> s.Consistent()
    ensures !e.StreamErrored? ==> s == Step(r, e)
    ensures e.StreamErrored? ==> s.fullReport == FailureMessage && s.displayedText == ""
  {
    match e
    case StreamErrored => StreamFailed(r)
    case _ => Step(r, e)
  }

  /**
    The events in order. Once a report has been requested the panel stays in
    report mode: no event brings back the empty Generate prompt.
   */
  function Run(r: Report, es: seq<Event>): (q: Report)
    ensures |es| == 0 ==> q == r
    ensures r.hasReport || GenerateClicked in es ==> q.hasReport
    decreases |es|
  {
    if |es| == 0 then r else Run(Step(r, es[0]), es[1..])
  }

  /** The corrected machine, run the same way, with the same report mode. */
  function RunCorrected(r: Report, es: seq<Event>): (q: Report)
    ensures |es| == 0 ==> q == r
    ensures r.hasReport || GenerateClicked in es ==> q.hasReport
    decreases |es|
  {
    if |es| == 0 then r else RunCorrected(StepCorrected(r, es[0]), es[1..])
  }

  /** A run with no failed stream. */
  predicate NoFailure(es: seq<Event>) {
    forall i :: 0 <= i < |es| ==> !es[i].StreamErrored?
  }

  /** As written, the typing indicator is on exactly while text is left to reveal, whatever happens. */
  lemma {:induction false} RunIndicated(r: Report, es: seq<Event>)
    requires r.Indicated()
    ensures Run(r, es).Indicated()
    decreases |es|
  {
    if |es| > 0 {
      RunIndicated(Step(r, es[0]), es[1..]);
    }
  }

  /** As written, as long as no stream fails the panel shows only the start of the report. */
  lemma {:induction false} RunConsistent(r: Report, es: seq<Event>)
    requires r.Consistent() && NoFailure(es)
    ensures Run(r, es).Consistent()
    decreases |es|
  {
    if |es| > 0 {
      assert !es[0].StreamErrored?;
      RunConsistent(Step(r, es[0]), es[1..]);
    }
  }

  /** Without failures the corrected machine and the written one agree. */
  lemma {:induction false} RunsAgree(r: Report, es: seq<Event>)
    requires NoFailure(es)
    ensures RunCorrected(r, es) == Run(r, es)
    decreases |es|
  {
    if |es| > 0 {
      assert !es[0].StreamErrored?;
      RunsAgree(Step(r, es[0]), es[1..]);
    }
  }

  /** With the fix, the panel never shows text that is not the start of the report. */
  lemma {:induction false} RunCorrectedConsistent(r: Report, es: seq<Event>)
    requires r.Consistent()
    ensures RunCorrected(r, es).Consistent()
    decreases |es|
  {
    if |es| > 0 {
      RunCorrectedConsistent(StepCorrected(r, es[0]), es[1..]);
    }
  }

  /** From the initial panel: as written, the indicator is always right, and the text is typed from the report until a stream fails. */
  lemma ReachableConsistent(es: seq<Event>)
    ensures Run(Initial, es).Indicated()
    ensures NoFailure(es) ==> Run(Initial, es).Typed()
  {
    assert Initial.Consistent();
    RunIndicated(Initial, es);
    if NoFailure(es) {
      RunConsistent(Initial, es);
    }
  }

  /** From the initial panel, the corrected machine only ever shows the start of the report. */
  lemma ReachableCorrected(es: seq<Event>)
    ensures RunCorrected(Initial, es).Typed()
  {
    assert Initial.Consistent();
    RunCorrectedConsistent(Initial, es);
  }

  // ---------------------------------------------------------------- runs of one kind of event

  function TypeTicks(r: Report, n: nat): Report
    decreases n
  {
    if n == 0 || !r.TypingPending() then r else TypeTicks(TypeTick(r), n - 1)
  }

  /** The typewriter reveals the whole report, one tick per missing character, and then marks it done. */
  lemma {:induction false} TypingCompletes(r: Report)
    requires r.Typed()
    ensures var s := TypeTicks(r, |r.fullReport| - |r.displayedText|);
      && s.displayedText == s.fullReport == r.fullReport
      && s.isLoading == r.isLoading && s.isExpanded == r.isExpanded
      && (r.TypingPending() ==> !s.isTyping && s.loadingStage == 4)
    decreases |r.fullReport| - |r.displayedText|
  {
    var n := |r.fullReport| - |r.displayedText|;
    if n == 0 {
      assert r.displayedText == r.fullReport[..|r.displayedText|] == r.fullReport;
    } else {
      var t := TypeTick(r);
      assert TypeTicks(r, n) == TypeTicks(t, n - 1);
      TypingCompletes(t);
      if !t.TypingPending() {
        assert TypeTicks(t, n - 1) == t;
      }
    }
  }

  function StageTicks(r: Report, n: nat): (s: Report)
    requires r.Waiting()
    ensures s.Waiting()
    decreases n
  {
    if n == 0 then r else StageTicks(StageTick(r), n - 1)
  }

  /** While waiting for the first chunk, `n` ticks advance the stage by `n`, but never past 3. */
  lemma {:induction false} StagesSaturate(r: Report, n: nat)
    requires r.Waiting() && 0 <= r.loadingStage <= 3
    ensures StageTicks(r, n).loadingStage == if r.loadingStage + n < 3 then r.loadingStage + n else 3
    decreases n
  {
    if n > 0 {
      StagesSaturate(StageTick(r), n - 1);
    }
  }

  function ReadChunks(r: Report, chunks: seq<string>): Report
    decreases |chunks|
  {
    if |chunks| == 0 then r else ReadChunks(Chunk(r, chunks[0]), chunks[1..])
  }

  /** The report is the concatenation of the chunks read, in order; reading one moves the stage to 3. */
  lemma {:induction false} ChunksAccumulate(r: Report, chunks: seq<string>)
    requires r.Typed()
    ensures var s := ReadChunks(r, chunks);
      && s.fullReport == r.fullReport + Concat(chunks)
      && s.displayedText == r.displayedText && s.isLoading == r.isLoading && s.Typed()
      && (|chunks| > 0 ==> s.loadingStage == 3)
    decreases |chunks|
  {
    if |chunks| > 0 {
      var c, rest := Chunk(r, chunks[0]), chunks[1..];
      ChunksAccumulate(c, rest);
      assert (r.fullReport + chunks[0]) + Concat(rest) == r.fullReport + Concat(chunks);
    }
  }

  // ---------------------------------------------------------------- the failure message

  /**
    As written, a stream that fails after at least as many characters as the
    failure message were typed leaves the old text on screen: it is not a
    prefix of the message, and the typewriter has nothing left to type.
   */
  lemma StaleTextAfterFailure(r: Report)
    requires |r.displayedText| >= |FailureMessage| && r.displayedText != FailureMessage
    ensures var s := StreamFailedAsWritten(r);
      && s.displayedText == r.displayedText
      && !s.Typed() && !s.TypingPending()
      && TypeTicks(s, |FailureMessage|) == s
  {
  }

  /** A reachable instance: a report of 50 or more characters is fully typed, then the stream fails. */
  lemma StaleAfterTypedStream(text: string)
    requires |text| >= |FailureMessage| && text != FailureMessage
    ensures var typed := TypeTicks(Chunk(Generate(Initial), text), |text|);
      && typed.displayedText == text
      && StreamFailedAsWritten(typed).displayedText == text
      && StreamFailedAsWritten(typed).fullReport == FailureMessage
  {
    FreshChunk(text);
    StaleAfterTyping(Chunk(Generate(Initial), text));
  }

  /** A report typed out from nothing, then failed, keeps the report on screen. */
  lemma StaleAfterTyping(c: Report)
    requires c.Typed() && c.displayedText == ""
    requires |c.fullReport| >= |FailureMessage| && c.fullReport != FailureMessage
    ensures var typed := TypeTicks(c, |c.fullReport|);
      && typed.displayedText == c.fullReport
      && StreamFailedAsWritten(typed).displayedText == c.fullReport
      && StreamFailedAsWritten(typed).fullReport == FailureMessage
  {
    assert |c.fullReport| - |c.displayedText| == |c.fullReport|;
    TypingCompletes(c);
    StaleTextAfterFailure(TypeTicks(c, |c.fullReport|));
  }

  /** The first chunk of a fresh generation: nothing typed yet, the report is the chunk. */
  lemma FreshChunk(text: string)
    ensures var c := Chunk(Generate(Initial), text);
      c.Typed() && c.displayedText == "" && c.fullReport == text
  {
  }

  /** With the typed text cleared on failure, the whole message is typed out. */
  lemma FailureMessageTyped(r: Report)
    ensures TypeTicks(StreamFailed(r), |FailureMessage|).displayedText == FailureMessage
  {
    TypingCompletes(StreamFailed(r));
  }

  // ---------------------------------------------------------------- timing and labels

  /** The typewriter's pause before revealing `c`: longer after a full stop or a line break. */
  function Delay(c: char): nat {
    if c == '.' || c == '\n' then 30 else 10
  }

  function TypeDelay(r: Report): (ms: nat)
    requires r.TypingPending()
    ensures ms == 10 || ms == 30
  {
    Delay(r.fullReport[|r.displayedText|])
  }

  function TypingTime(text: string): nat {
    if |text| == 0 then 0 else Delay(text[0]) + TypingTime(text[1..])
  }

  /** Typing a text takes 10 ms per character plus 20 ms for each full stop and line break. */
  lemma {:induction false} TypingTimeCount(text: string)
    ensures TypingTime(text) == 10 * |text| + 20 * (Count(text, '.') + Count(text, '\n'))
  {
    if |text| > 0 {
      TypingTimeCount(text[1..]);
    }
  }

  const DefaultLabel: string := "Initializing AI Coach..."

  /** `getLoadingLabel`: stages 1 to 3 have their own caption; every other stage shows the default. */
  function LoadingLabel(stage: int): (r: string)
    ensures r == DefaultLabel <==> !(1 <= stage <= 3)
  {
    if stage == 1 then "Analyzing recent match performance..."
    else if stage == 2 then "Querying coaching strategy database..."
    else if stage == 3 then "Drafting personalized training plan..."
    else DefaultLabel
  }

  /** Stages 1 to 3 each have their own label; every other stage shows the default. */
  lemma LoadingLabelsDistinct(a: int, b: int)
    ensures LoadingLabel(a) == LoadingLabel(b) <==> a == b || (!(1 <= a <= 3) && !(1 <= b <= 3))
  {
    var labels := [LoadingLabel(1), LoadingLabel(2), LoadingLabel(3), DefaultLabel];
    assert forall i, j :: 0 <= i < j < 4 ==> labels[i][0] != labels[j][0];
  }

  /** The progress bar's width in percent: 30 per stage up to stage 3, and 90 for any other stage. */
  function ProgressWidth(stage: int): (r: nat)
    ensures r == 30 * stage <==> 1 <= stage <= 3
    ensures !(1 <= stage <= 3) ==> r == 90
  {
    if stage == 1 then 30 else if stage == 2 then 60 else 90
  }

  // ---------------------------------------------------------------- the panel

  datatype Panel =
    | Collapsed
    | Progress(caption: string, width: nat)
    | Text(blocks: seq<CoachReportFormat.Block>, cursor: bool)
    | Blank

  /** The content area: hidden unless expanded or loading; progress before any text is shown. */
  function PanelOf(r: Report): (p: Panel)
    ensures p.Collapsed? <==> !r.isExpanded && !r.isLoading
    ensures p.Progress? <==> r.isLoading && r.displayedText == ""
    ensures p.Text? <==> (r.isExpanded || r.isLoading) && r.displayedText != ""
    ensures p.Text? ==> p.blocks == CoachReportFormat.FormatText(r.displayedText)
    ensures p.Text? ==> |p.blocks| == Count(r.displayedText, '\n') + 1 && p.cursor == r.isTyping
  {
    if !(r.isExpanded || r.isLoading) then Collapsed
    else if r.isLoading && r.displayedText == "" then Progress(LoadingLabel(r.loadingStage), ProgressWidth(r.loadingStage))
    else if r.displayedText != "" then Text(CoachReportFormat.FormatText(r.displayedText), r.isTyping)
    else Blank
  }

  /** Once the stream has ended, typing finishes with the whole report formatted and no cursor. */
  lemma FinishedReportShown(r: Report)
    requires r.Typed() && r.TypingPending() && r.isExpanded && !r.isLoading
    ensures PanelOf(TypeTicks(r, |r.fullReport| - |r.displayedText|))
      == Text(CoachReportFormat.FormatText(r.fullReport), false)
  {
    TypingCompletes(r);
  }
}

=== FILE: coach_report_format.dfy ===
/**
  The text side of the AI coach report (src/components/CoachReport.tsx):
  header cleaning, the `**bold**` / `*italic*` splitter, and the per-line
  markdown classifier that turns the report into blocks.
 */
module CoachReportFormat {
  import opened JsString

  // ---------------------------------------------------------------- headers

  predicate IsMarkup(c: char) {
    c == '*' || c == '#' || c == '_'
  }

  predicate MarkupFree(s: string) {
    forall i :: 0 <= i < |s| ==> !IsMarkup(s[i])
  }

  /** `text.replace(/[*#_]/g, '')`. */
  function StripMarkup(s: string): (r: string)
    ensures MarkupFree(r)
    ensures |r| <= |s|
    ensures MarkupFree(s) ==> r == s
  {
    if |s| == 0 then ""
    else (if IsMarkup(s[0]) then "" else [s[0]]) + StripMarkup(s[1..])
  }

  /** A piece cut out of markup-free text is markup-free. */
  lemma MarkupFreeSlice(s: string, i: nat, j: nat)
    requires MarkupFree(s) && i <= j <= |s|
    ensures MarkupFree(s[i..j])
  {
    assert forall k :: 0 <= k < j - i ==> s[i..j][k] == s[i + k];
  }

  /** `cleanHeader`: every `*`, `#` and `_` removed, then trimmed. */
  function CleanHeader(text: string): (r: string)
    ensures MarkupFree(r)
    ensures IsTrimmed(r)
  {
    var stripped := StripMarkup(text);
    var r := Trim(stripped);
    var i := SkipWhitespace(stripped, 0);
    MarkupFreeSlice(stripped, i, i + |r|);
    r
  }

  /** Stripping works character by character: the kept characters stay in their order. */
  lemma {:induction false} StripMarkupAppend(a: string, b: string)
    ensures StripMarkup(a + b) == StripMarkup(a) + StripMarkup(b)
  {
    if |a| > 0 {
      var head := if IsMarkup(a[0]) then "" else [a[0]];
      var ra, rb := StripMarkup(a[1..]), StripMarkup(b);
      assert StripMarkup(a + b) == head + StripMarkup(a[1..] + b) by {
        assert (a + b)[0] == a[0] && (a + b)[1..] == a[1..] + b;
      }
      StripMarkupAppend(a[1..], b);
      assert StripMarkup(a) == head + ra;
      assert head + (ra + rb) == (head + ra) + rb;
    } else {
      assert a + b == b;
    }
  }

  /** A markup character is dropped; any other character is kept. */
  lemma StripMarkupChar(c: char)
    ensures StripMarkup([c]) == if IsMarkup(c) then "" else [c]
  {
    assert [c][1..] == "";
  }

  /** Text made only of markup strips to nothing. */
  lemma {:induction false} StripAllMarkup(marks: string)
    requires forall i :: 0 <= i < |marks| ==> IsMarkup(marks[i])
    ensures StripMarkup(marks) == ""
  {
    if |marks| > 0 {
      StripAllMarkup(marks[1..]);
    }
  }

  /** A `#` header: the leading markers and the space go, the title stays. */
  lemma CleanHashHeader(marks: string, t: string)
    requires forall i :: 0 <= i < |marks| ==> IsMarkup(marks[i])
    requires MarkupFree(t) && IsTrimmed(t)
    ensures CleanHeader(marks + " " + t) == t
  {
    var rest := " " + t;
    assert StripMarkup(rest) == rest by {
      StripMarkupAppend(" ", t);
      StripMarkupChar(' ');
    }
    var line := marks + " " + t;
    assert line == marks + rest;
    assert StripMarkup(line) == rest by {
      StripAllMarkup(marks);
      StripMarkupAppend(marks, rest);
    }
    TrimLeadingSpace(t);
  }

  /** A fully bold header: both `**` go, the title stays. */
  lemma CleanBoldHeader(t: string)
    requires MarkupFree(t) && IsTrimmed(t)
    ensures CleanHeader("**" + t + "**") == t
  {
    StripAllMarkup("**");
    StripMarkupAppend("**" + t, "**");
    StripMarkupAppend("**", t);
    TrimOfTrimmed(t);
  }

  /** Cleaning a clean header changes nothing. */
  lemma CleanHeaderIdempotent(text: string)
    ensures CleanHeader(CleanHeader(text)) == CleanHeader(text)
  {
    var once := CleanHeader(text);
    assert StripMarkup(once) == once;
    TrimOfTrimmed(once);
  }

  // ---------------------------------------------------------------- splitting with a captured delimiter

  /** `*` for italics (`d` = 1) or `**` for bold (`d` = 2). */
  function Stars(d: nat): string {
    Repeat('*', d)
  }

  predicate StarsAt(s: string, k: nat, d: nat) {
    k + d <= |s| && s[k..k + d] == Stars(d)
  }

  /**
    The lazy `.*?` followed by the closing delimiter, from position `k`: the
    end of the first closing delimiter, unless a line terminator (which `.`
    does not match) or the end of the text comes first.
   */
  function CloseAt(s: string, k: nat, d: nat): (r: int)
    requires k <= |s|
    ensures r == -1 || (k + d <= r <= |s| && StarsAt(s, r - d, d))
    decreases |s| - k
  {
    if k + d > |s| then -1
    else if StarsAt(s, k, d) then k + d
    else if IsLineTerminator(s[k]) then -1
    else CloseAt(s, k + 1, d)
  }

  /** The end of a match of `\*{d}.*?\*{d}` starting exactly at `q`, or -1. */
  function MatchAt(s: string, q: nat, d: nat): (e: int)
    requires q <= |s|
    ensures e == -1 || (q + 2 * d <= e <= |s| && StarsAt(s, q, d) && StarsAt(s, e - d, d))
  {
    if StarsAt(s, q, d) then CloseAt(s, q + d, d) else -1
  }

  /**
    `S.split(/(\*{d}.*?\*{d})/g)` from the ECMAScript `@@split` algorithm:
    `p` is the end of the last match, `q` the position being tried. The
    pattern never matches the empty string, so every match ends past `q`.
   */
  function Scan(s: string, d: nat, p: nat, q: nat): (r: seq<string>)
    requires d >= 1 && p <= q <= |s|
    ensures |r| >= 1
    decreases |s| - q
  {
    if q >= |s| then [s[p..]]
    else
      var e := MatchAt(s, q, d);
      if e == -1 then Scan(s, d, p, q + 1)
      else [s[p..q], s[q..e]] + Scan(s, d, e, e)
  }

  function SplitKeeping(s: string, d: nat): (r: seq<string>)
    requires d >= 1
  {
    Scan(s, d, 0, 0)
  }

  /** The pieces, the captured delimiters included, put back together give the text. */
  lemma {:induction false} ScanConcat(s: string, d: nat, p: nat, q: nat)
    requires d >= 1 && p <= q <= |s|
    ensures Concat(Scan(s, d, p, q)) == s[p..]
    decreases |s| - q
  {
    if q < |s| {
      var e := MatchAt(s, q, d);
      if e == -1 {
        ScanConcat(s, d, p, q + 1);
      } else {
        ScanConcat(s, d, e, e);
        ConcatPair(s[p..q], s[q..e], Scan(s, d, e, e));
        SlicesJoin(s, p, q, e);
      }
    }
  }

  lemma ConcatPair(x: string, y: string, rest: seq<string>)
    ensures Concat([x, y] + rest) == x + y + Concat(rest)
  {
    ConcatAppend([x, y], rest);
    assert Concat([x, y]) == x + y;
  }

  lemma SlicesJoin(s: string, p: nat, q: nat, e: nat)
    requires p <= q <= e <= |s|
    ensures s[p..q] + s[q..e] + s[e..] == s[p..]
  {
  }

  lemma SplitKeepingConcat(s: string, d: nat)
    requires d >= 1
    ensures Concat(SplitKeeping(s, d)) == s
  {
    ScanConcat(s, d, 0, 0);
  }

  // ---------------------------------------------------------------- inline formatting

  datatype Inline = Plain(text: string) | Bold(text: string) | Italic(text: string)

  /** The text an inline piece came from: its content with the delimiters put back. */
  function Restore(x: Inline): string {
    match x
    case Plain(t) => t
    case Bold(t) => "**" + t + "**"
    case Italic(t) => "*" + t + "*"
  }

  function RestoreAll(xs: seq<Inline>): string {
    if |xs| == 0 then "" else Restore(xs[0]) + RestoreAll(xs[1..])
  }

  lemma {:induction false} RestoreAllAppend(a: seq<Inline>, b: seq<Inline>)
    ensures RestoreAll(a + b) == RestoreAll(a) + RestoreAll(b)
  {
    if |a| == 0 {
      assert a + b == b;
    } else {
      assert (a + b)[1..] == a[1..] + b;
      RestoreAllAppend(a[1..], b);
    }
  }

  /** `subPart.startsWith('*') && subPart.endsWith('*') && subPart.length > 2`. */
  function ItalicPiece(sub: string): (r: Inline)
    ensures Restore(r) == sub
  {
    if StartsWith(sub, "*") && EndsWith(sub, "*") && |sub| > 2 then
      assert sub == "*" + sub[1..|sub| - 1] + "*";
      Italic(Slice(sub, 1, -1))
    else Plain(sub)
  }

  function ItalicPieces(parts: seq<string>): (r: seq<Inline>)
    ensures RestoreAll(r) == Concat(parts)
  {
    if |parts| == 0 then []
    else
      RestoreAllAppend([ItalicPiece(parts[0])], ItalicPieces(parts[1..]));
      [ItalicPiece(parts[0])] + ItalicPieces(parts[1..])
  }

  /** The part with its bold delimiters, if it is read as bold. */
  predicate BoldDelimited(part: string) {
    StartsWith(part, "**") && EndsWith(part, "**")
  }

  /**
    One piece of the bold split, as the component treats it: any piece that
    starts and ends with `**` becomes bold, even `**` or `***`, whose
    `slice(2, -2)` is empty.
   */
  function BoldPieceAsWritten(part: string): seq<Inline> {
    if BoldDelimited(part) then [Bold(Slice(part, 2, -2))]
    else ItalicPieces(SplitKeeping(part, 1))
  }

  /** One piece of the bold split with the length guard the italic test has: bold needs four characters. */
  function BoldPiece(part: string): (r: seq<Inline>)
    ensures RestoreAll(r) == part
  {
    if BoldDelimited(part) && |part| >= 4 then
      assert part == "**" + part[2..|part| - 2] + "**";
      [Bold(Slice(part, 2, -2))]
    else
      SplitKeepingConcat(part, 1);
      ItalicPieces(SplitKeeping(part, 1))
  }

  function BoldPiecesAsWritten(parts: seq<string>): seq<Inline> {
    if |parts| == 0 then [] else BoldPieceAsWritten(parts[0]) + BoldPiecesAsWritten(parts[1..])
  }

  function BoldPieces(parts: seq<string>): (r: seq<Inline>)
    ensures RestoreAll(r) == Concat(parts)
  {
    if |parts| == 0 then []
    else
      RestoreAllAppend(BoldPiece(parts[0]), BoldPieces(parts[1..]));
      BoldPiece(parts[0]) + BoldPieces(parts[1..])
  }

  /**
    `parseInline` as written. Whenever no bare `**` or `***` is left between
    bold spans it agrees with the guarded parser, so its pieces spell the
    input.
   */
  function ParseInlineAsWritten(text: string): (r: seq<Inline>)
    ensures NoLoneMarker(text) ==> r == ParseInline(text) && RestoreAll(r) == text
  {
    var parts := SplitKeeping(text, 2);
    BoldPiecesAgree(parts);
    BoldPiecesAsWritten(parts)
  }

  /**
    `parseInline` with the bold length guard. Nothing is lost: the pieces,
    with their delimiters restored, spell the input.
   */
  function ParseInline(text: string): (r: seq<Inline>)
    ensures RestoreAll(r) == text
  {
    SplitKeepingConcat(text, 2);
    BoldPieces(SplitKeeping(text, 2))
  }

  /** No piece of the bold split is a bare `**` or `***`, the only pieces the two parsers read differently. */
  predicate NoShortBold(parts: seq<string>) {
    forall k :: 0 <= k < |parts| ==> !(BoldDelimited(parts[k]) && |parts[k]| < 4)
  }

  predicate NoLoneMarker(text: string) {
    NoShortBold(SplitKeeping(text, 2))
  }

  lemma {:induction false} BoldPiecesAgree(parts: seq<string>)
    ensures NoShortBold(parts) ==> BoldPiecesAsWritten(parts) == BoldPieces(parts)
  {
    if |parts| > 0 && NoShortBold(parts) {
      assert !(BoldDelimited(parts[0]) && |parts[0]| < 4);
      assert NoShortBold(parts[1..]) by {
        forall k | 0 <= k < |parts[1..]| ensures !(BoldDelimited(parts[1..][k]) && |parts[1..][k]| < 4) {
          assert parts[1..][k] == parts[k + 1];
        }
      }
      BoldPiecesAgree(parts[1..]);
    }
  }

  lemma {:induction false} ConcatHolds(parts: seq<string>, k: nat)
    requires k < |parts| && |parts[k]| > 0
    ensures parts[k][0] in Concat(parts)
  {
    if k == 0 {
      assert Concat(parts) == parts[0] + Concat(parts[1..]);
      assert Concat(parts)[0] == parts[0][0];
    } else {
      ConcatHolds(parts[1..], k - 1);
      assert parts[1..][k - 1] == parts[k];
      assert Concat(parts) == parts[0] + Concat(parts[1..]);
      InAppend(parts[0], Concat(parts[1..]), parts[k][0]);
    }
  }

  /** A text with no asterisk has no lone marker, so it round-trips as written. */
  lemma StarlessText(text: string)
    requires '*' !in text
    ensures NoLoneMarker(text)
    ensures RestoreAll(ParseInlineAsWritten(text)) == text
  {
    var parts := SplitKeeping(text, 2);
    SplitKeepingConcat(text, 2);
    forall k | 0 <= k < |parts| ensures !(BoldDelimited(parts[k]) && |parts[k]| < 4) {
      if BoldDelimited(parts[k]) {
        assert parts[k][0] == '*';
        ConcatHolds(parts, k);
      }
    }
  }

  lemma BoldSplitOfMarker()
    ensures SplitKeeping("**", 2) == ["**"]
  {
    var s := "**";
    assert CloseAt(s, 2, 2) == -1;
    assert MatchAt(s, 0, 2) == -1;
    assert Scan(s, 2, 0, 2) == [s];
    assert Scan(s, 2, 0, 1) == [s];
  }

  lemma ItalicSplitOfMarker()
    ensures SplitKeeping("**", 1) == ["", "**", ""]
  {
    var s := "**";
    assert StarsAt(s, 1, 1);
    assert CloseAt(s, 1, 1) == 2;
    assert StarsAt(s, 0, 1);
    assert MatchAt(s, 0, 1) == 2;
    assert |s| == 2 && s[2..] == "" && s[0..0] == "" && s[0..2] == s;
    assert Scan(s, 1, 2, 2) == [""];
    assert Scan(s, 1, 0, 0) == ["", s] + Scan(s, 1, 2, 2);
  }

  /** As written, a lone `**` is rendered as an empty bold span: its two asterisks vanish. */
  lemma LoneBoldMarkerVanishes()
    ensures ParseInlineAsWritten("**") == [Bold("")]
    ensures RestoreAll(ParseInlineAsWritten("**")) != "**"
    ensures ParseInline("**") == [Plain(""), Plain("**"), Plain("")]
  {
    MarkerAsWritten();
    MarkerCorrected();
  }

  /** As written, the lone marker is taken as bold around nothing. */
  lemma MarkerAsWritten()
    ensures ParseInlineAsWritten("**") == [Bold("")]
    ensures RestoreAll([Bold("")]) == "****"
  {
    var s := "**";
    BoldSplitOfMarker();
    assert BoldDelimited(s);
    assert Slice(s, 2, -2) == "";
    assert BoldPiecesAsWritten([s]) == [Bold("")];
  }

  /** With the length guard, the lone marker falls through to the italic pass and stays plain. */
  lemma MarkerCorrected()
    ensures ParseInline("**") == [Plain(""), Plain("**"), Plain("")]
  {
    BoldSplitOfMarker();
    assert BoldPieces(["**"]) == BoldPiece("**") + BoldPieces([]);
    MarkerItalics();
  }

  /** The lone marker, too short for bold, is split by the italic pass and stays plain. */
  lemma MarkerItalics()
    ensures BoldPiece("**") == [Plain(""), Plain("**"), Plain("")]
  {
    ItalicSplitOfMarker();
    assert !(|"**"| >= 4);
    assert ItalicPiece("**") == Plain("**");
    assert ItalicPiece("") == Plain("");
    assert ItalicPieces(["", "**", ""]) == [ItalicPiece("")] + ItalicPieces(["**", ""]);
    assert ItalicPieces(["**", ""]) == [ItalicPiece("**")] + ItalicPieces([""]);
  }

  // ---------------------------------------------------------------- lines

  datatype Block = Rule | Header(title: string) | Bullet(content: seq<Inline>) | Spacer | Paragraph(content: seq<Inline>)

  predicate IsRuleLine(clean: string) {
    clean == "---" || clean == "***" || clean == "___"
  }

  /** `/^\*\*(.*)\*\*$/` on the trimmed line, and the line shorter than 80. */
  predicate IsBoldHeaderLine(clean: string) {
    && 4 <= |clean| < 80
    && StartsWith(clean, "**") && EndsWith(clean, "**")
    && forall k :: 2 <= k < |clean| - 2 ==> !IsLineTerminator(clean[k])
  }

  /** `/^#{1,6}\s?/` matches any line that starts with `#`. */
  predicate IsHeaderLine(clean: string) {
    (|clean| > 0 && clean[0] == '#') || IsBoldHeaderLine(clean)
  }

  predicate IsBulletLine(clean: string) {
    StartsWith(clean, "* ") || StartsWith(clean, "- ")
  }

  /**
    One line of `formatText`: rule, header, bullet, spacer, paragraph, tried
    in that order. A header is the cleaned trimmed line with no markup left;
    a bullet's pieces spell the trimmed line after its two-character marker,
    and a paragraph's pieces spell the whole original line, unless a bare
    `**` or `***` is left between bold spans.
   */
  function ClassifyLine(line: string): (b: Block)
    ensures b.Rule? <==> IsRuleLine(Trim(line))
    ensures b.Header? <==> !IsRuleLine(Trim(line)) && IsHeaderLine(Trim(line))
    ensures b.Bullet? <==> !IsRuleLine(Trim(line)) && !IsHeaderLine(Trim(line)) && IsBulletLine(Trim(line))
    ensures b.Spacer? <==> Trim(line) == ""
    ensures b.Paragraph? <==>
      !IsRuleLine(Trim(line)) && !IsHeaderLine(Trim(line)) && !IsBulletLine(Trim(line)) && Trim(line) != ""
    ensures b.Header? ==> b.title == CleanHeader(Trim(line)) && MarkupFree(b.title)
    ensures b.Bullet? && NoLoneMarker(Trim(line)[2..]) ==> Trim(line) == Trim(line)[..2] + RestoreAll(b.content)
    ensures b.Paragraph? && NoLoneMarker(line) ==> RestoreAll(b.content) == line
  {
    var clean := Trim(line);
    if IsRuleLine(clean) then Rule
    else if IsHeaderLine(clean) then Header(CleanHeader(clean))
    else if IsBulletLine(clean) then Bullet(ParseInlineAsWritten(clean[2..]))
    else if clean == "" then Spacer
    else Paragraph(ParseInlineAsWritten(line))
  }

  /** A `## ` line is a header titled with the rest of the line. */
  lemma HashHeaderLine(t: string)
    requires t != "" && MarkupFree(t) && IsTrimmed(t)
    ensures ClassifyLine("## " + t) == Header(t)
  {
    var line := "## " + t;
    assert line[0] == '#' && line[|line| - 1] == t[|t| - 1];
    TrimOfTrimmed(line);
    assert !IsRuleLine(line) by {
      assert line[0] != "---"[0] && line[0] != "***"[0] && line[0] != "___"[0];
    }
    assert "##" + " " + t == line;
    CleanHashHeader("##", t);
  }

  /** A fully bold line shorter than 80 characters is a header titled with its inside. */
  lemma BoldHeaderLine(t: string)
    requires MarkupFree(t) && IsTrimmed(t) && |t| < 76
    requires forall k :: 0 <= k < |t| ==> !IsLineTerminator(t[k])
    ensures ClassifyLine("**" + t + "**") == Header(t)
  {
    var line := "**" + t + "**";
    assert line[0] == '*' && line[|line| - 1] == '*';
    TrimOfTrimmed(line);
    assert !IsRuleLine(line) by {
      assert |line| >= 4;
    }
    BoldShape(t);
    CleanBoldHeader(t);
  }

  /** `**t**`, short and on one line, has the shape of a bold header. */
  lemma BoldShape(t: string)
    requires |t| < 76
    requires forall k :: 0 <= k < |t| ==> !IsLineTerminator(t[k])
    ensures IsBoldHeaderLine("**" + t + "**")
  {
    var line := "**" + t + "**";
    assert line[0] == '*' && line[1] == '*';
    assert line[|line| - 2] == '*' && line[|line| - 1] == '*';
    assert line[..2] == "**";
    assert line[|line| - 2..] == "**";
    assert forall k :: 2 <= k < |line| - 2 ==> line[k] == t[k - 2];
  }

  /** A line that is just `**` becomes a paragraph holding one empty bold span. */
  lemma LoneMarkerLine()
    ensures ClassifyLine("**") == Paragraph([Bold("")])
    ensures !NoLoneMarker("**")
  {
    MarkerParagraph();
    MarkerAsWritten();
    BoldSplitOfMarker();
    assert SplitKeeping("**", 2)[0] == "**";
  }

  /** `**` is neither a rule, a header nor a bullet. */
  lemma MarkerParagraph()
    ensures ClassifyLine("**") == Paragraph(ParseInlineAsWritten("**"))
  {
    var s := "**";
    TrimOfTrimmed(s);
    assert !IsRuleLine(s) && !IsBoldHeaderLine(s) && !IsBulletLine(s);
  }

  /** `formatText`: one block per `\n`-separated line, in order. */
  function FormatText(text: string): (r: seq<Block>)
    ensures |r| == Count(text, '\n') + 1 == |Split(text, '\n')|
    ensures forall i :: 0 <= i < |r| ==> r[i] == ClassifyLine(Split(text, '\n')[i])
  {
    var lines := Split(text, '\n');
    SplitCount(text, '\n');
    seq(|lines|, i requires 0 <= i < |lines| => ClassifyLine(lines[i]))
  }
}

=== FILE: hero_section.dfy ===
/**
  The search box of the landing screen (src/components/HeroSection.tsx):
  turning the typed `name#tag` into the Riot id and tagline handed to the
  search, and the "valid format" hint shown while typing.
 */
module HeroSection {
  import opened Wrappers
  import opened JsString

  datatype Search = Search(riotId: string, tagline: string)

  /**
    The submit handler: trim, give up unless there is a `#`, split on `#`
    and search with the first two pieces when both are non-empty.
   */
  function HandleSubmit(searchValue: string): (r: Option<Search>)
    ensures '#' !in Trim(searchValue) ==> r == None
    ensures r.Some? ==> r.value.riotId != "" && r.value.tagline != ""
    ensures r.Some? ==> '#' !in r.value.riotId && '#' !in r.value.tagline
  {
    SearchOf(Trim(searchValue))
  }

  /** What the submit handler does once the input is trimmed. */
  function SearchOf(trimmed: string): (r: Option<Search>)
    ensures '#' !in trimmed ==> r == None
    ensures r.Some? ==> r.value.riotId != "" && r.value.tagline != ""
    ensures r.Some? ==> '#' !in r.value.riotId && '#' !in r.value.tagline
  {
    if '#' !in trimmed then None
    else
      var parts := Split(trimmed, '#');
      SplitPiecesFree(trimmed, '#');
      if parts[0] != "" && parts[1] != "" then Some(Search(parts[0], parts[1])) else None
  }

  /**
    The hint: exactly two `#`-separated pieces, the second non-empty; the
    input is not trimmed. It holds exactly when there is one `#` and it is
    not the last character.
   */
  predicate IsValidFormat(searchValue: string)
    ensures IsValidFormat(searchValue) <==> Count(searchValue, '#') == 1 && searchValue[|searchValue| - 1] != '#'
  {
    ValidFormatMeaning(searchValue);
    '#' in searchValue && |Split(searchValue, '#')| == 2 && |Split(searchValue, '#')[1]| > 0
  }

  /**
    The shape of trimmed input that leads to a search for `a` and `b`: it
    begins with `a#b`, and that prefix is either all of it or followed by
    another `#`.
   */
  predicate SearchShape(t: string, a: string, b: string) {
    && a != "" && b != "" && '#' !in a && '#' !in b
    && StartsWith(t, a + "#" + b)
    && (|t| == |a| + 1 + |b| || t[|a| + 1 + |b|] == '#')
  }

  /** The first `#`-free piece of `t` and what follows its `#`. */
  lemma FirstPiece(t: string, a: string, rest: string)
    requires '#' !in a && t == a + "#" + rest
    ensures Split(t, '#') == [a] + Split(rest, '#')
  {
    SplitCons(a, '#', rest);
  }

  /** The pieces of text that starts `b` and then either ends or continues with `#`. */
  lemma SecondPiece(u: string, b: string)
    requires '#' !in b && StartsWith(u, b) && (|u| == |b| || u[|b|] == '#')
    ensures Split(u, '#')[0] == b
  {
    if |u| == |b| {
      assert u == b by {
        assert u[..|b|] == b;
      }
    } else {
      var rest := u[|b| + 1..];
      assert u == b + ['#'] + rest by {
        Decompose(u, |b|);
      }
      SplitCons(b, '#', rest);
    }
  }

  /** The first piece is everything before the first separator. */
  lemma SplitHead(t: string, c: char)
    requires c in t
    ensures var i := IndexOf(t, c); Split(t, c)[0] == t[..i] && Split(t, c)[1..] == Split(t[i + 1..], c)
  {
  }

  /** Input of the shape `a#b`, possibly followed by `#...`, searches for `a` and `b`. */
  lemma ShapeSearches(t: string, a: string, b: string)
    requires SearchShape(t, a, b)
    ensures SearchOf(t) == Some(Search(a, b))
  {
    var rest := t[|a| + 1..];
    assert t == a + "#" + rest by {
      StartsWithRest(t, a + "#", b);
      assert t[..|a| + 1] == a + "#";
      assert t == t[..|a| + 1] + rest;
    }
    assert Split(rest, '#')[0] == b by {
      StartsWithRest(t, a + "#", b);
      assert |a + "#"| == |a| + 1;
      assert |rest| == |b| || rest[|b|] == '#';
      SecondPiece(rest, b);
    }
    assert Split(t, '#')[0] == a && Split(t, '#')[1] == b by {
      FirstPiece(t, a, rest);
    }
    assert '#' in t by {
      assert t[|a|] == '#';
    }
    SearchOfPieces(t, a, b);
  }

  /** A search is determined by the first two pieces alone. */
  lemma SearchOfPieces(t: string, a: string, b: string)
    requires '#' in t && a != "" && b != ""
    requires Split(t, '#')[0] == a && Split(t, '#')[1] == b
    ensures SearchOf(t) == Some(Search(a, b))
  {
  }

  /** A prefix reaching past position `i` is the part before it, `t[i]`, and the start of the rest. */
  lemma PrefixAround(t: string, i: nat, k: nat)
    requires i < |t| && i + 1 + k <= |t|
    ensures t[..i + 1 + k] == t[..i] + [t[i]] + t[i + 1..][..k]
  {
  }

  /** The second piece is the start of the text after the first `#`, ended by the end or another `#`. */
  lemma SecondPieceShape(rest: string, b: string)
    requires Split(rest, '#')[0] == b
    ensures StartsWith(rest, b) && (|rest| == |b| || rest[|b|] == '#')
  {
    var j := IndexOf(rest, '#');
    if j != -1 {
      SplitHead(rest, '#');
    }
  }

  /** The pieces of a search are where `SearchShape` says. */
  lemma SearchHasShape(t: string, a: string, b: string)
    requires SearchOf(t) == Some(Search(a, b))
    ensures SearchShape(t, a, b)
  {
    var i := IndexOf(t, '#');
    SplitHead(t, '#');
    var rest := t[i + 1..];
    assert a == t[..i] && |a| == i;
    SecondPieceShape(rest, b);
    PrefixAround(t, i, |b|);
    assert StartsWith(t, a + "#" + b);
    assert |t| == |a| + 1 + |b| || t[|a| + 1 + |b|] == rest[|b|];
  }

  /** A search happens for exactly the inputs of `SearchShape`, and with exactly those pieces. */
  lemma SubmitShape(searchValue: string, a: string, b: string)
    ensures HandleSubmit(searchValue) == Some(Search(a, b)) <==> SearchShape(Trim(searchValue), a, b)
  {
    var t := Trim(searchValue);
    if SearchShape(t, a, b) { ShapeSearches(t, a, b); }
    if SearchOf(t) == Some(Search(a, b)) { SearchHasShape(t, a, b); }
  }

  /** Text after a second `#` is dropped: `a#b#c` searches for `a` and `b`. */
  lemma ExtraHashDropped(a: string, b: string, c: string)
    requires a != "" && b != "" && '#' !in a && '#' !in b
    requires IsTrimmed(a + "#" + b + "#" + c)
    ensures HandleSubmit(a + "#" + b + "#" + c) == Some(Search(a, b))
  {
    var t := a + "#" + b + "#" + c;
    TrimOfTrimmed(t);
    assert t[..|a| + 1 + |b|] == a + "#" + b;
    assert t[|a| + 1 + |b|] == '#';
    ShapeSearches(t, a, b);
  }

  /** The Riot id never starts with whitespace. */
  lemma RiotIdNotPadded(searchValue: string)
    requires HandleSubmit(searchValue).Some?
    ensures !IsWhitespace(HandleSubmit(searchValue).value.riotId[0])
  {
    var s := HandleSubmit(searchValue).value;
    SubmitShape(searchValue, s.riotId, s.tagline);
    assert Trim(searchValue)[0] == s.riotId[0];
  }

  /** With a single `#`, the search covers the whole trimmed input. */
  lemma SingleHashWhole(t: string, a: string, b: string)
    requires SearchOf(t) == Some(Search(a, b))
    requires Count(t, '#') == 1
    ensures t == a + "#" + b
  {
    SearchHasShape(t, a, b);
    StartsWithRest(t, a + "#", b);
    StartsWithRest(t, a, "#");
    CountSplitsAt(t, '#', |a|);
    assert '#' !in t[|a| + 1..];
  }

  /** With a single `#`, the tagline is the end of the trimmed input and never ends in whitespace. */
  lemma TaglineNotPadded(searchValue: string)
    requires HandleSubmit(searchValue).Some?
    requires Count(Trim(searchValue), '#') == 1
    ensures var tag := HandleSubmit(searchValue).value.tagline; !IsWhitespace(tag[|tag| - 1])
  {
    var s := HandleSubmit(searchValue).value;
    var t := Trim(searchValue);
    SingleHashWhole(t, s.riotId, s.tagline);
    assert t[|t| - 1] == s.tagline[|s.tagline| - 1];
  }

  /** With a second `#`, trailing whitespace before it stays in the tagline. */
  lemma TaglineKeepsSpaceBeforeSecondHash()
    ensures HandleSubmit("ab#cd #x") == Some(Search("ab", "cd "))
  {
    var t := "ab#cd #x";
    assert IsTrimmed(t);
    TrimOfTrimmed(t);
    assert t[..6] == "ab" + "#" + "cd ";
    ShapeSearches(t, "ab", "cd ");
  }

  /** Two `#`-separated pieces, the second non-empty: one `#`, and not at the end. */
  lemma {:induction false} ValidFormatMeaning(v: string)
    ensures ('#' in v && |Split(v, '#')| == 2 && |Split(v, '#')[1]| > 0) <==> Count(v, '#') == 1 && v[|v| - 1] != '#'
  {
    SplitCount(v, '#');
    if '#' in v {
      var i := IndexOf(v, '#');
      SplitHead(v, '#');
      var rest := v[i + 1..];
      CountSplitsAt(v, '#', i);
      if Count(v, '#') == 1 {
        assert '#' !in rest;
        assert Split(v, '#')[1] == rest;
        if i == |v| - 1 { assert rest == ""; }
        else { assert v[|v| - 1] == rest[|rest| - 1]; }
      }
    }
  }

  lemma SplitOfNameless()
    ensures Split("#NA1", '#') == ["", "NA1"]
  {
    var s := "#NA1";
    assert IndexOf(s, '#') == 0;
    assert s[1..] == "NA1";
    assert Split("NA1", '#') == ["NA1"] by {
      assert '#' !in "NA1";
    }
  }

  lemma NamelessTrimmed()
    ensures Trim("#NA1") == "#NA1"
  {
    TrimOfTrimmed("#NA1");
  }

  /** The hint does not imply a search: `#NA1` is shown as valid but submitting it does nothing. */
  lemma ValidFormatWithoutName()
    ensures IsValidFormat("#NA1")
    ensures HandleSubmit("#NA1") == None
  {
    SplitOfNameless();
    NamelessTrimmed();
  }
}

=== FILE: http.dfy ===
/**
  The outcome of a `fetch` as the pages see it. The network, the URLs and
  JSON decoding are not modelled: a response is either OK with its decoded
  body, not OK, or the request (or the decoding of its body) rejected with
  some thrown value.
 */
module Http {

  /** A thrown value: an `Error` object with its message, or anything else. */
  datatype Thrown = ErrorObject(message: string) | OtherValue

  datatype Fetch<T> = Ok(body: T) | NotOk | Rejected(thrown: Thrown)

  /** `err instanceof Error ? err.message : fallback`, the pages' catch clauses. */
  function CaughtMessage(thrown: Thrown, fallback: string): string {
    match thrown
    case ErrorObject(m) => m
    case OtherValue => fallback
  }
}

=== FILE: js_number.dfy ===
/**
  JavaScript numbers as the application uses them: the `Number(text)`
  conversion, `String(n)` / template interpolation of whole numbers,
  addition, comparison, truthiness and `Math.round` of a quotient.
  Finite values are exact reals; the rounding of IEEE-754 doubles is not
  modelled.
 */
module JsNumber {
  import opened Wrappers
  import opened JsString

  datatype Numeric = Finite(value: real) | PlusInfinity | MinusInfinity | NaN {

    /** ToBoolean of a number: zero and NaN are falsy. */
    predicate Truthy() {
      match this
      case Finite(v) => v != 0.0
      case NaN => false
      case _ => true
    }
  }

  /** The idiom `x || 0` on a number. */
  function OrZero(n: Numeric): (r: Numeric)
    ensures !r.NaN?
    ensures r.Truthy() <==> n.Truthy()
    ensures n.Truthy() ==> r == n
  {
    if n.Truthy() then n else Finite(0.0)
  }

  function Negate(n: Numeric): Numeric {
    match n
    case Finite(v) => Finite(-v)
    case PlusInfinity => MinusInfinity
    case MinusInfinity => PlusInfinity
    case NaN => NaN
  }

  /** `a + b`: NaN absorbs, opposite infinities give NaN. */
  function Add(a: Numeric, b: Numeric): (r: Numeric)
    ensures a.Finite? && b.Finite? ==> r == Finite(a.value + b.value)
    ensures r.NaN? <==> a.NaN? || b.NaN? || (a.PlusInfinity? && b.MinusInfinity?) || (a.MinusInfinity? && b.PlusInfinity?)
  {
    match (a, b)
    case (NaN, _) => NaN
    case (_, NaN) => NaN
    case (Finite(x), Finite(y)) => Finite(x + y)
    case (PlusInfinity, MinusInfinity) => NaN
    case (MinusInfinity, PlusInfinity) => NaN
    case (PlusInfinity, _) => PlusInfinity
    case (_, PlusInfinity) => PlusInfinity
    case (MinusInfinity, _) => MinusInfinity
    case (_, MinusInfinity) => MinusInfinity
  }

  /** `n > x`; every comparison with NaN is false. */
  predicate GreaterThan(n: Numeric, x: real) {
    match n
    case Finite(v) => v > x
    case PlusInfinity => true
    case _ => false
  }

  /** `n < x`. */
  predicate LessThan(n: Numeric, x: real) {
    match n
    case Finite(v) => v < x
    case MinusInfinity => true
    case _ => false
  }

  /** `n >= x`. */
  predicate AtLeast(n: Numeric, x: real) {
    match n
    case Finite(v) => v >= x
    case PlusInfinity => true
    case _ => false
  }

  // ---------------------------------------------------------------- digits

  /** The value of a digit character in bases up to 36; 36 for any other character. */
  function DigitValue(c: char): (d: nat)
    ensures d <= 36
  {
    if '0' <= c <= '9' then c as int - '0' as int
    else if 'a' <= c <= 'z' then c as int - 'a' as int + 10
    else if 'A' <= c <= 'Z' then c as int - 'A' as int + 10
    else 36
  }

  predicate IsDecimalDigit(c: char) {
    '0' <= c <= '9'
  }

  predicate AllDigits(s: string, base: nat) {
    forall i :: 0 <= i < |s| ==> DigitValue(s[i]) < base
  }

  /** The number a digit string denotes in `base`, most significant digit first. */
  function DigitsValue(s: string, base: nat): nat
    requires AllDigits(s, base)
  {
    if |s| == 0 then 0 else DigitsValue(s[..|s| - 1], base) * base + DigitValue(s[|s| - 1])
  }

  function DigitChar(d: nat): (c: char)
    requires d < 10
    ensures IsDecimalDigit(c) && DigitValue(c) == d
  {
    ('0' as int + d) as char
  }

  /** The shortest decimal numeral of `n`. */
  function NatToString(n: nat): (r: string)
    ensures |r| >= 1
    ensures forall i :: 0 <= i < |r| ==> IsDecimalDigit(r[i])
    ensures r[0] == '0' <==> n == 0
    ensures n == 0 ==> r == "0"
  {
    if n < 10 then [DigitChar(n)] else NatToString(n / 10) + [DigitChar(n % 10)]
  }

  /** `String(n)` for a whole number below 10^21 in magnitude. */
  function IntToString(n: int): (r: string)
    ensures forall i :: 0 <= i < |r| ==> IsDecimalDigit(r[i]) || (i == 0 && r[i] == '-')
    ensures |r| >= 1 && (r[0] == '-' <==> n < 0)
  {
    if n < 0 then "-" + NatToString(-n) else NatToString(n)
  }

  lemma {:induction false} NatToStringValue(n: nat)
    ensures AllDigits(NatToString(n), 10)
    ensures DigitsValue(NatToString(n), 10) == n
  {
    var r := NatToString(n);
    if n >= 10 {
      NatToStringValue(n / 10);
      assert r[..|r| - 1] == NatToString(n / 10);
    }
  }

  // ---------------------------------------------------------------- Number(text)

  function Pow(base: nat, e: nat): (r: nat)
    ensures base > 0 ==> r > 0
  {
    if e == 0 then 1 else base * Pow(base, e - 1)
  }

  /** m * 10^e for a possibly negative exponent. */
  function ScaleByTen(m: nat, e: int): real {
    if e >= 0 then (m * Pow(10, e)) as real else (m as real) / (Pow(10, -e) as real)
  }

  function Radix(c: char): nat {
    if c == 'x' || c == 'X' then 16 else if c == 'o' || c == 'O' then 8 else 2
  }

  /** `0x…`, `0o…` or `0b…` with at least one digit of that base. */
  predicate IsNonDecimalInteger(t: string) {
    |t| >= 3 && t[0] == '0' && t[1] in "xXoObB" && AllDigits(t[2..], Radix(t[1]))
  }

  /** An optionally signed, non-empty run of decimal digits (an exponent). */
  function SignedInteger(x: string): Option<int> {
    if |x| > 0 && (x[0] == '+' || x[0] == '-') then
      var d := x[1..];
      if |d| > 0 && AllDigits(d, 10) then
        var v: int := DigitsValue(d, 10);
        Some(if x[0] == '-' then -v else v)
      else None
    else if |x| > 0 && AllDigits(x, 10) then Some(DigitsValue(x, 10))
    else None
  }

  /** A mantissa `ddd`, `ddd.`, `ddd.ddd` or `.ddd`: its digits' value and the fraction length. */
  function Mantissa(m: string): Option<(nat, nat)> {
    var d := IndexOf(m, '.');
    if d == -1 then MantissaParts(m, "") else MantissaParts(m[..d], m[d + 1..])
  }

  /** The integer and fraction digits of a mantissa, at least one digit in all. */
  function MantissaParts(ip: string, fp: string): Option<(nat, nat)> {
    var digits := ip + fp;
    if |digits| > 0 && AllDigits(digits, 10) then Some((DigitsValue(digits, 10), |fp|)) else None
  }

  /** The position of the exponent marker `e` or `E`, or -1. */
  function ExponentIndex(u: string): int {
    if IndexOf(u, 'e') != -1 then IndexOf(u, 'e') else IndexOf(u, 'E')
  }

  /** A mantissa scaled by its exponent, when both parsed. */
  function Scaled(m: Option<(nat, nat)>, x: Option<int>): Option<Numeric> {
    if m.Some? && x.Some? then Some(Finite(ScaleByTen(m.value.0, x.value - m.value.1))) else None
  }

  /** StrUnsignedDecimalLiteral: `Infinity` or a mantissa with an optional exponent. */
  function UnsignedDecimal(u: string): Option<Numeric> {
    if u == "Infinity" then Some(PlusInfinity)
    else
      var e := ExponentIndex(u);
      if e == -1 then Scaled(Mantissa(u), Some(0))
      else Scaled(Mantissa(u[..e]), SignedInteger(u[e + 1..]))
  }

  /** `Number(text)`: surrounding whitespace is ignored, empty text is 0, anything unparsable is NaN. */
  function StringToNumber(s: string): Numeric {
    var t := Trim(s);
    if t == "" then Finite(0.0)
    else if IsNonDecimalInteger(t) then Finite(DigitsValue(t[2..], Radix(t[1])) as real)
    else if t[0] == '+' then UnsignedDecimal(t[1..]).GetOr(NaN)
    else if t[0] == '-' then Negate(UnsignedDecimal(t[1..]).GetOr(NaN))
    else UnsignedDecimal(t).GetOr(NaN)
  }

  lemma IndexOfAbsent(d: string, c: char)
    requires forall i :: 0 <= i < |d| ==> IsDecimalDigit(d[i])
    requires !IsDecimalDigit(c)
    ensures IndexOf(d, c) == -1
  {
    assert c !in d by {
      forall i | 0 <= i < |d| ensures d[i] != c {
        assert IsDecimalDigit(d[i]);
      }
    }
  }

  lemma UnsignedDecimalOfDigits(d: string)
    requires |d| > 0 && forall i :: 0 <= i < |d| ==> IsDecimalDigit(d[i])
    ensures AllDigits(d, 10)
    ensures UnsignedDecimal(d) == Some(Finite(DigitsValue(d, 10) as real))
  {
    assert AllDigits(d, 10) by {
      assert forall i :: 0 <= i < |d| ==> IsDecimalDigit(d[i]);
    }
    var v := DigitsValue(d, 10);
    assert Mantissa(d) == Some((v, 0)) by {
      IndexOfAbsent(d, '.');
      assert d + "" == d;
    }
    assert ScaleByTen(v, 0) == v as real by {
      assert Pow(10, 0) == 1;
      assert v * 1 == v;
    }
    assert UnsignedDecimal(d) == Scaled(Mantissa(d), Some(0)) by {
      assert d != "Infinity" by { assert d[0] != 'I'; }
      assert ExponentIndex(d) == -1 by {
        IndexOfAbsent(d, 'e');
        IndexOfAbsent(d, 'E');
      }
    }
  }

  /** The numeral of a whole number, read as an unsigned decimal, denotes that number. */
  lemma UnsignedDecimalOfNat(n: nat)
    ensures UnsignedDecimal(NatToString(n)) == Some(Finite(n as real))
  {
    var t := NatToString(n);
    NatToStringValue(n);
    UnsignedDecimalOfDigits(t);
  }

  lemma StringToNumberOfNat(n: nat)
    ensures StringToNumber(NatToString(n)) == Finite(n as real)
  {
    var t := NatToString(n);
    assert Trim(t) == t by {
      TrimNoWhitespace(t);
    }
    assert !IsNonDecimalInteger(t) by {
      if n == 0 { assert t == "0"; } else { assert t[0] != '0'; }
    }
    assert t[0] != '+' && t[0] != '-' by { assert IsDecimalDigit(t[0]); }
    UnsignedDecimalOfNat(n);
  }

  /** `Number("-" + d)` for a digit string `d`. */
  lemma StringToNumberOfMinus(d: string)
    requires |d| > 0 && forall i :: 0 <= i < |d| ==> IsDecimalDigit(d[i])
    ensures StringToNumber("-" + d) == Negate(UnsignedDecimal(d).GetOr(NaN))
  {
    var t := "-" + d;
    assert forall i :: 0 <= i < |t| ==> !IsWhitespace(t[i]) by {
      forall i | 0 <= i < |t| ensures !IsWhitespace(t[i]) {
        if i > 0 { assert t[i] == d[i - 1]; }
      }
    }
    TrimNoWhitespace(t);
    assert t[1..] == d;
  }

  lemma StringToNumberOfNegative(n: int)
    requires n < 0
    ensures StringToNumber(IntToString(n)) == Finite(n as real)
  {
    var d := NatToString(-n);
    calc {
      StringToNumber(IntToString(n));
      { assert IntToString(n) == "-" + d; }
      StringToNumber("-" + d);
      { StringToNumberOfMinus(d); }
      Negate(UnsignedDecimal(d).GetOr(NaN));
      { UnsignedDecimalOfNat(-n); }
      Negate(Finite((-n) as real));
    }
  }

  /** Reading back the decimal text of a whole number gives that number. */
  lemma StringToNumberOfInt(n: int)
    ensures StringToNumber(IntToString(n)) == Finite(n as real)
  {
    if n < 0 {
      StringToNumberOfNegative(n);
    } else {
      StringToNumberOfNat(n);
    }
  }

  /** Different whole numbers print differently. */
  lemma IntToStringInjective(a: int, b: int)
    ensures IntToString(a) == IntToString(b) ==> a == b
  {
    StringToNumberOfInt(a);
    StringToNumberOfInt(b);
  }

  // ---------------------------------------------------------------- Math.round

  /** `Math.round(p / q)`: the nearest integer, halves rounded up. */
  function RoundRatio(p: int, q: int): (r: int)
    requires q != 0
    ensures q > 0 ==> q * (2 * r - 1) <= 2 * p < q * (2 * r + 1)
    ensures q < 0 ==> q * (2 * r - 1) >= 2 * p > q * (2 * r + 1)
  {
    if q > 0 then DivFloor(2 * p + q, 2 * q) else DivFloor(-2 * p - q, -2 * q)
  }

  /** Floor division by a positive divisor. */
  function DivFloor(x: int, d: int): (r: int)
    requires d > 0
    ensures d * r <= x < d * r + d
  {
    x / d
  }

  lemma MulMonotone(k: int, a: int, b: int)
    requires k > 0 && a <= b
    ensures k * a <= k * b
  {
  }

  /** A ratio of counts rounded to a percentage stays in 0..100. */
  lemma PercentInRange(part: int, whole: int)
    requires whole != 0
    ensures 0 <= part <= whole ==> 0 <= RoundRatio(100 * part, whole) <= 100
  {
    if !(0 <= part <= whole) { return; }
    var r := RoundRatio(100 * part, whole);
    if r < 0 {
      MulMonotone(whole, 2 * r + 1, -1);
    }
    if r > 100 {
      MulMonotone(whole, 201, 2 * r - 1);
    }
  }
}

=== FILE: js_string.dfy ===
/**
  The few `String.prototype` operations the application relies on, over
  strings modelled as sequences of characters: `trim`, `split` on a single
  character, `indexOf`/`lastIndexOf`, `startsWith`/`endsWith`, `slice` and
  `padStart`.
 */
module JsString {

  /** A WhiteSpace or LineTerminator code point, the set `trim` removes. */
  predicate IsWhitespace(c: char) {
    var n := c as int;
    n == 0x09 || n == 0x0A || n == 0x0B || n == 0x0C || n == 0x0D || n == 0x20
    || n == 0xA0 || n == 0x1680 || (0x2000 <= n <= 0x200A) || n == 0x2028
    || n == 0x2029 || n == 0x202F || n == 0x205F || n == 0x3000 || n == 0xFEFF
  }

  /** The characters a regular expression `.` does not match. */
  predicate IsLineTerminator(c: char) {
    c == '\n' || c == '\r' || c as int == 0x2028 || c as int == 0x2029
  }

  /** True when `s` has no whitespace at either end. */
  predicate IsTrimmed(s: string) {
    |s| == 0 || (!IsWhitespace(s[0]) && !IsWhitespace(s[|s| - 1]))
  }

  /** The index of the first non-whitespace character at or after `i` (or `|s|`). */
  function SkipWhitespace(s: string, i: nat): (r: nat)
    requires i <= |s|
    ensures i <= r <= |s|
    ensures forall k :: i <= k < r ==> IsWhitespace(s[k])
    ensures r == |s| || !IsWhitespace(s[r])
    decreases |s| - i
  {
    if i == |s| || !IsWhitespace(s[i]) then i else SkipWhitespace(s, i + 1)
  }

  /** The end of `s[..j]` once trailing whitespace is dropped, never below `lo`. */
  function SkipWhitespaceBack(s: string, lo: nat, j: nat): (r: nat)
    requires lo <= j <= |s|
    ensures lo <= r <= j
    ensures forall k :: r <= k < j ==> IsWhitespace(s[k])
    ensures r == lo || !IsWhitespace(s[r - 1])
    decreases j
  {
    if j == lo || !IsWhitespace(s[j - 1]) then j else SkipWhitespaceBack(s, lo, j - 1)
  }

  /** `String.prototype.trim`: the text between the outer runs of whitespace. */
  function Trim(s: string): (r: string)
    ensures IsTrimmed(r)
    ensures var i := SkipWhitespace(s, 0);
      i + |r| <= |s| && r == s[i..i + |r|]
      && (forall k :: 0 <= k < i ==> IsWhitespace(s[k]))
      && (forall k :: i + |r| <= k < |s| ==> IsWhitespace(s[k]))
  {
    var i := SkipWhitespace(s, 0);
    var j := SkipWhitespaceBack(s, i, |s|);
    s[i..j]
  }

  lemma TrimOfTrimmed(s: string)
    requires IsTrimmed(s)
    ensures Trim(s) == s
  {
  }

  /** Trimming is idempotent. */
  lemma TrimIdempotent(s: string)
    ensures Trim(Trim(s)) == Trim(s)
  {
    TrimOfTrimmed(Trim(s));
  }

  /** A string with no whitespace character at all is left alone by `trim`. */
  lemma TrimNoWhitespace(s: string)
    requires forall i :: 0 <= i < |s| ==> !IsWhitespace(s[i])
    ensures Trim(s) == s
  {
    TrimOfTrimmed(s);
  }

  /** One leading space before trimmed text is all that `trim` removes. */
  lemma TrimLeadingSpace(t: string)
    requires IsTrimmed(t)
    ensures Trim(" " + t) == t
  {
    var s := " " + t;
    assert IsWhitespace(s[0]);
    assert SkipWhitespace(s, 0) == SkipWhitespace(s, 1);
    if |t| == 0 {
      assert SkipWhitespace(s, 1) == 1;
    } else {
      assert s[1] == t[0] && s[|s| - 1] == t[|t| - 1];
      assert SkipWhitespace(s, 1) == 1;
      assert SkipWhitespaceBack(s, 1, |s|) == |s|;
      assert s[1..] == t;
    }
  }

  lemma InCons(s: string, c: char)
    requires |s| > 0
    ensures c in s <==> s[0] == c || c in s[1..]
  {
    if c in s[1..] {
      var k :| 0 <= k < |s[1..]| && s[1..][k] == c;
      assert s[k + 1] == c;
    }
  }

  lemma InAppend(a: string, b: string, c: char)
    ensures c in a + b <==> c in a || c in b
  {
    if c in a + b {
      var k :| 0 <= k < |a + b| && (a + b)[k] == c;
      if k >= |a| { assert b[k - |a|] == c; }
    }
    if c in b {
      var k :| 0 <= k < |b| && b[k] == c;
      assert (a + b)[|a| + k] == c;
    }
  }

  /** Number of occurrences of `c` in `s`. */
  function Count(s: string, c: char): (n: nat)
    ensures n == 0 <==> c !in s
    ensures n <= |s|
  {
    if |s| == 0 then 0 else (if s[0] == c then 1 else 0) + Count(s[1..], c)
  }

  /** `s.indexOf(c)`: the first position of `c`, or -1. */
  function IndexOf(s: string, c: char): (r: int)
    ensures r == -1 <==> c !in s
    ensures r != -1 ==> 0 <= r < |s| && s[r] == c && forall k :: 0 <= k < r ==> s[k] != c
  {
    if |s| == 0 then -1
    else if s[0] == c then 0
    else
      var k := IndexOf(s[1..], c);
      if k == -1 then -1 else k + 1
  }

  /** `s.lastIndexOf(c)`: the last position of `c`, or -1. */
  function LastIndexOf(s: string, c: char): (r: int)
    ensures r == -1 <==> c !in s
    ensures r != -1 ==> 0 <= r < |s| && s[r] == c && forall k :: r < k < |s| ==> s[k] != c
  {
    if |s| == 0 then -1
    else if s[|s| - 1] == c then |s| - 1
    else
      assert s == s[..|s| - 1] + [s[|s| - 1]];
      LastIndexOf(s[..|s| - 1], c)
  }

  /** `s.split(c)` for a one-character separator. */
  function Split(s: string, c: char): (r: seq<string>)
    ensures |r| >= 1
    ensures |r| == 1 <==> c !in s
    ensures c !in s ==> r == [s]
    decreases |s|
  {
    var i := IndexOf(s, c);
    if i == -1 then [s] else [s[..i]] + Split(s[i + 1..], c)
  }

  /** There is one more piece than there are separators. */
  lemma {:induction false} SplitCount(s: string, c: char)
    ensures |Split(s, c)| == Count(s, c) + 1
    decreases |s|
  {
    var i := IndexOf(s, c);
    if i != -1 {
      CountSplitsAt(s, c, i);
      SplitCount(s[i + 1..], c);
    }
  }

  /** No piece contains the separator. */
  lemma {:induction false} SplitPiecesFree(s: string, c: char)
    ensures forall k :: 0 <= k < |Split(s, c)| ==> c !in Split(s, c)[k]
    decreases |s|
  {
    var i := IndexOf(s, c);
    if i != -1 {
      SplitPiecesFree(s[i + 1..], c);
      assert forall k :: 0 <= k < i ==> s[..i][k] != c;
    }
  }

  lemma CountAppend(a: string, b: string, c: char)
    ensures Count(a + b, c) == Count(a, c) + Count(b, c)
  {
    if |a| == 0 {
      assert a + b == b;
    } else {
      assert (a + b)[1..] == a[1..] + b;
      CountAppend(a[1..], b, c);
    }
  }

  lemma CountSplitsAt(s: string, c: char, i: int)
    requires 0 <= i < |s| && s[i] == c && c !in s[..i]
    ensures Count(s, c) == 1 + Count(s[i + 1..], c)
  {
    assert s == s[..i] + [c] + s[i + 1..];
    CountAppend(s[..i] + [c], s[i + 1..], c);
    CountAppend(s[..i], [c], c);
  }

  /** Joins the pieces back with `c` between consecutive ones (`Array.prototype.join`). */
  function Join(parts: seq<string>, c: char): string
    requires |parts| >= 1
  {
    if |parts| == 1 then parts[0] else parts[0] + [c] + Join(parts[1..], c)
  }

  /** Splitting and re-joining with the same separator gives the original text. */
  lemma {:induction false} JoinSplit(s: string, c: char)
    ensures Join(Split(s, c), c) == s
    decreases |s|
  {
    var i := IndexOf(s, c);
    if i != -1 {
      var a, b := s[..i], s[i + 1..];
      JoinSplit(b, c);
      JoinCons(a, Split(b, c), c);
      Decompose(s, i);
    }
  }

  /** A string is its prefix, the character at `i` and its suffix. */
  lemma Decompose(s: string, i: int)
    requires 0 <= i < |s|
    ensures s == s[..i] + [s[i]] + s[i + 1..]
  {
  }

  lemma JoinCons(a: string, rest: seq<string>, c: char)
    requires |rest| >= 1
    ensures Join([a] + rest, c) == a + [c] + Join(rest, c)
  {
    assert ([a] + rest)[1..] == rest;
  }

  /** Splitting text whose first separator follows `a` peels `a` off. */
  lemma SplitCons(a: string, c: char, b: string)
    requires c !in a
    ensures Split(a + [c] + b, c) == [a] + Split(b, c)
  {
    var s := a + [c] + b;
    assert s[|a|] == c;
    assert s[..|a|] == a;
    var i := IndexOf(s, c);
    assert i == |a|;
    assert s[i + 1..] == b;
  }

  /** Re-splitting joined pieces that contain no separator gives the pieces back. */
  lemma {:induction false} SplitJoin(parts: seq<string>, c: char)
    requires |parts| >= 1
    requires forall k :: 0 <= k < |parts| ==> c !in parts[k]
    ensures Split(Join(parts, c), c) == parts
  {
    if |parts| > 1 {
      var rest := Join(parts[1..], c);
      assert Join(parts, c) == parts[0] + [c] + rest;
      assert Split(rest, c) == parts[1..] by {
        SplitJoin(parts[1..], c);
      }
      assert c !in parts[0];
      SplitCons(parts[0], c, rest);
      assert [parts[0]] + parts[1..] == parts;
    }
  }

  predicate StartsWith(s: string, p: string) {
    |p| <= |s| && s[..|p|] == p
  }

  /** Dropping a known prefix keeps the rest of a longer prefix. */
  lemma StartsWithRest(s: string, p: string, q: string)
    requires StartsWith(s, p + q)
    ensures StartsWith(s, p) && StartsWith(s[|p|..], q)
  {
    assert s[..|p|] == (p + q)[..|p|];
    assert s[|p|..][..|q|] == (p + q)[|p|..];
  }

  predicate EndsWith(s: string, p: string) {
    |p| <= |s| && s[|s| - |p|..] == p
  }

  /** Resolves a `slice` index the way ECMAScript does: negative counts from the end, then clamped. */
  function RelativeIndex(k: int, len: nat): (r: nat)
    ensures r <= len
  {
    if k < 0 then (if len + k < 0 then 0 else len + k)
    else if k > len then len
    else k
  }

  /** `s.slice(start, end)`; an end before the start gives the empty string. */
  function Slice(s: string, start: int, end: int): (r: string)
    ensures var a, b := RelativeIndex(start, |s|), RelativeIndex(end, |s|);
      if a < b then r == s[a..b] else r == ""
  {
    var a := RelativeIndex(start, |s|);
    var b := RelativeIndex(end, |s|);
    if a < b then s[a..b] else ""
  }

  function Repeat(c: char, n: nat): (r: string)
    ensures |r| == n
    ensures forall i :: 0 <= i < n ==> r[i] == c
  {
    if n == 0 then "" else [c] + Repeat(c, n - 1)
  }

  /** `s.padStart(width, c)` for a one-character filler. */
  function PadStart(s: string, width: nat, c: char): (r: string)
    ensures |r| == if |s| >= width then |s| else width
    ensures EndsWith(r, s)
    ensures forall i :: 0 <= i < |r| - |s| ==> r[i] == c
  {
    if |s| >= width then s else Repeat(c, width - |s|) + s
  }

  /** The concatenation of a sequence of strings, left to right. */
  function Concat(parts: seq<string>): string {
    if |parts| == 0 then "" else parts[0] + Concat(parts[1..])
  }

  lemma ConcatAppend(a: seq<string>, b: seq<string>)
    ensures Concat(a + b) == Concat(a) + Concat(b)
  {
    if |a| == 0 {
      assert a + b == b;
    } else {
      assert (a + b)[1..] == a[1..] + b;
      ConcatAppend(a[1..], b);
    }
  }
}

=== FILE: js_value.dfy ===
/** Loosely typed record fields (`string | number`, optional) and JavaScript's truthiness on them. */
module JsValue {
  import opened JsNumber

  datatype Value = Undefined | Null | Text(text: string) | Number(number: Numeric) {

    /** ToBoolean: `undefined`, `null`, `""`, `0` and `NaN` are falsy. */
    predicate Truthy() {
      match this
      case Undefined => false
      case Null => false
      case Text(s) => s != ""
      case Number(n) => n.Truthy()
    }

    /** `Number(v)`. */
    function ToNumber(): Numeric {
      match this
      case Undefined => NaN
      case Null => Finite(0.0)
      case Text(s) => StringToNumber(s)
      case Number(n) => n
    }
  }
}

=== FILE: landing_page.dfy ===
/**
  The landing page (src/pages/LandingPage.tsx): the search handed up by the
  search box checks that the player exists and then navigates to the
  profile page, or shows why it could not.
 */
module LandingPage {
  import opened Wrappers
  import opened JsString
  import opened UriEncoding
  import opened Http

  datatype LandingState = LandingState(isLoading: bool, error: Option<string>)

  const PlayerNotFound := "Player not found. Please check your Riot ID and Tagline."
  const SearchFailed := "Failed to find player"

  const Initial := LandingState(false, None)

  /**
    The path of the player lookup under the API base URL:
    `/api/v1/players/<riotId>/<tagline>`, both encoded. Its `/`-separated
    segments are exactly these: encoding escapes every `/`, so neither name
    can add a segment.
   */
  function LookupPath(riotId: string, tagline: string): (r: string)
    ensures Split(r, '/') == ["", "api", "v1", "players", EncodeUriComponent(riotId), EncodeUriComponent(tagline)]
  {
    var a, b := EncodeUriComponent(riotId), EncodeUriComponent(tagline);
    EncodedExcludes(riotId, '/');
    EncodedExcludes(tagline, '/');
    LookupSegments(a, b);
    Join(["", "api", "v1", "players", a, b], '/')
  }

  /** `/`-free names joined under `/api/v1/players` split back into the same segments. */
  lemma LookupSegments(a: string, b: string)
    requires '/' !in a && '/' !in b
    ensures Split(Join(["", "api", "v1", "players", a, b], '/'), '/') == ["", "api", "v1", "players", a, b]
  {
    var parts := ["", "api", "v1", "players", a, b];
    assert forall k :: 0 <= k < 4 ==> '/' !in parts[k];
    SplitJoin(parts, '/');
  }

  /**
    The profile path segment the landing page navigates to: both parts
    encoded, joined by `-`. It holds no `/`, so it stays one segment.
   */
  function Slug(riotId: string, tagline: string): (r: string)
    ensures '/' !in r
  {
    EncodedExcludes(riotId, '/');
    EncodedExcludes(tagline, '/');
    EncodeUriComponent(riotId) + "-" + EncodeUriComponent(tagline)
  }

  /** `/profile/<slug>`: the route's `:id` parameter is the whole slug. */
  function ProfilePath(riotId: string, tagline: string): (r: string)
    ensures Split(r, '/') == ["", "profile", Slug(riotId, tagline)]
  {
    var slug := Slug(riotId, tagline);
    ProfileSegments(slug);
    "/profile/" + slug
  }

  /** A `/`-free segment under `/profile/` splits back into the root, `profile` and the segment. */
  lemma ProfileSegments(slug: string)
    requires '/' !in slug
    ensures Split("/profile/" + slug, '/') == ["", "profile", slug]
  {
    var parts := ["", "profile", slug];
    assert parts[1..] == ["profile", slug] && parts[1..][1..] == [slug];
    assert Join(parts[1..], '/') == "profile/" + slug;
    assert Join(parts, '/') == "/profile/" + slug;
    SplitJoin(parts, '/');
  }

  /** The state while the lookup is in flight. */
  function BeginSearch(s: LandingState): (r: LandingState)
    ensures r.isLoading && r.error == None
  {
    s.(isLoading := true, error := None)
  }

  datatype SearchOutcome = SearchOutcome(state: LandingState, navigateTo: Option<string>)

  /** The state once the lookup has answered, and where the page navigates. */
  function FinishSearch(s: LandingState, riotId: string, tagline: string, lookup: Fetch<()>): (r: SearchOutcome)
    ensures !r.state.isLoading
    ensures r.navigateTo.Some? <==> lookup.Ok?
    ensures lookup.Ok? ==> r.state.error == s.error
    ensures !lookup.Ok? ==> r.state.error.Some?
    ensures r.navigateTo.Some? ==> r.navigateTo.value == ProfilePath(riotId, tagline)
    ensures lookup.NotOk? ==> r.state.error == Some(PlayerNotFound)
    ensures lookup == Rejected(OtherValue) ==> r.state.error == Some(SearchFailed)
  {
    match lookup
    case Ok(_) => SearchOutcome(s.(isLoading := false), Some(ProfilePath(riotId, tagline)))
    case NotOk => SearchOutcome(s.(isLoading := false, error := Some(PlayerNotFound)), None)
    case Rejected(e) => SearchOutcome(s.(isLoading := false, error := Some(CaughtMessage(e, SearchFailed))), None)
  }

  /** `handleSearch` from start to finish. */
  function HandleSearch(s: LandingState, riotId: string, tagline: string, lookup: Fetch<()>): (r: SearchOutcome)
    ensures !r.state.isLoading
    ensures r.state.error.None? <==> lookup.Ok?
  {
    FinishSearch(BeginSearch(s), riotId, tagline, lookup)
  }

  /** The message under the search box: only a non-empty error is shown. */
  function ErrorBanner(s: LandingState): (r: Option<string>)
    ensures r.Some? ==> r.value != "" && s.error == r
    ensures s.error.Some? && s.error.value != "" ==> r == s.error
  {
    if s.error.Some? && s.error.value != "" then s.error else None
  }

  /** A search ends in the same state whatever state it started from: an earlier error never survives it. */
  lemma SearchForgetsEarlierState(s1: LandingState, s2: LandingState, riotId: string, tagline: string, lookup: Fetch<()>)
    ensures HandleSearch(s1, riotId, tagline, lookup) == HandleSearch(s2, riotId, tagline, lookup)
    ensures HandleSearch(s1, riotId, tagline, lookup).state == FinishSearch(Initial, riotId, tagline, lookup).state
  {
  }

  /** A found player is looked up and navigated to; an error is shown otherwise. */
  lemma SearchShowsErrorUnlessFound(s: LandingState, riotId: string, tagline: string, lookup: Fetch<()>)
    ensures lookup.Ok? <==> HandleSearch(s, riotId, tagline, lookup) == SearchOutcome(Initial, Some(ProfilePath(riotId, tagline)))
    ensures lookup.NotOk? ==> ErrorBanner(HandleSearch(s, riotId, tagline, lookup).state) == Some(PlayerNotFound)
  {
  }

  /**
    After a failed search the banner shows the error, except when the
    lookup threw an `Error` with an empty message: then nothing is shown.
   */
  lemma FailedSearchBanner(s: LandingState, riotId: string, tagline: string, lookup: Fetch<()>)
    requires !lookup.Ok?
    ensures var shown := ErrorBanner(HandleSearch(s, riotId, tagline, lookup).state);
      && (shown.None? <==> lookup == Rejected(ErrorObject("")))
      && (shown.Some? ==> Some(shown.value) == HandleSearch(s, riotId, tagline, lookup).state.error)
  {
  }
}

=== FILE: match_detail.dfy ===
/**
  The match scoreboard (src/components/MatchDetail.tsx): which view is
  shown, the two team tables sorted by finishing position, the match
  duration text and the per-player fallbacks of the team table.
 */
module MatchDetail {
  import opened Wrappers
  import opened JsString
  import opened JsNumber
  import opened JsValue

  /** One participant; the optional fields are `kda`, `kdRatio`, `hsPercent` and `fmt_pos`. */
  datatype Player = Player(
    puuid: string,
    userId: string,
    userTag: string,
    teamId: string,
    kills: int,
    deaths: int,
    assists: int,
    headshots: int,
    othershots: int,
    result: string,
    position: int,
    kda: Option<string>,
    kdRatio: Value,
    hsPercent: Value,
    fmtPos: Option<string>)

  datatype Match = Match(
    id: string,
    mapName: string,
    durationMs: int,
    winningTeam: string,
    roundsPlay: int,
    participations: seq<Player>)

  // ---------------------------------------------------------------- gating

  datatype View = LoadingView | NotFoundView | Scoreboard(blue: seq<Player>, red: seq<Player>)

  /** Loading wins over everything; then a missing match; then the two teams. */
  function Render(detail: Option<Match>, isLoading: bool): (v: View)
    ensures isLoading <==> v == LoadingView
    ensures v == NotFoundView <==> !isLoading && detail.None?
    ensures v.Scoreboard? ==> detail.Some? && v.blue == TeamOf(detail.value.participations, "Blue")
    ensures v.Scoreboard? ==> v.red == TeamOf(detail.value.participations, "Red")
  {
    if isLoading then LoadingView
    else if detail.None? then NotFoundView
    else Scoreboard(TeamOf(detail.value.participations, "Blue"), TeamOf(detail.value.participations, "Red"))
  }

  // ---------------------------------------------------------------- teams

  /** `a` is `b` with some elements left out, the rest in their order. */
  predicate Subsequence(a: seq<Player>, b: seq<Player>)
    decreases |b|
  {
    if |a| == 0 then true
    else if |b| == 0 then false
    else (a[0] == b[0] && Subsequence(a[1..], b[1..])) || Subsequence(a, b[1..])
  }

  /**
    `filter(p => p.team_id === team)`: every player of that team, as often
    as the input lists them, and nobody else, in input order.
   */
  function OnTeam(ps: seq<Player>, team: string): (r: seq<Player>)
    ensures |r| <= |ps|
    ensures forall i :: 0 <= i < |r| ==> r[i].teamId == team
    ensures multiset(r) <= multiset(ps)
    ensures forall p: Player :: p.teamId == team ==> multiset(r)[p] == multiset(ps)[p]
    ensures Subsequence(r, ps)
  {
    if |ps| == 0 then []
    else
      var rest := OnTeam(ps[1..], team);
      OnTeamStep(ps, team, rest);
      if ps[0].teamId == team then [ps[0]] + rest else rest
  }

  /** One step of the filter: the first player is kept or dropped in front of the filtered rest. */
  lemma OnTeamStep(ps: seq<Player>, team: string, rest: seq<Player>)
    requires |ps| > 0 && |rest| <= |ps| - 1
    requires forall i :: 0 <= i < |rest| ==> rest[i].teamId == team
    requires multiset(rest) <= multiset(ps[1..])
    requires forall p: Player :: p.teamId == team ==> multiset(rest)[p] == multiset(ps[1..])[p]
    requires Subsequence(rest, ps[1..])
    ensures var r := if ps[0].teamId == team then [ps[0]] + rest else rest;
      && |r| <= |ps|
      && (forall i :: 0 <= i < |r| ==> r[i].teamId == team)
      && multiset(r) <= multiset(ps)
      && (forall p: Player :: p.teamId == team ==> multiset(r)[p] == multiset(ps)[p])
      && Subsequence(r, ps)
  {
    assert ps == [ps[0]] + ps[1..];
    assert multiset(ps) == multiset{ps[0]} + multiset(ps[1..]);
    if ps[0].teamId == team {
      var r := [ps[0]] + rest;
      assert r[1..] == rest;
      assert multiset(r) == multiset{ps[0]} + multiset(rest);
    }
  }

  lemma {:induction false} OnTeamAppend(a: seq<Player>, b: seq<Player>, team: string)
    ensures OnTeam(a + b, team) == OnTeam(a, team) + OnTeam(b, team)
  {
    if |a| == 0 {
      assert a + b == b;
    } else {
      assert (a + b)[1..] == a[1..] + b;
      OnTeamAppend(a[1..], b, team);
    }
  }

  predicate SortedByPosition(ps: seq<Player>) {
    forall i, j :: 0 <= i < j < |ps| ==> ps[i].position <= ps[j].position
  }

  predicate AllAtMost(ps: seq<Player>, bound: int) {
    forall i :: 0 <= i < |ps| ==> ps[i].position <= bound
  }

  /**
    Inserts `p` after every player whose position is not greater, looking
    from the back; this is how a stable sort places the later of two equal
    keys.
   */
  function Insert(ps: seq<Player>, p: Player): (r: seq<Player>)
    ensures |r| == |ps| + 1
    ensures multiset(r) == multiset(ps) + multiset{p}
  {
    if |ps| == 0 then [p]
    else if ps[|ps| - 1].position <= p.position then ps + [p]
    else
      var init := ps[..|ps| - 1];
      assert ps == init + [ps[|ps| - 1]];
      Insert(init, p) + [ps[|ps| - 1]]
  }

  /** `sort((a, b) => a.position - b.position)`, a stable sort (ECMAScript 2019 requires stability). */
  function SortByPosition(ps: seq<Player>): (r: seq<Player>)
    ensures |r| == |ps|
    ensures multiset(r) == multiset(ps)
  {
    if |ps| == 0 then []
    else
      assert ps == ps[..|ps| - 1] + [ps[|ps| - 1]];
      Insert(SortByPosition(ps[..|ps| - 1]), ps[|ps| - 1])
  }

  /** One team's table rows: players of that team only, none invented. */
  function TeamOf(ps: seq<Player>, team: string): (r: seq<Player>)
    ensures forall i :: 0 <= i < |r| ==> r[i].teamId == team
    ensures multiset(r) <= multiset(ps)
  {
    var on := OnTeam(ps, team);
    var t := SortByPosition(on);
    forall i | 0 <= i < |t| ensures t[i].teamId == team {
      assert t[i] in multiset(on);
    }
    t
  }

  lemma {:induction false} InsertBound(ps: seq<Player>, p: Player, bound: int)
    requires AllAtMost(ps, bound) && p.position <= bound
    ensures AllAtMost(Insert(ps, p), bound)
  {
    if |ps| > 0 && ps[|ps| - 1].position > p.position {
      InsertBound(ps[..|ps| - 1], p, bound);
    }
  }

  lemma {:induction false} InsertSorted(ps: seq<Player>, p: Player)
    requires SortedByPosition(ps)
    ensures SortedByPosition(Insert(ps, p))
  {
    if |ps| > 0 && ps[|ps| - 1].position > p.position {
      var init := ps[..|ps| - 1];
      var last := ps[|ps| - 1];
      InsertSorted(init, p);
      InsertBound(init, p, last.position);
      var r := Insert(init, p);
      assert Insert(ps, p) == r + [last];
      assert forall i :: 0 <= i < |r| ==> r[i].position <= last.position by {
        assert AllAtMost(r, last.position);
      }
    }
  }

  lemma {:induction false} SortSorted(ps: seq<Player>)
    ensures SortedByPosition(SortByPosition(ps))
  {
    if |ps| > 0 {
      SortSorted(ps[..|ps| - 1]);
      InsertSorted(SortByPosition(ps[..|ps| - 1]), ps[|ps| - 1]);
    }
  }

  /** The players at one position, in order. */
  function AtPosition(ps: seq<Player>, k: int): (r: seq<Player>)
    ensures forall i :: 0 <= i < |r| ==> r[i].position == k
  {
    if |ps| == 0 then []
    else AtPosition(ps[..|ps| - 1], k) + (if ps[|ps| - 1].position == k then [ps[|ps| - 1]] else [])
  }

  lemma {:induction false} AtPositionAppend(a: seq<Player>, b: seq<Player>, k: int)
    ensures AtPosition(a + b, k) == AtPosition(a, k) + AtPosition(b, k)
  {
    if |b| > 0 {
      var b' := b[..|b| - 1];
      assert (a + b)[..|a + b| - 1] == a + b';
      AtPositionAppend(a, b', k);
    } else {
      assert a + b == a;
    }
  }

  lemma {:induction false} InsertAtPosition(ps: seq<Player>, p: Player, k: int)
    ensures AtPosition(Insert(ps, p), k) == AtPosition(ps, k) + (if p.position == k then [p] else [])
  {
    if |ps| == 0 {
    } else if ps[|ps| - 1].position <= p.position {
      AtPositionAppend(ps, [p], k);
    } else {
      var init := ps[..|ps| - 1];
      var last := ps[|ps| - 1];
      InsertAtPosition(init, p, k);
      AtPositionAppend(Insert(init, p), [last], k);
    }
  }

  /** Stability: players that share a position keep their input order. */
  lemma {:induction false} SortKeepsTies(ps: seq<Player>, k: int)
    ensures AtPosition(SortByPosition(ps), k) == AtPosition(ps, k)
  {
    if |ps| > 0 {
      SortKeepsTies(ps[..|ps| - 1], k);
      InsertAtPosition(SortByPosition(ps[..|ps| - 1]), ps[|ps| - 1], k);
    }
  }

  /** Picking one team and picking one position can be done in either order. */
  lemma {:induction false} AtPositionOnTeam(ps: seq<Player>, team: string, k: int)
    ensures AtPosition(OnTeam(ps, team), k) == OnTeam(AtPosition(ps, k), team)
  {
    if |ps| > 0 {
      var init, last := ps[..|ps| - 1], ps[|ps| - 1];
      assert ps == init + [last];
      AtPositionOnTeam(init, team, k);
      SingleCommutes(last, team, k);
      calc {
        AtPosition(OnTeam(ps, team), k);
        { OnTeamAppend(init, [last], team); }
        AtPosition(OnTeam(init, team) + OnTeam([last], team), k);
        { AtPositionAppend(OnTeam(init, team), OnTeam([last], team), k); }
        OnTeam(AtPosition(init, k), team) + OnTeam(AtPosition([last], k), team);
        { OnTeamAppend(AtPosition(init, k), AtPosition([last], k), team); }
        OnTeam(AtPosition(init, k) + AtPosition([last], k), team);
        { AtPositionAppend(init, [last], k); }
        OnTeam(AtPosition(ps, k), team);
      }
    }
  }

  lemma SingleCommutes(p: Player, team: string, k: int)
    ensures AtPosition(OnTeam([p], team), k) == OnTeam(AtPosition([p], k), team)
  {
    assert [p][..0] == [];
    assert [p][1..] == [];
    if p.teamId == team {
      assert OnTeam([p], team) == [p];
    }
  }

  /**
    A team table holds every player of that team as often as the match
    lists them and nobody else, rows ascend by position, and the players
    at each position appear in their order in the match.
   */
  lemma TeamTable(ps: seq<Player>, team: string, k: int)
    ensures forall p: Player :: multiset(TeamOf(ps, team))[p] == if p.teamId == team then multiset(ps)[p] else 0
    ensures forall i :: 0 <= i < |TeamOf(ps, team)| ==> TeamOf(ps, team)[i].teamId == team
    ensures SortedByPosition(TeamOf(ps, team))
    ensures AtPosition(TeamOf(ps, team), k) == OnTeam(AtPosition(ps, k), team)
  {
    var t := TeamOf(ps, team);
    var on := OnTeam(ps, team);
    assert multiset(t) == multiset(on);
    forall p: Player | p.teamId != team ensures multiset(on)[p] == 0 {
      assert p !in on;
    }
    forall i | 0 <= i < |t| ensures t[i].teamId == team {
      assert t[i] in multiset(on);
    }
    SortSorted(on);
    SortKeepsTies(on, k);
    AtPositionOnTeam(ps, team, k);
  }

  /** A player with any other team id is in neither table. */
  lemma OtherTeamsHidden(ps: seq<Player>, p: Player)
    requires p.teamId != "Blue" && p.teamId != "Red"
    ensures p !in multiset(TeamOf(ps, "Blue")) && p !in multiset(TeamOf(ps, "Red"))
  {
    TeamTable(ps, "Blue", 0);
    TeamTable(ps, "Red", 0);
  }

  // ---------------------------------------------------------------- duration

  /** `a % b` in JavaScript: the remainder takes the sign of the dividend. */
  function TruncRem(a: int, b: int): (r: int)
    requires b > 0
    ensures a >= 0 ==> 0 <= r < b && r == a % b
    ensures a < 0 ==> -b < r <= 0
    ensures (a - r) % b == 0
  {
    if a >= 0 then
      RemainderLeavesMultiple(a, b);
      a % b
    else
      NegativeRemainder(a, b);
      -((-a) % b)
  }

  lemma NegativeRemainder(a: int, b: int)
    requires b > 0 && a < 0
    ensures (a - -((-a) % b)) % b == 0
  {
    var q := (-a) / b;
    RemainderLeavesMultiple(-a, b);
    assert a - -((-a) % b) == b * (-q) by {
      assert -a - (-a) % b == b * q;
    }
    MultipleRem(b, -q);
  }

  /** Taking the remainder off leaves a multiple of the divisor. */
  lemma RemainderLeavesMultiple(a: int, b: int)
    requires b > 0
    ensures (a - a % b) % b == 0
    ensures a - a % b == b * (a / b)
  {
    MultipleRem(b, a / b);
  }

  lemma MultipleRem(b: int, c: int)
    requires b > 0
    ensures (b * c) % b == 0
  {
    var x := b * c;
    var q, m := x / b, x % b;
    assert b * (c - q) == m by {
      assert x == b * q + m;
      assert b * (c - q) == b * c - b * q;
    }
    if c - q >= 1 {
      MulMonotone(b, 1, c - q);
    } else if c - q <= -1 {
      MulMonotone(b, c - q, -1);
    }
  }

  /** Whole minutes and remaining whole seconds of a duration in milliseconds. */
  function DurationParts(ms: int): (r: (int, int))
    ensures ms >= 0 ==> 0 <= r.1 < 60
    ensures ms >= 0 ==> r.0 * 60000 + r.1 * 1000 <= ms < r.0 * 60000 + r.1 * 1000 + 1000
  {
    (ms / 60000, TruncRem(ms, 60000) / 1000)
  }

  /**
    `formatDuration`: minutes, a colon, and the seconds padded to two
    characters. For a non-negative duration the text before the last three
    characters reads back as the minutes, and the last two are the digits
    of the seconds.
   */
  function FormatDuration(ms: int): (r: string)
    ensures ms >= 0 ==> |r| >= 4 && r[|r| - 3] == ':'
    ensures ms >= 0 ==> StringToNumber(r[..|r| - 3]) == Finite(DurationParts(ms).0 as real)
    ensures ms >= 0 ==>
      && IsDecimalDigit(r[|r| - 2]) && IsDecimalDigit(r[|r| - 1])
      && DigitValue(r[|r| - 2]) * 10 + DigitValue(r[|r| - 1]) == DurationParts(ms).1
  {
    var (minutes, seconds) := DurationParts(ms);
    var a, b := IntToString(minutes), PadStart(IntToString(seconds), 2, '0');
    if ms >= 0 then
      DurationSeconds(ms);
      StringToNumberOfInt(minutes);
      ColonText(a, b);
      a + ":" + b
    else a + ":" + b
  }

  /** Where the parts of `a:bb` sit, counted from the end. */
  lemma ColonText(a: string, b: string)
    requires |b| == 2
    ensures var t := a + ":" + b;
      && |t| == |a| + 3 && t[|t| - 3] == ':' && t[..|t| - 3] == a
      && t[|t| - 2] == b[0] && t[|t| - 1] == b[1]
  {
    var t := a + ":" + b;
    assert t[..|a|] == a;
  }

  /** For a non-negative duration the seconds field is exactly two digits that read back as the seconds. */
  lemma DurationSeconds(ms: int)
    requires ms >= 0
    ensures var (m, s) := DurationParts(ms);
      var text := PadStart(IntToString(s), 2, '0');
      |text| == 2 && IsDecimalDigit(text[0]) && IsDecimalDigit(text[1])
      && DigitValue(text[0]) * 10 + DigitValue(text[1]) == s
  {
    var (m, s) := DurationParts(ms);
    var t := IntToString(s);
    NatToStringValue(s);
    if s < 10 {
      assert t == [DigitChar(s)];
    } else {
      assert t == NatToString(s / 10) + [DigitChar(s % 10)];
      assert NatToString(s / 10) == [DigitChar(s / 10)];
    }
  }

  /** The text splits at its only colon into the minutes and the padded seconds. */
  lemma DurationColon(ms: int)
    requires ms >= 0
    ensures var (m, s) := DurationParts(ms);
      Split(FormatDuration(ms), ':') == [IntToString(m), PadStart(IntToString(s), 2, '0')]
  {
    var (m, s) := DurationParts(ms);
    var a, b := IntToString(m), PadStart(IntToString(s), 2, '0');
    DurationSeconds(ms);
    NoColonInNumber(m);
    assert ':' !in b by {
      assert forall k :: 0 <= k < |b| ==> IsDecimalDigit(b[k]);
    }
    assert FormatDuration(ms) == a + [':'] + b;
    SplitAtOnly(a, ':', b);
  }

  /** A number's text holds no colon. */
  lemma NoColonInNumber(n: int)
    ensures ':' !in IntToString(n)
  {
    var t := IntToString(n);
    assert forall k :: 0 <= k < |t| ==> t[k] != ':';
  }

  /** Splitting at the one separator between two separator-free parts gives the two parts. */
  lemma SplitAtOnly(a: string, c: char, b: string)
    requires c !in a && c !in b
    ensures Split(a + [c] + b, c) == [a, b]
  {
    SplitCons(a, c, b);
  }

  // ---------------------------------------------------------------- table fallbacks

  /** What the K/D column shows. */
  datatype KdShown = GivenKd(kd: Value) | KillsAsKd(kills: int) | RatioToFixed(kills: int, deaths: int)

  /** `kdRatio || (deaths === 0 ? kills : (kills / deaths).toFixed(2))`. */
  function ShownKd(p: Player): (r: KdShown)
    ensures r.GivenKd? <==> p.kdRatio.Truthy()
    ensures r.GivenKd? ==> r.kd == p.kdRatio
    ensures r.KillsAsKd? ==> p.deaths == 0 && r.kills == p.kills
    ensures r.RatioToFixed? ==> p.deaths != 0
  {
    if p.kdRatio.Truthy() then GivenKd(p.kdRatio)
    else if p.deaths == 0 then KillsAsKd(p.kills)
    else RatioToFixed(p.kills, p.deaths)
  }

  /** Without a truthy K/D and with no deaths, the column shows the kill count, read back exactly. */
  lemma KdWithoutDeaths(p: Player)
    requires !p.kdRatio.Truthy() && p.deaths == 0
    ensures ShownKd(p) == KillsAsKd(p.kills)
    ensures Number(Finite(p.kills as real)).ToNumber() == Text(IntToString(p.kills)).ToNumber()
  {
    StringToNumberOfInt(p.kills);
  }

  /**
    `Math.round(headshots / (headshots + othershots) * 100)`: a zero total
    gives NaN for no headshots and an infinity otherwise.
   */
  function HeadshotPercent(headshots: int, othershots: int): (r: Numeric)
    ensures headshots + othershots > 0 && headshots >= 0 && othershots >= 0 ==> r.Finite? && 0.0 <= r.value <= 100.0
    ensures headshots + othershots == 0 ==> (r.NaN? <==> headshots == 0)
  {
    var total := headshots + othershots;
    if total == 0 then
      (if headshots == 0 then NaN else if headshots > 0 then PlusInfinity else MinusInfinity)
    else
      PercentInRange(headshots, total);
      Finite(RoundRatio(100 * headshots, total) as real)
  }

  /** `hsPercent || Math.round(...) || 0`. */
  function ShownHeadshots(p: Player): (r: Value)
    ensures p.hsPercent.Truthy() ==> r == p.hsPercent
    ensures !p.hsPercent.Truthy() ==> r.Number? && !r.number.NaN?
    ensures !p.hsPercent.Truthy() && p.headshots + p.othershots == 0 && p.headshots == 0 ==> r == Number(Finite(0.0))
  {
    if p.hsPercent.Truthy() then p.hsPercent
    else Number(OrZero(HeadshotPercent(p.headshots, p.othershots)))
  }

  /** The `kills/deaths/assists` text built when a player has no `kda`. */
  function KdaText(kills: int, deaths: int, assists: int): (r: string)
    ensures Split(r, '/') == [IntToString(kills), IntToString(deaths), IntToString(assists)]
  {
    var parts := [IntToString(kills), IntToString(deaths), IntToString(assists)];
    SplitJoin(parts, '/');
    Join(parts, '/')
  }

  function ShownKda(p: Player): (r: string)
    ensures p.kda.Some? && p.kda.value != "" ==> r == p.kda.value
    ensures p.kda.None? || p.kda.value == "" ==> r == KdaText(p.kills, p.deaths, p.assists)
  {
    if p.kda.Some? && p.kda.value != "" then p.kda.value else KdaText(p.kills, p.deaths, p.assists)
  }

  /** The position label derived from the numeric position. */
  function PositionLabel(position: int): (r: string)
    ensures |r| >= 3
  {
    if position == 1 then "MVP"
    else if position == 2 then "2nd"
    else if position == 3 then "3rd"
    else IntToString(position) + "th"
  }

  function ShownPosition(p: Player): (r: string)
    ensures p.fmtPos.Some? && p.fmtPos.value != "" ==> r == p.fmtPos.value
    ensures p.fmtPos.None? || p.fmtPos.value == "" ==> r == PositionLabel(p.position)
  {
    if p.fmtPos.Some? && p.fmtPos.value != "" then p.fmtPos.value else PositionLabel(p.position)
  }

  /** Different positions get different labels, and an `th` label reads back as its position. */
  lemma PositionLabelsDistinct(a: int, b: int)
    ensures PositionLabel(a) == PositionLabel(b) ==> a == b
    ensures a !in {1, 2, 3} ==>
      (EndsWith(PositionLabel(a), "th") && StringToNumber(PositionLabel(a)[..|PositionLabel(a)| - 2]) == Finite(a as real))
  {
    var la, lb := PositionLabel(a), PositionLabel(b);
    if a !in {1, 2, 3} {
      assert la[..|la| - 2] == IntToString(a);
      StringToNumberOfInt(a);
    }
    if la == lb {
      if a in {1, 2, 3} || b in {1, 2, 3} {
        LabelKinds(a);
        LabelKinds(b);
      } else {
        assert la[..|la| - 2] == IntToString(a);
        assert lb[..|lb| - 2] == IntToString(b);
        IntToStringInjective(a, b);
      }
    }
  }

  /** The three named labels contain a letter in second place; numeric labels end in a digit before `th`. */
  lemma LabelKinds(a: int)
    ensures a == 1 ==> PositionLabel(a) == "MVP"
    ensures a == 2 ==> PositionLabel(a) == "2nd"
    ensures a == 3 ==> PositionLabel(a) == "3rd"
    ensures a !in {1, 2, 3} ==> var l := PositionLabel(a); l[|l| - 1] == 'h' && IsDecimalDigit(l[|l| - 3])
  {
  }

  // ---------------------------------------------------------------- badge

  datatype Badge = Victory | Defeat

  /** `team[0]?.result === 'win'`: the first row of the sorted table decides. */
  function TeamBadge(team: seq<Player>): (b: Badge)
    ensures |team| == 0 ==> b == Defeat
  {
    if |team| > 0 && team[0].result == "win" then Victory else Defeat
  }

  /** The first player of a list is the first of those at its position. */
  lemma AtPositionHead(ps: seq<Player>)
    requires |ps| > 0
    ensures var at := AtPosition(ps, ps[0].position); |at| > 0 && at[0] == ps[0]
  {
    assert ps == [ps[0]] + ps[1..];
    AtPositionAppend([ps[0]], ps[1..], ps[0].position);
    assert [ps[0]][..0] == [];
  }

  /**
    The badge of a team table reads VICTORY exactly when the table is
    non-empty and a player with the lowest position on that team, the
    first of them in input order, won.
   */
  lemma BadgeFollowsLeader(ps: seq<Player>, team: string)
    ensures var t := TeamOf(ps, team);
      TeamBadge(t) == Victory <==> |t| > 0 && t[0].result == "win"
    ensures var t := TeamOf(ps, team);
      |t| > 0 ==>
        (t[0] in multiset(ps) && t[0].teamId == team
         && (forall i :: 0 <= i < |t| ==> t[0].position <= t[i].position)
         && var first := OnTeam(AtPosition(ps, t[0].position), team); |first| > 0 && t[0] == first[0])
  {
    var t := TeamOf(ps, team);
    if |t| > 0 {
      var on := OnTeam(ps, team);
      assert t[0] in multiset(on) by {
        assert t[0] in multiset(t);
      }
      assert t[0] in on;
      SortSorted(on);
      LeaderFirstAtPosition(ps, team);
    }
  }

  /** The first row is the first player of the team, in input order, at its position. */
  lemma LeaderFirstAtPosition(ps: seq<Player>, team: string)
    requires |TeamOf(ps, team)| > 0
    ensures var t := TeamOf(ps, team);
      var first := OnTeam(AtPosition(ps, t[0].position), team); |first| > 0 && t[0] == first[0]
  {
    var t := TeamOf(ps, team);
    TeamTable(ps, team, t[0].position);
    AtPositionHead(t);
  }
}

=== FILE: match_history_card.dfy ===
/**
  One row of the match list (src/components/MatchHistoryCard.tsx): the
  colours picked from the match result, the position badge, and the colour
  of the K/D figure.
 */
module MatchHistoryCard {
  import opened JsString
  import opened JsNumber
  import opened JsValue
  import ProfileDashboard

  datatype Outcome = Win | Draw | Loss

  /** `result === 'win'`, `result === 'draw'`, and anything else (a loss, or an unknown result). */
  function OutcomeOf(result: string): (o: Outcome)
    ensures o == Win <==> result == "win"
    ensures o == Draw <==> result == "draw"
    ensures o == Loss <==> result != "win" && result != "draw"
  {
    if result == "win" then Win else if result == "draw" then Draw else Loss
  }

  /** The colour name the card's classes are built from. */
  function Tint(o: Outcome): string {
    match o
    case Win => "success"
    case Draw => "yellow-500"
    case Loss => "loss"
  }

  /** The result-dependent classes and text of a card. */
  datatype Look = Look(
    border: string,
    background: string,
    badgeText: string,
    badgeClass: string,
    wonClass: string,
    lostClass: string)

  /**
    The classes and badge text of each outcome. A loss alone is badged
    "Defeat" and has its lost-rounds figure in the loss colour.
   */
  function LookOf(o: Outcome): (l: Look)
    ensures o == Loss <==> l.badgeText == "Defeat"
    ensures o == Loss <==> l.lostClass == "text-loss"
  {
    var t := Tint(o);
    Look(
      "border-l-" + t,
      "bg-" + t + "/5",
      match o case Win => "Victory" case Draw => "Draw" case Loss => "Defeat",
      "bg-" + t + "/20 text-" + t + " border-" + t + "/50",
      if o == Loss then "text-text-primary" else "text-" + t,
      if o == Loss then "text-loss" else "text-text-secondary")
  }

  function CardLook(m: ProfileDashboard.MatchSummary): Look {
    LookOf(OutcomeOf(m.result))
  }

  /** Text with the outcome's colour name at position `k`. */
  lemma TintAt(p: string, o: Outcome, rest: string)
    ensures (p + Tint(o) + rest)[|p|] == Tint(o)[0]
  {
  }

  lemma TintsDistinct(a: Outcome, b: Outcome)
    ensures a != b ==> Tint(a)[0] != Tint(b)[0]
  {
  }

  lemma BorderApart(a: Outcome, b: Outcome)
    ensures LookOf(a).border == LookOf(b).border <==> a == b
  {
    if a != b {
      TintsDistinct(a, b);
      TintAt("border-l-", a, "");
      TintAt("border-l-", b, "");
      assert LookOf(a).border == "border-l-" + Tint(a) + "";
      assert LookOf(b).border == "border-l-" + Tint(b) + "";
    }
  }

  lemma BackgroundApart(a: Outcome, b: Outcome)
    ensures LookOf(a).background == LookOf(b).background <==> a == b
  {
    if a != b {
      TintsDistinct(a, b);
      TintAt("bg-", a, "/5");
      TintAt("bg-", b, "/5");
    }
  }

  lemma BadgeClassApart(a: Outcome, b: Outcome)
    ensures LookOf(a).badgeClass == LookOf(b).badgeClass <==> a == b
  {
    if a != b {
      TintsDistinct(a, b);
      TintAt("bg-", a, "/20 text-" + Tint(a) + " border-" + Tint(a) + "/50");
      TintAt("bg-", b, "/20 text-" + Tint(b) + " border-" + Tint(b) + "/50");
    }
  }

  /** "Victory", "Draw" and "Defeat" differ in their second letter. */
  lemma BadgeTextApart(a: Outcome, b: Outcome)
    ensures LookOf(a).badgeText == LookOf(b).badgeText <==> a == b
  {
    if a != b {
      assert LookOf(a).badgeText[1] != LookOf(b).badgeText[1];
    }
  }

  lemma WonClassApart(a: Outcome, b: Outcome)
    ensures LookOf(a).wonClass == LookOf(b).wonClass <==> a == b
  {
    if a != b {
      assert LookOf(a).wonClass[5] != LookOf(b).wonClass[5];
    }
  }

  /**
    Every result-dependent part of the card tells the three outcomes apart on
    its own, except the lost-rounds colour, which singles out one outcome: the
    lost rounds turn red only on a loss.
   */
  lemma LooksDistinct(a: Outcome, b: Outcome)
    ensures LookOf(a).border == LookOf(b).border <==> a == b
    ensures LookOf(a).background == LookOf(b).background <==> a == b
    ensures LookOf(a).badgeText == LookOf(b).badgeText <==> a == b
    ensures LookOf(a).badgeClass == LookOf(b).badgeClass <==> a == b
    ensures LookOf(a).wonClass == LookOf(b).wonClass <==> a == b
    ensures LookOf(a).lostClass == "text-loss" <==> a == Loss
  {
    BorderApart(a, b);
    BackgroundApart(a, b);
    BadgeClassApart(a, b);
    WonClassApart(a, b);
    BadgeTextApart(a, b);
  }

  /** A card's result badge reads "Victory" or "Draw" only for exactly those results. */
  lemma BadgeText(result: string)
    ensures LookOf(OutcomeOf(result)).badgeText == "Victory" <==> result == "win"
    ensures LookOf(OutcomeOf(result)).badgeText == "Draw" <==> result == "draw"
    ensures LookOf(OutcomeOf(result)).badgeText == "Defeat" <==> result != "win" && result != "draw"
  {
    LooksDistinct(OutcomeOf(result), Win);
    LooksDistinct(OutcomeOf(result), Draw);
    LooksDistinct(OutcomeOf(result), Loss);
  }

  // ---------------------------------------------------------------- position badge

  datatype PositionBadge = MvpBadge | SecondBadge | ThirdBadge | PlainBadge(text: string)
  {
    /** A coloured badge rather than the plain grey one. */
    predicate Highlighted() {
      !PlainBadge?
    }

    function Caption(): string {
      match this
      case MvpBadge => "MVP"
      case SecondBadge => "2nd"
      case ThirdBadge => "3rd"
      case PlainBadge(t) => t
    }
  }

  function PositionBadgeOf(fmtPos: string): (b: PositionBadge)
    ensures b.Caption() == fmtPos
  {
    if fmtPos == "MVP" then MvpBadge
    else if fmtPos == "2nd" then SecondBadge
    else if fmtPos == "3rd" then ThirdBadge
    else PlainBadge(fmtPos)
  }

  /** The badge always shows the position text it was given, highlighted exactly for the top three. */
  lemma PositionBadgeShows(fmtPos: string)
    ensures PositionBadgeOf(fmtPos).Highlighted() <==> fmtPos in {"MVP", "2nd", "3rd"}
    ensures PositionBadgeOf(fmtPos) == PositionBadgeOf(PositionBadgeOf(fmtPos).Caption())
  {
  }

  // ---------------------------------------------------------------- K/D colour

  datatype Tone = Good | Bad | Even

  /** `Number(kdRatio) > 1` is green, `< 1` red, anything else (1, NaN) neutral. */
  function KdTone(kdRatio: Value): (t: Tone)
    ensures t == Even <==> !GreaterThan(kdRatio.ToNumber(), 1.0) && !LessThan(kdRatio.ToNumber(), 1.0)
  {
    var n := kdRatio.ToNumber();
    if GreaterThan(n, 1.0) then Good else if LessThan(n, 1.0) then Bad else Even
  }

  /** For a numeric ratio the colour follows its comparison with 1. */
  lemma KdToneOfNumber(x: real)
    ensures KdTone(Number(Finite(x))) == (if x > 1.0 then Good else if x < 1.0 then Bad else Even)
  {
  }

  /** A ratio sent as the text of a whole number is coloured as that number. */
  lemma KdToneOfText(n: int)
    ensures KdTone(Text(IntToString(n))) == (if n > 1 then Good else if n < 1 then Bad else Even)
  {
    StringToNumberOfInt(n);
  }

  /** A missing or unreadable ratio is neutral. */
  lemma KdToneOfMissing(v: Value)
    requires v.Undefined? || v.ToNumber().NaN?
    ensures KdTone(v) == Even
  {
  }

  /** The card a dashboard row renders: its look, position badge and K/D colour. */
  datatype Card = Card(look: Look, position: PositionBadge, kdTone: Tone)

  function CardOf(m: ProfileDashboard.MatchSummary): (c: Card)
    ensures c.position.Caption() == m.fmtPos
    ensures c.look.badgeText == "Victory" <==> m.result == "win"
  {
    BadgeText(m.result);
    Card(CardLook(m), PositionBadgeOf(m.fmtPos), KdTone(m.kdRatio))
  }
}

=== FILE: profile_dashboard.dfy ===
/**
  The profile dashboard (src/components/ProfileDashboard.tsx): the summary
  statistics over the loaded matches, the grouping of the match list, the
  recent-matches preview and the id a row click asks for.
 */
module ProfileDashboard {
  import opened Wrappers
  import opened JsString
  import opened JsNumber
  import opened JsValue
  import MatchDetail

  /** `match_id`: absent, a string, or (after the page's fallback) the numeric `id`. */
  datatype MatchId = NoMatchId | MatchIdText(text: string) | MatchIdNumber(number: int) {
    predicate Truthy() {
      match this
      case NoMatchId => false
      case MatchIdText(s) => s != ""
      case MatchIdNumber(n) => n != 0
    }
  }

  /** One row of the match list, with the fields the dashboard and the match card read. */
  datatype MatchSummary = MatchSummary(
    id: int,
    matchId: MatchId,
    agentName: string,
    mapName: string,
    roundsWon: int,
    roundsLost: int,
    kda: string,
    kdRatio: Value,
    result: string,
    fmtPos: string)

  // ---------------------------------------------------------------- statistics

  /** `matches.filter(m => m.result === result).length`. */
  function CountResult(ms: seq<MatchSummary>, result: string): (n: nat)
    ensures n <= |ms|
    ensures n == 0 <==> forall i :: 0 <= i < |ms| ==> ms[i].result != result
  {
    if |ms| == 0 then 0 else (if ms[0].result == result then 1 else 0) + CountResult(ms[1..], result)
  }

  /** `matches.filter(m => m.fmt_pos === position).length`. */
  function CountPosition(ms: seq<MatchSummary>, position: string): (n: nat)
    ensures n <= |ms|
    ensures n == 0 <==> forall i :: 0 <= i < |ms| ==> ms[i].fmtPos != position
  {
    if |ms| == 0 then 0 else (if ms[0].fmtPos == position then 1 else 0) + CountPosition(ms[1..], position)
  }

  datatype Kda = Kda(kills: Numeric, deaths: Numeric, assists: Numeric)

  const ZeroKda := Kda(Finite(0.0), Finite(0.0), Finite(0.0))

  /** Field `i` of `kda.split('/').map(Number)`, or 0 when it is missing, zero or NaN (`x || 0`). */
  function KdaField(pieces: seq<string>, i: nat): (r: Numeric)
    ensures !r.NaN?
    ensures i >= |pieces| ==> r == Finite(0.0)
  {
    if i < |pieces| then OrZero(StringToNumber(pieces[i])) else Finite(0.0)
  }

  /** The kill, death and assist contributions of one `k/d/a` string. */
  function ParseKda(kda: string): (r: Kda)
    ensures !r.kills.NaN? && !r.deaths.NaN? && !r.assists.NaN?
  {
    var pieces := Split(kda, '/');
    Kda(KdaField(pieces, 0), KdaField(pieces, 1), KdaField(pieces, 2))
  }

  function AddKda(a: Kda, b: Kda): Kda {
    Kda(Add(a.kills, b.kills), Add(a.deaths, b.deaths), Add(a.assists, b.assists))
  }

  /** The parsed `kda` of every match, in list order. */
  function ParsedKdas(ms: seq<MatchSummary>): (r: seq<Kda>)
    ensures |r| == |ms|
    ensures forall i :: 0 <= i < |ms| ==> r[i] == ParseKda(ms[i].kda)
  {
    seq(|ms|, i requires 0 <= i < |ms| => ParseKda(ms[i].kda))
  }

  /** The running sums of the `forEach`, starting from zero and adding in list order. */
  function SumKdas(ks: seq<Kda>): Kda {
    if |ks| == 0 then ZeroKda else AddKda(SumKdas(ks[..|ks| - 1]), ks[|ks| - 1])
  }

  /** The K/D/A totals: each match adds its own parsed `kda`, in list order. */
  function KdaTotals(ms: seq<MatchSummary>): (r: Kda)
    ensures |ms| == 0 ==> r == ZeroKda
    ensures |ms| > 0 ==> r == AddKda(KdaTotals(ms[..|ms| - 1]), ParseKda(ms[|ms| - 1].kda))
  {
    var ks := ParsedKdas(ms);
    if |ms| == 0 then SumKdas(ks)
    else
      assert ks[..|ks| - 1] == ParsedKdas(ms[..|ms| - 1]);
      SumKdas(ks)
  }

  /** The statistics; the float averages (`avgKD` of a non-empty list, HS%, ADR, ACS) are not modelled. */
  datatype Stats = Stats(
    totalMatches: nat,
    wins: nat,
    losses: nat,
    winRate: int,
    avgKD: Option<string>,
    totalKills: Numeric,
    totalDeaths: Numeric,
    totalAssists: Numeric,
    mvpCount: nat)

  const EmptyStats := Stats(0, 0, 0, 0, Some("0.00"), Finite(0.0), Finite(0.0), Finite(0.0), 0)

  /** `calculateStats`. */
  function CalculateStats(ms: seq<MatchSummary>): (r: Stats)
    ensures |ms| == 0 ==> r == EmptyStats
    ensures r.totalMatches == |ms|
    ensures r.wins + r.losses <= r.totalMatches && r.mvpCount <= r.totalMatches
    ensures 0 <= r.winRate <= 100
    ensures |ms| > 0 ==> r.winRate == RoundRatio(100 * r.wins, |ms|)
    ensures r.wins == CountResult(ms, "win") && r.losses == CountResult(ms, "loss")
    ensures r.mvpCount == CountPosition(ms, "MVP")
    ensures var totals := KdaTotals(ms);
      r.totalKills == totals.kills && r.totalDeaths == totals.deaths && r.totalAssists == totals.assists
  {
    if |ms| == 0 then EmptyStats
    else
      var wins, losses := CountResult(ms, "win"), CountResult(ms, "loss");
      WinsAndLosses(ms);
      PercentInRange(wins, |ms|);
      var totals := KdaTotals(ms);
      Stats(|ms|, wins, losses, RoundRatio(100 * wins, |ms|), None,
        totals.kills, totals.deaths, totals.assists, CountPosition(ms, "MVP"))
  }

  /** Two different results are never both counted for one match. */
  lemma {:induction false} CountDistinctResults(ms: seq<MatchSummary>, a: string, b: string)
    requires a != b
    ensures CountResult(ms, a) + CountResult(ms, b) <= |ms|
  {
    if |ms| > 0 {
      CountDistinctResults(ms[1..], a, b);
    }
  }

  lemma WinsAndLosses(ms: seq<MatchSummary>)
    ensures CountResult(ms, "win") + CountResult(ms, "loss") <= |ms|
  {
    CountDistinctResults(ms, "win", "loss");
  }

  lemma {:induction false} CountResultAppend(a: seq<MatchSummary>, b: seq<MatchSummary>, result: string)
    ensures CountResult(a + b, result) == CountResult(a, result) + CountResult(b, result)
  {
    if |a| == 0 {
      assert a + b == b;
    } else {
      assert (a + b)[1..] == a[1..] + b;
      CountResultAppend(a[1..], b, result);
    }
  }

  lemma {:induction false} CountPositionAppend(a: seq<MatchSummary>, b: seq<MatchSummary>, position: string)
    ensures CountPosition(a + b, position) == CountPosition(a, position) + CountPosition(b, position)
  {
    if |a| == 0 {
      assert a + b == b;
    } else {
      assert (a + b)[1..] == a[1..] + b;
      CountPositionAppend(a[1..], b, position);
    }
  }

  /** The parsed `kda` of the list grown by one match: the old ones, then the new one. */
  lemma ParsedKdasAppend(ms: seq<MatchSummary>, m: MatchSummary)
    ensures ParsedKdas(ms + [m]) == ParsedKdas(ms) + [ParseKda(m.kda)]
  {
  }

  /**
    Adding a match moves the win count by one exactly when it is a win, and
    the loss count exactly when it is a loss: a draw counts as neither. The
    MVP count moves exactly when it is an MVP game, and its `k/d/a` is added
    onto the running totals.
   */
  lemma AddingAMatch(ms: seq<MatchSummary>, m: MatchSummary)
    ensures var before, after := CalculateStats(ms), CalculateStats(ms + [m]);
      && after.totalMatches == before.totalMatches + 1
      && after.wins == before.wins + (if m.result == "win" then 1 else 0)
      && after.losses == before.losses + (if m.result == "loss" then 1 else 0)
      && after.mvpCount == before.mvpCount + (if m.fmtPos == "MVP" then 1 else 0)
      && after.totalKills == Add(before.totalKills, ParseKda(m.kda).kills)
      && after.totalDeaths == Add(before.totalDeaths, ParseKda(m.kda).deaths)
      && after.totalAssists == Add(before.totalAssists, ParseKda(m.kda).assists)
  {
    CountResultAppend(ms, [m], "win");
    CountResultAppend(ms, [m], "loss");
    CountPositionAppend(ms, [m], "MVP");
    ParsedKdasAppend(ms, m);
    var ks := ParsedKdas(ms + [m]);
    assert ks[..|ks| - 1] == ParsedKdas(ms);
  }

  /** A `k/d/a` string of whole numbers, as the scoreboard builds it, parses back to exactly those numbers. */
  lemma ParseKdaText(k: int, d: int, a: int)
    ensures ParseKda(MatchDetail.KdaText(k, d, a)) == Kda(Finite(k as real), Finite(d as real), Finite(a as real))
  {
    StringToNumberOfInt(k);
    StringToNumberOfInt(d);
    StringToNumberOfInt(a);
  }

  function SumOf(xs: seq<int>): int {
    if |xs| == 0 then 0 else SumOf(xs[..|xs| - 1]) + xs[|xs| - 1]
  }

  lemma SumStep(a: int, b: int)
    ensures Add(Finite(a as real), Finite(b as real)) == Finite((a + b) as real)
  {
  }

  /** The totals over scoreboard-style `k/d/a` strings are the sums of the three columns. */
  lemma TotalsOfWholeNumbers(ms: seq<MatchSummary>, kills: seq<int>, deaths: seq<int>, assists: seq<int>)
    requires |kills| == |ms| && |deaths| == |ms| && |assists| == |ms|
    requires forall i :: 0 <= i < |ms| ==> ms[i].kda == MatchDetail.KdaText(kills[i], deaths[i], assists[i])
    ensures KdaTotals(ms) == Kda(Finite(SumOf(kills) as real), Finite(SumOf(deaths) as real), Finite(SumOf(assists) as real))
  {
    forall i | 0 <= i < |ms|
      ensures ParseKda(ms[i].kda) == Kda(Finite(kills[i] as real), Finite(deaths[i] as real), Finite(assists[i] as real))
    {
      ParseKdaText(kills[i], deaths[i], assists[i]);
    }
    SumOfWholeNumbers(ParsedKdas(ms), kills, deaths, assists);
  }

  /** Sums of whole numbers stay finite and add up exactly. */
  lemma {:induction false} SumOfWholeNumbers(ks: seq<Kda>, kills: seq<int>, deaths: seq<int>, assists: seq<int>)
    requires |kills| == |ks| && |deaths| == |ks| && |assists| == |ks|
    requires forall i :: 0 <= i < |ks| ==> ks[i] == Kda(Finite(kills[i] as real), Finite(deaths[i] as real), Finite(assists[i] as real))
    ensures SumKdas(ks) == Kda(Finite(SumOf(kills) as real), Finite(SumOf(deaths) as real), Finite(SumOf(assists) as real))
  {
    if |ks| > 0 {
      var n := |ks| - 1;
      assert forall i :: 0 <= i < n ==>
        ks[..n][i] == Kda(Finite(kills[..n][i] as real), Finite(deaths[..n][i] as real), Finite(assists[..n][i] as real));
      SumOfWholeNumbers(ks[..n], kills[..n], deaths[..n], assists[..n]);
      SumStep(SumOf(kills[..n]), kills[n]);
      SumStep(SumOf(deaths[..n]), deaths[n]);
      SumStep(SumOf(assists[..n]), assists[n]);
    }
  }

  /** A `kda` with fewer than three pieces contributes nothing for the missing ones. */
  lemma MissingFieldsCountZero(kda: string)
    requires '/' !in kda
    ensures ParseKda(kda).deaths == Finite(0.0) && ParseKda(kda).assists == Finite(0.0)
  {
  }

  // ---------------------------------------------------------------- grouping

  datatype Group = Group(key: string, matches: seq<MatchSummary>)

  const RecentKey := "Recent Matches"

  /** `groups[key].push(m)`, creating the group at the end when it is new (object key order). */
  function AddToGroup(groups: seq<Group>, key: string, m: MatchSummary): (r: seq<Group>)
    ensures |r| == |groups| || |r| == |groups| + 1
  {
    if |groups| == 0 then [Group(key, [m])]
    else if groups[0].key == key then [groups[0].(matches := groups[0].matches + [m])] + groups[1..]
    else [groups[0]] + AddToGroup(groups[1..], key, m)
  }

  /**
    `groupMatchesByDate`: every match goes under the one key "Recent
    Matches". A non-empty list forms exactly one group, holding every match
    in order; an empty list forms none.
   */
  function GroupMatchesByDate(ms: seq<MatchSummary>): (r: seq<Group>)
    ensures |ms| == 0 ==> r == []
    ensures |ms| > 0 ==> r == [Group(RecentKey, ms)]
  {
    if |ms| == 0 then []
    else
      var n := |ms| - 1;
      assert ms[..n] + [ms[n]] == ms;
      AddToGroup(GroupMatchesByDate(ms[..n]), RecentKey, ms[n])
  }

  /** The "`w`W / `l`L" tally beside a group's heading: wins and losses of that group. */
  function GroupTally(g: Group): (r: string)
    ensures Split(r, ' ') == [IntToString(CountResult(g.matches, "win")) + "W", "/",
                              IntToString(CountResult(g.matches, "loss")) + "L"]
  {
    var wins := IntToString(CountResult(g.matches, "win")) + "W";
    var losses := IntToString(CountResult(g.matches, "loss")) + "L";
    NoSpaceInNumber(CountResult(g.matches, "win"));
    NoSpaceInNumber(CountResult(g.matches, "loss"));
    SplitJoin([wins, "/", losses], ' ');
    Join([wins, "/", losses], ' ')
  }

  lemma NoSpaceInNumber(n: int)
    ensures ' ' !in IntToString(n) + "W" && ' ' !in IntToString(n) + "L"
  {
    var t := IntToString(n);
    assert forall i :: 0 <= i < |t| ==> t[i] != ' ';
  }

  /** The two numbers of the tally read back as the group's win and loss counts, which never exceed its size. */
  lemma TallyReadsBack(g: Group)
    ensures var parts := Split(GroupTally(g), ' ');
      && StringToNumber(parts[0][..|parts[0]| - 1]) == Finite(CountResult(g.matches, "win") as real)
      && StringToNumber(parts[2][..|parts[2]| - 1]) == Finite(CountResult(g.matches, "loss") as real)
      && CountResult(g.matches, "win") + CountResult(g.matches, "loss") <= |g.matches|
  {
    var wins, losses := CountResult(g.matches, "win"), CountResult(g.matches, "loss");
    var parts := Split(GroupTally(g), ' ');
    assert parts[0] == IntToString(wins) + "W";
    assert parts[2] == IntToString(losses) + "L";
    NumberBeforeSuffix(wins, "W");
    NumberBeforeSuffix(losses, "L");
    WinsAndLosses(g.matches);
  }

  lemma NumberBeforeSuffix(n: int, suffix: string)
    requires |suffix| == 1
    ensures var t := IntToString(n) + suffix; StringToNumber(t[..|t| - 1]) == Finite(n as real)
  {
    var t := IntToString(n) + suffix;
    assert t[..|t| - 1] == IntToString(n);
    StringToNumberOfInt(n);
  }

  // ---------------------------------------------------------------- preview

  const PreviewSize := 8

  /** The caption under the `index`-th preview icon. */
  /**
    The caption under the `index`-th preview icon: "Latest" for the first
    only, otherwise a number that reads back as `index + 1`, then " ago".
    Different icons therefore never share a caption.
   */
  function PreviewLabel(index: nat): (r: string)
    ensures index == 0 <==> r == "Latest"
    ensures index > 0 ==>
      && |r| > 4 && r[|r| - 4..] == " ago"
      && StringToNumber(r[..|r| - 4]) == Finite((index + 1) as real)
  {
    if index == 0 then "Latest"
    else
      var number := IntToString(index + 1);
      StringToNumberOfInt(index + 1);
      assert (number + " ago")[..|number|] == number;
      assert IsDecimalDigit(number[0]);
      number + " ago"
  }

  datatype PreviewItem = PreviewItem(caption: string, item: MatchSummary)

  /** `matches.slice(0, 8).map(...)`. */
  function Preview(ms: seq<MatchSummary>): (r: seq<PreviewItem>)
    ensures |r| == if |ms| < PreviewSize then |ms| else PreviewSize
    ensures forall i :: 0 <= i < |r| ==> r[i].item == ms[i] && r[i].caption == PreviewLabel(i)
  {
    var shown := if |ms| < PreviewSize then ms else ms[..PreviewSize];
    seq(|shown|, i requires 0 <= i < |shown| => PreviewItem(PreviewLabel(i), shown[i]))
  }

  // ---------------------------------------------------------------- row click

  /** The text a `match_id` value turns into in the detail request URL. */
  function MatchIdText(id: MatchId): (r: string)
    requires id.Truthy()
    ensures id.MatchIdNumber? ==> StringToNumber(r) == Finite(id.number as real)
  {
    match id
    case MatchIdText(s) => s
    case MatchIdNumber(n) => StringToNumberOfInt(n); IntToString(n)
  }

  /** `match.match_id || String(match.id)`. */
  function RowClickId(m: MatchSummary): (r: string)
    ensures r != ""
    ensures !m.matchId.Truthy() ==> StringToNumber(r) == Finite(m.id as real)
    ensures m.matchId.MatchIdText? && m.matchId.text != "" ==> r == m.matchId.text
    ensures m.matchId.MatchIdNumber? && m.matchId.number != 0 ==>
      StringToNumber(r) == Finite(m.matchId.number as real)
  {
    StringToNumberOfInt(m.id);
    if m.matchId.Truthy() then MatchIdText(m.matchId) else IntToString(m.id)
  }
}

=== FILE: profile_page.dfy ===
/**
  The profile page (src/pages/ProfilePage.tsx) as step functions over
  events: the route parameter is split back into Riot id and tagline, the
  profile is loaded, the background update is triggered and polled, and a
  clicked match is loaded into the detail overlay. Responses and timer
  firings are inputs; nothing here waits.
 */
module ProfilePage {
  import opened Wrappers
  import opened JsString
  import opened JsNumber
  import opened JsValue
  import opened Http
  import opened UriEncoding
  import LandingPage
  import opened ProfileDashboard
  import MatchDetail

  // ---------------------------------------------------------------- route parameter

  datatype PlayerKey = PlayerKey(riotId: string, tagline: string)

  /**
    `riotId` / `tagline`: the text before and after the last `-` of a truthy
    id; nothing when the id is missing, empty, or has no `-`.
   */
  function ParseSlug(id: Option<string>): (r: Option<PlayerKey>)
    ensures r.Some? <==> id.Some? && '-' in id.value
    ensures r.Some? ==> id.value == r.value.riotId + "-" + r.value.tagline && '-' !in r.value.tagline
  {
    if id.None? || id.value == "" then None
    else
      var i := LastIndexOf(id.value, '-');
      if i == -1 then None
      else
        var s := id.value;
        assert s == s[..i] + "-" + s[i + 1..];
        Some(PlayerKey(s[..i], s[i + 1..]))
  }

  /** Splitting at the last `-` undoes joining with `-` exactly when the second part has no `-`. */
  lemma ParseJoined(a: string, b: string)
    ensures ParseSlug(Some(a + "-" + b)) == Some(PlayerKey(a, b)) <==> '-' !in b
  {
    var s := a + "-" + b;
    if '-' !in b {
      assert s[|a|] == '-';
      assert forall k :: |a| < k < |s| ==> s[k] == b[k - |a| - 1];
      assert LastIndexOf(s, '-') == |a|;
      assert s[..|a|] == a && s[|a| + 1..] == b;
    }
  }

  /**
    The slug round trip on the path segment's text: the segment built by
    the landing page splits back into the two encoded names exactly when
    the tagline has no `-` (the Riot id may hold any number of them). The
    router's own decoding of the parameter is taken as the identity here;
    `DecodedRouteRequest` states what the page does with the decoded id.
   */
  lemma SlugRoundTrip(riotId: string, tagline: string)
    ensures (ParseSlug(Some(LandingPage.Slug(riotId, tagline)))
      == Some(PlayerKey(EncodeUriComponent(riotId), EncodeUriComponent(tagline)))) <==> '-' !in tagline
  {
    ParseJoined(EncodeUriComponent(riotId), EncodeUriComponent(tagline));
    EncodedHyphen(tagline);
  }

  /** A usable key: both parts present and non-empty. */
  predicate ValidKey(key: Option<PlayerKey>) {
    key.Some? && key.value.riotId != "" && key.value.tagline != ""
  }

  // ---------------------------------------------------------------- state

  datatype PageState = PageState(
    isLoading: bool,
    matches: seq<MatchSummary>,
    puuid: Value,
    region: Value,
    selectedMatch: Option<MatchDetail.Match>,
    isMatchLoading: bool,
    error: Option<string>,
    isUpdating: bool,
    updateStatus: string,
    updateProgress: int,
    livePolls: nat,
    pendingHides: nat)

  /** The state on mount; `livePolls` counts running poll intervals, `pendingHides` scheduled hide timers. */
  const Initial := PageState(true, [], Null, Null, None, false, None, false, "", 0, 0, 0)

  const InvalidUrl := "Invalid profile URL. Expected format: name-tag"
  const PlayerNotFound := "Player not found."
  const MatchesFailed := "Failed to fetch matches."
  const LoadFailed := "Failed to load profile"

  // ---------------------------------------------------------------- initial load

  datatype LoadStart = LoadStart(state: PageState, request: Option<string>)

  /**
    The start of the load effect: an unusable truthy id shows the URL error
    and stops loading without a request; a missing or empty id changes
    nothing; otherwise the player lookup is requested.
   */
  function BeginLoad(s: PageState, id: Option<string>): (r: LoadStart)
    ensures r.request.Some? <==> ValidKey(ParseSlug(id))
    ensures r.request.Some? ==> r.request.value == LandingPage.LookupPath(ParseSlug(id).value.riotId, ParseSlug(id).value.tagline)
    ensures r.request.Some? ==> r.state == s.(isLoading := true, error := None)
    ensures !ValidKey(ParseSlug(id)) && id.Some? && id.value != "" ==>
      r.state == s.(error := Some(InvalidUrl), isLoading := false)
    ensures id.None? || id.value == "" ==> r.state == s
  {
    var key := ParseSlug(id);
    if !ValidKey(key) then
      if id.Some? && id.value != "" then LoadStart(s.(error := Some(InvalidUrl), isLoading := false), None)
      else LoadStart(s, None)
    else
      LoadStart(s.(isLoading := true, error := None), Some(LandingPage.LookupPath(key.value.riotId, key.value.tagline)))
  }

  /**
    The router hands the page its `:id` parameter already decoded, so for a
    profile reached from a search the page sees the raw name, `-`, and the
    raw tagline. When the tagline has no `-` it requests the lookup of
    exactly those names, each encoded once, as the landing page did.
   */
  lemma DecodedRouteRequest(s: PageState, riotId: string, tagline: string)
    requires riotId != "" && tagline != ""
    ensures ParseSlug(Some(riotId + "-" + tagline)) == Some(PlayerKey(riotId, tagline)) <==> '-' !in tagline
    ensures '-' !in tagline ==>
      BeginLoad(s, Some(riotId + "-" + tagline)).request == Some(LandingPage.LookupPath(riotId, tagline))
  {
    ParseJoined(riotId, tagline);
  }

  datatype PlayerInfo = PlayerInfo(puuid: Value, region: Value)

  /** `match_id: match.match_id || match.id`. */
  function NormaliseMatchId(m: MatchSummary): (r: MatchSummary)
    ensures r.(matchId := m.matchId) == m
    ensures m.matchId.Truthy() ==> r == m
    ensures !m.matchId.Truthy() ==> r.matchId == MatchIdNumber(m.id)
  {
    if m.matchId.Truthy() then m else m.(matchId := MatchIdNumber(m.id))
  }

  function NormaliseMatchIds(ms: seq<MatchSummary>): (r: seq<MatchSummary>)
    ensures |r| == |ms|
    ensures forall i :: 0 <= i < |ms| ==> r[i] == NormaliseMatchId(ms[i])
  {
    seq(|ms|, i requires 0 <= i < |ms| => NormaliseMatchId(ms[i]))
  }

  /** Normalising twice is normalising once, and it never changes the id a row click asks for. */
  lemma NormaliseStable(m: MatchSummary)
    ensures NormaliseMatchId(NormaliseMatchId(m)) == NormaliseMatchId(m)
    ensures RowClickId(NormaliseMatchId(m)) == RowClickId(m)
  {
  }

  /**
    The rest of the load effect, once the player lookup and (if that
    succeeded) the match list have answered; loading always ends.
   */
  function FinishLoad(s: PageState, player: Fetch<PlayerInfo>, list: Fetch<seq<MatchSummary>>): (r: PageState)
    ensures !r.isLoading
    ensures player.NotOk? ==> r == s.(error := Some(PlayerNotFound), isLoading := false)
    ensures player.Rejected? ==> r == s.(error := Some(CaughtMessage(player.thrown, LoadFailed)), isLoading := false)
    ensures player.Ok? ==> r.puuid == player.body.puuid && r.region == player.body.region
    ensures player.Ok? && list.Ok? ==> r.matches == NormaliseMatchIds(list.body) && r.error == s.error
    ensures player.Ok? && list.NotOk? ==> r.error == Some(MatchesFailed) && r.matches == s.matches
    ensures player.Ok? && list.Rejected? ==> r.error == Some(CaughtMessage(list.thrown, LoadFailed)) && r.matches == s.matches
    ensures player.Ok? ==>
      r.(puuid := s.puuid, region := s.region, matches := s.matches, error := s.error, isLoading := s.isLoading) == s
  {
    match player
    case NotOk => s.(error := Some(PlayerNotFound), isLoading := false)
    case Rejected(e) => s.(error := Some(CaughtMessage(e, LoadFailed)), isLoading := false)
    case Ok(info) =>
      var known := s.(puuid := info.puuid, region := info.region);
      match list
      case NotOk => known.(error := Some(MatchesFailed), isLoading := false)
      case Rejected(e) => known.(error := Some(CaughtMessage(e, LoadFailed)), isLoading := false)
      case Ok(ms) => known.(matches := NormaliseMatchIds(ms), isLoading := false)
  }

  /** A load that starts with a valid id and whose requests both succeed ends without an error and with every match normalised. */
  lemma SuccessfulLoad(s: PageState, id: Option<string>, info: PlayerInfo, ms: seq<MatchSummary>)
    requires ValidKey(ParseSlug(id))
    ensures var r := FinishLoad(BeginLoad(s, id).state, Ok(info), Ok(ms));
      !r.isLoading && r.error == None && |r.matches| == |ms|
      && forall i :: 0 <= i < |ms| ==> r.matches[i].(matchId := ms[i].matchId) == ms[i]
  {
  }

  /** Whether the error screen replaces the dashboard. */
  predicate ShowsError(s: PageState) {
    s.error.Some? && s.error.value != ""
  }

  /**
    An id with no `-`, one ending in `-`, or one whose only `-` is its first
    character ends on the error screen with no request.
   */
  lemma InvalidIdShowsError(id: string)
    requires id != ""
    requires '-' !in id || id[|id| - 1] == '-' || (id[0] == '-' && '-' !in id[1..])
    ensures BeginLoad(Initial, Some(id)).request == None
    ensures ShowsError(BeginLoad(Initial, Some(id)).state) && !BeginLoad(Initial, Some(id)).state.isLoading
  {
    assert !ValidKey(ParseSlug(Some(id))) by {
      if '-' in id {
        var i := LastIndexOf(id, '-');
        if id[|id| - 1] == '-' {
          assert i == |id| - 1;
        } else {
          assert forall k :: 0 < k < |id| ==> id[k] == id[1..][k - 1];
          assert i == 0;
        }
      }
    }
  }

  // ---------------------------------------------------------------- background update

  const SyncStarting := "Starting background sync..."
  const SyncStartFailed := "Sync failed to start."
  const SyncComplete := "Sync complete!"
  const SyncFailed := "Sync failed."
  const FetchingFromApi := "Fetching from API..."

  /** Whether an update can be requested: both `puuid` and `region` truthy. */
  predicate CanUpdate(s: PageState) {
    s.puuid.Truthy() && s.region.Truthy()
  }

  /** The synchronous start of `handleUpdateMatches`. */
  function RequestUpdate(s: PageState): (r: PageState)
    ensures !CanUpdate(s) ==> r == s
    ensures CanUpdate(s) ==> r == s.(isUpdating := true, updateStatus := SyncStarting, updateProgress := 0)
  {
    if !CanUpdate(s) then s else s.(isUpdating := true, updateStatus := SyncStarting, updateProgress := 0)
  }

  /**
    The trigger request answered: a task started means one more running poll
    interval; anything else reports the failure and schedules the hide.
   */
  function TriggerAnswered(s: PageState, trigger: Fetch<()>): (r: PageState)
    ensures trigger.Ok? ==> r == s.(livePolls := s.livePolls + 1)
    ensures !trigger.Ok? ==> r == s.(updateStatus := SyncStartFailed, pendingHides := s.pendingHides + 1)
  {
    if trigger.Ok? then s.(livePolls := s.livePolls + 1)
    else s.(updateStatus := SyncStartFailed, pendingHides := s.pendingHides + 1)
  }

  /** `statusData.meta` of a PROGRESS reply. */
  datatype ProgressMeta = ProgressMeta(status: Option<string>, current: int, total: int)

  /** The decoded status reply, or one whose body could not be read. */
  datatype PollReply = Unreadable | Status(state: string, meta: Option<ProgressMeta>)

  /** The progress of a PROGRESS reply with a truthy total. */
  function ProgressPercent(current: int, total: int): (r: int)
    requires total != 0
    ensures 0 <= current <= total ==> 0 <= r <= 100
  {
    PercentInRange(current, total);
    RoundRatio(100 * current, total)
  }

  /**
    One tick of a running poll interval, given the status reply and, after
    SUCCESS, the refreshed match list when it could be read (the code reads
    it without checking the response, so an unreadable list rejects and
    no hide is scheduled).
   */
  function PollTick(s: PageState, reply: PollReply, refreshed: Option<seq<MatchSummary>>): (r: PageState)
    requires s.livePolls > 0
    ensures reply.Status? && reply.state == "SUCCESS" ==>
      r.livePolls == s.livePolls - 1 && r.updateStatus == SyncComplete && r.updateProgress == 100
      && (refreshed.Some? ==> r.matches == NormaliseMatchIds(refreshed.value) && r.pendingHides == s.pendingHides + 1)
      && (refreshed.None? ==> r.matches == s.matches && r.pendingHides == s.pendingHides)
      && r.(livePolls := s.livePolls, updateStatus := s.updateStatus, updateProgress := s.updateProgress,
            matches := s.matches, pendingHides := s.pendingHides) == s
    ensures reply.Status? && reply.state == "FAILURE" ==>
      r == s.(livePolls := s.livePolls - 1, updateStatus := SyncFailed, pendingHides := s.pendingHides + 1)
    ensures reply.Status? && reply.state == "PROGRESS" && reply.meta.Some? ==>
      r.livePolls == s.livePolls && r.matches == s.matches
      && r.updateStatus == (if reply.meta.value.status.Some? && reply.meta.value.status.value != "" then reply.meta.value.status.value else FetchingFromApi)
      && (reply.meta.value.total == 0 ==> r.updateProgress == s.updateProgress)
      && (reply.meta.value.total != 0 ==>
            r.updateProgress == RoundRatio(100 * reply.meta.value.current, reply.meta.value.total))
      && r.(updateStatus := s.updateStatus, updateProgress := s.updateProgress) == s
    ensures !IsSettling(reply) && !IsProgress(reply) ==> r == s
  {
    match reply
    case Unreadable => s
    case Status(state, meta) =>
      if state == "SUCCESS" then
        var done := s.(livePolls := s.livePolls - 1, updateStatus := SyncComplete, updateProgress := 100);
        if refreshed.Some? then done.(matches := NormaliseMatchIds(refreshed.value), pendingHides := done.pendingHides + 1)
        else done
      else if state == "PROGRESS" && meta.Some? then
        var m := meta.value;
        var status := if m.status.Some? && m.status.value != "" then m.status.value else FetchingFromApi;
        if m.total != 0 then s.(updateStatus := status, updateProgress := ProgressPercent(m.current, m.total))
        else s.(updateStatus := status)
      else if state == "FAILURE" then
        s.(livePolls := s.livePolls - 1, updateStatus := SyncFailed, pendingHides := s.pendingHides + 1)
      else s
  }

  predicate IsSettling(reply: PollReply) {
    reply.Status? && (reply.state == "SUCCESS" || reply.state == "FAILURE")
  }

  predicate IsProgress(reply: PollReply) {
    reply.Status? && reply.state == "PROGRESS" && reply.meta.Some?
  }

  /** A PROGRESS reply with `0 <= current <= total` and a truthy total sets the progress to the rounded percentage. */
  lemma ProgressBounded(s: PageState, current: int, total: int, status: Option<string>)
    requires s.livePolls > 0 && 0 <= current <= total && total != 0
    ensures var r := PollTick(s, Status("PROGRESS", Some(ProgressMeta(status, current, total))), None);
      r.updateProgress == RoundRatio(100 * current, total) && 0 <= r.updateProgress <= 100
  {
  }

  /** The hide timer fires: the progress bar goes away. */
  function HideTimerFires(s: PageState): (r: PageState)
    requires s.pendingHides > 0
    ensures !r.isUpdating && r.pendingHides == s.pendingHides - 1
    ensures r.(isUpdating := s.isUpdating, pendingHides := s.pendingHides) == s
  {
    s.(isUpdating := false, pendingHides := s.pendingHides - 1)
  }

  /** A run of poll ticks with their replies; refreshes are not needed for replies that do not settle. */
  function PollTicks(s: PageState, replies: seq<PollReply>): PageState
    requires s.livePolls > 0
    requires forall i :: 0 <= i < |replies| ==> !IsSettling(replies[i]) && !IsProgress(replies[i])
  {
    if |replies| == 0 then s else PollTicks(PollTick(s, replies[0], None), replies[1..])
  }

  /**
    There is no poll limit: any number of replies that neither settle nor
    report progress leave the page exactly as it was, still polling.
   */
  lemma {:induction false} PendingForever(s: PageState, replies: seq<PollReply>)
    requires s.livePolls > 0
    requires forall i :: 0 <= i < |replies| ==> !IsSettling(replies[i]) && !IsProgress(replies[i])
    ensures PollTicks(s, replies) == s
  {
    if |replies| > 0 {
      assert PollTick(s, replies[0], None) == s;
      PendingForever(s, replies[1..]);
    }
  }

  /** A second request while one is polling starts a second interval: nothing guards against it. */
  lemma SecondUpdateDoublesPolling(s: PageState)
    requires CanUpdate(s) && s.livePolls == 1
    ensures TriggerAnswered(RequestUpdate(s), Ok(())).livePolls == 2
  {
  }

  // ---------------------------------------------------------------- match detail

  /** `handleMatchClick` before its request answers. */
  function BeginMatchClick(s: PageState): (r: PageState)
    ensures r.isMatchLoading && r.selectedMatch.None?
    ensures r.(isMatchLoading := s.isMatchLoading, selectedMatch := s.selectedMatch) == s
  {
    s.(isMatchLoading := true, selectedMatch := None)
  }

  /** The detail request answered; a failure is only logged. */
  function FinishMatchClick(s: PageState, detail: Fetch<MatchDetail.Match>): (r: PageState)
    ensures !r.isMatchLoading
    ensures detail.Ok? ==> r.selectedMatch == Some(detail.body)
    ensures !detail.Ok? ==> r.selectedMatch == s.selectedMatch
    ensures r.(isMatchLoading := s.isMatchLoading, selectedMatch := s.selectedMatch) == s
  {
    match detail
    case Ok(m) => s.(isMatchLoading := false, selectedMatch := Some(m))
    case _ => s.(isMatchLoading := false)
  }

  function CloseMatch(s: PageState): (r: PageState)
    ensures r.selectedMatch.None? && r.(selectedMatch := s.selectedMatch) == s
  {
    s.(selectedMatch := None)
  }

  /**
    The overlay: shown while a match is selected or loading, rendered by the
    scoreboard's gate, unless the error screen replaces the whole page.
   */
  function Overlay(s: PageState): (r: Option<MatchDetail.View>)
    ensures ShowsError(s) ==> r.None?
    ensures r.Some? <==> !ShowsError(s) && (s.selectedMatch.Some? || s.isMatchLoading)
    ensures r.Some? ==> r.value == MatchDetail.Render(s.selectedMatch, s.isMatchLoading)
  {
    if ShowsError(s) then None
    else if s.selectedMatch.Some? || s.isMatchLoading then Some(MatchDetail.Render(s.selectedMatch, s.isMatchLoading))
    else None
  }

  /**
    A selected match is hidden once the route changes to an unusable id:
    the error screen comes first, though the selection is kept.
   */
  lemma InvalidRouteHidesOverlay(s: PageState, id: string)
    requires s.selectedMatch.Some? && id != "" && !ValidKey(ParseSlug(Some(id)))
    ensures var r := BeginLoad(s, Some(id)).state;
      r.selectedMatch == s.selectedMatch && ShowsError(r) && Overlay(r) == None
  {
  }

  /** A click whose request fails leaves no match selected, so the overlay closes and nothing is shown. */
  lemma FailedClickClosesOverlay(s: PageState, detail: Fetch<MatchDetail.Match>)
    requires !detail.Ok?
    ensures var r := FinishMatchClick(BeginMatchClick(s), detail);
      !r.isMatchLoading && r.selectedMatch.None? && Overlay(r) == None
  {
  }
}

=== FILE: rank_circle.dfy ===
/**
  The rank fan of src/components/RankCircle.tsx: 24 ring segments, the
  first `tier` of them filled with a colour band that depends on where the
  segment sits in the ring, and the last filled one highlighted.
 */
module RankCircle {
  import opened Wrappers
  import opened JsString
  import opened JsNumber

  const SegmentCount: nat := 24
  const DefaultTier: int := 12
  const DefaultRr: int := 50

  datatype Fill = EmptyFill | PhantomFill | MixedFill | DragonFill

  datatype Segment = Segment(filled: bool, current: bool, fill: Fill)

  /** `Math.min(tier, 24)`, with the default tier of 12 when none is given. */
  function FilledSegments(tier: Option<int>): (n: int)
    ensures n <= SegmentCount
    ensures tier.None? ==> n == DefaultTier
  {
    var t := tier.GetOr(DefaultTier);
    if t < SegmentCount then t else SegmentCount
  }

  /**
    The colour band of segment `i`: `i / 24` below 0.33, below 0.66, or
    above. Compared exactly: `i / 24 < 0.33` is `100 * i < 792`.
   */
  function Band(i: nat): (f: Fill)
    ensures f != EmptyFill
  {
    if 100 * i < 33 * SegmentCount then PhantomFill
    else if 100 * i < 66 * SegmentCount then MixedFill
    else DragonFill
  }

  /**
    Segment `i` of a ring with `filledCount` filled: filled below the count,
    highlighted only as the last filled one, and coloured exactly when filled.
   */
  function SegmentAt(filledCount: int, i: nat): (s: Segment)
    ensures s.filled <==> i < filledCount
    ensures s.current <==> i == filledCount - 1
    ensures s.current ==> s.filled
    ensures s.fill == EmptyFill <==> !s.filled
  {
    var filled := i < filledCount;
    Segment(filled, i == filledCount - 1, if filled then Band(i) else EmptyFill)
  }

  /** The 24 segments, in drawing order. */
  function Segments(tier: Option<int>): (r: seq<Segment>)
    ensures |r| == SegmentCount
    ensures forall i :: 0 <= i < |r| ==> r[i] == SegmentAt(FilledSegments(tier), i)
  {
    var n := FilledSegments(tier);
    seq(SegmentCount, i requires 0 <= i < SegmentCount => SegmentAt(n, i))
  }

  function CountFilled(segments: seq<Segment>): nat {
    if |segments| == 0 then 0 else (if segments[0].filled then 1 else 0) + CountFilled(segments[1..])
  }

  lemma {:induction false} CountFilledPrefix(segments: seq<Segment>, n: nat)
    requires n <= |segments|
    requires forall i :: 0 <= i < |segments| ==> (segments[i].filled <==> i < n)
    ensures CountFilled(segments) == n
    decreases |segments|
  {
    if |segments| > 0 {
      var rest := segments[1..];
      if n == 0 {
        CountFilledPrefix(rest, 0);
      } else {
        CountFilledPrefix(rest, n - 1);
      }
    }
  }

  /**
    The filled segments are exactly the first `tier` of them (none for a
    tier of zero or less, all 24 from tier 24 on), each coloured by its band,
    and the unfilled ones are empty.
   */
  lemma FilledPrefix(tier: Option<int>)
    ensures var t := tier.GetOr(DefaultTier); var r := Segments(tier);
      && CountFilled(r) == (if t <= 0 then 0 else if t < SegmentCount then t else SegmentCount)
      && (forall i :: 0 <= i < |r| ==> (r[i].filled <==> i < t))
      && (forall i :: 0 <= i < |r| ==> (r[i].fill == EmptyFill <==> !r[i].filled))
  {
    var r := Segments(tier);
    var t := tier.GetOr(DefaultTier);
    var n := if t <= 0 then 0 else FilledSegments(tier);
    CountFilledPrefix(r, n);
  }

  /**
    At most one segment is highlighted: the last filled one. A tier of zero
    or less fills nothing and highlights nothing.
   */
  lemma CurrentSegment(tier: Option<int>)
    ensures var t := tier.GetOr(DefaultTier); var r := Segments(tier);
      && (forall i :: 0 <= i < |r| && r[i].current ==> r[i].filled && i == FilledSegments(tier) - 1)
      && (t <= 0 ==> forall i :: 0 <= i < |r| ==> !r[i].current && !r[i].filled)
      && (t > 0 ==> r[FilledSegments(tier) - 1].current)
  {
  }

  /** Segments 0 to 7 are phantom, 8 to 15 mixed, 16 to 23 dragon. */
  lemma Bands(i: nat)
    requires i < SegmentCount
    ensures Band(i) == PhantomFill <==> i < 8
    ensures Band(i) == MixedFill <==> 8 <= i < 16
    ensures Band(i) == DragonFill <==> 16 <= i
  {
  }

  /** A higher tier fills every segment a lower one does, with the same colours. */
  lemma {:induction false} TierMonotone(a: int, b: int, i: nat)
    requires a <= b && i < SegmentCount
    ensures Segments(Some(a))[i].filled ==> Segments(Some(b))[i].filled
    ensures Segments(Some(a))[i].filled ==> Segments(Some(a))[i].fill == Segments(Some(b))[i].fill
  {
  }

  /** The "`rr` RR" caption in the centre, with the default of 50. */
  function RrCaption(rr: Option<int>): (r: string)
    ensures Split(r, ' ') == [IntToString(rr.GetOr(DefaultRr)), "RR"]
  {
    var n := IntToString(rr.GetOr(DefaultRr));
    assert forall i :: 0 <= i < |n| ==> n[i] != ' ';
    SplitJoin([n, "RR"], ' ');
    Join([n, "RR"], ' ')
  }

  /** The number in the caption reads back as the rank rating shown. */
  lemma RrCaptionReadsBack(rr: Option<int>)
    ensures StringToNumber(Split(RrCaption(rr), ' ')[0]) == Finite(rr.GetOr(DefaultRr) as real)
  {
    StringToNumberOfInt(rr.GetOr(DefaultRr));
  }
}

=== FILE: uri_encoding.dfy ===
/**
  `encodeURIComponent` as ECMAScript defines it (section 19.2.6.5 of
  ECMA-262, the Encode operation): characters outside the unreserved set are
  written as `%XX` escapes of their UTF-8 bytes; letters, digits and
  `-_.!~*'()` are kept as they are.
 */
module UriEncoding {
  import opened JsString

  predicate IsUnreserved(c: char) {
    ('A' <= c <= 'Z') || ('a' <= c <= 'z') || ('0' <= c <= '9') || c in "-_.!~*'()"
  }

  predicate IsUpperHex(c: char) {
    ('0' <= c <= '9') || ('A' <= c <= 'F')
  }

  predicate IsByte(b: int) {
    0 <= b < 256
  }

  /** The UTF-8 encoding of a code point. */
  function Utf8(cp: nat): (r: seq<int>)
    requires cp <= 0x10FFFF
    ensures 1 <= |r| <= 4
    ensures forall i :: 0 <= i < |r| ==> IsByte(r[i])
  {
    if cp < 0x80 then [cp]
    else if cp < 0x800 then [0xC0 + cp / 0x40, 0x80 + cp % 0x40]
    else if cp < 0x10000 then [0xE0 + cp / 0x1000, 0x80 + (cp / 0x40) % 0x40, 0x80 + cp % 0x40]
    else [0xF0 + cp / 0x40000, 0x80 + (cp / 0x1000) % 0x40, 0x80 + (cp / 0x40) % 0x40, 0x80 + cp % 0x40]
  }

  function HexDigit(d: nat): (c: char)
    requires d < 16
    ensures IsUpperHex(c)
  {
    "0123456789ABCDEF"[d]
  }

  /** `%XX` escapes of a byte sequence. */
  function PercentEscapes(bytes: seq<int>): (r: string)
    requires forall i :: 0 <= i < |bytes| ==> IsByte(bytes[i])
    ensures |r| == 3 * |bytes|
    ensures forall i :: 0 <= i < |r| ==> r[i] == '%' || IsUpperHex(r[i])
  {
    if |bytes| == 0 then ""
    else
      var b := bytes[0];
      assert IsByte(b);
      ['%', HexDigit(b / 16), HexDigit(b % 16)] + PercentEscapes(bytes[1..])
  }

  function EncodeChar(c: char): (r: string)
    ensures IsUnreserved(c) ==> r == [c]
    ensures !IsUnreserved(c) ==> forall i :: 0 <= i < |r| ==> r[i] == '%' || IsUpperHex(r[i])
  {
    if IsUnreserved(c) then [c] else PercentEscapes(Utf8(c as int))
  }

  /** `encodeURIComponent(s)`. */
  function EncodeUriComponent(s: string): (r: string)
    ensures |r| >= |s|
  {
    if |s| == 0 then "" else EncodeChar(s[0]) + EncodeUriComponent(s[1..])
  }

  /**
    `-` is not escaped, and no escape produces one: the encoded text holds a
    hyphen exactly when the original does.
   */
  lemma {:induction false} EncodedHyphen(s: string)
    ensures '-' in EncodeUriComponent(s) <==> '-' in s
  {
    if |s| > 0 {
      EncodedHyphen(s[1..]);
      HyphenInEncodedChar(s[0]);
      InAppend(EncodeChar(s[0]), EncodeUriComponent(s[1..]), '-');
      InCons(s, '-');
    }
  }

  lemma HyphenInEncodedChar(c: char)
    ensures '-' in EncodeChar(c) <==> c == '-'
  {
  }

  /** Text made only of unreserved characters is encoded as itself. */
  lemma {:induction false} EncodeUnreserved(s: string)
    requires forall i :: 0 <= i < |s| ==> IsUnreserved(s[i])
    ensures EncodeUriComponent(s) == s
  {
    if |s| > 0 {
      EncodeUnreserved(s[1..]);
    }
  }

  /** A character that is neither unreserved, `%` nor an upper-case hex digit never appears in encoded text. */
  lemma {:induction false} EncodedExcludes(s: string, c: char)
    requires !IsUnreserved(c) && c != '%' && !IsUpperHex(c)
    ensures c !in EncodeUriComponent(s)
  {
    if |s| > 0 {
      EncodedExcludes(s[1..], c);
      InAppend(EncodeChar(s[0]), EncodeUriComponent(s[1..]), c);
    }
  }
}

=== FILE: wrappers.dfy ===
/** Optional values: the model's stand-in for JavaScript's `null`/`undefined`. */
module Wrappers {

  datatype Option<+T> = None | Some(value: T) {

    /** Returns the value held in Some, or `default` when None. */
    function GetOr(default: T): T {
      match this
      case Some(v) => v
      case None => default
    }
  }
}
